=== FILE: README.md ===
# charlatan's type model, in Dafny

charlatan generates fake implementations of Go interfaces. For each interface
method it prints a struct with hook fields, a method that calls the hook, and
call records. Its core is a small type model. Go syntax nodes (go/ast) or
checked types (go/types) are resolved into a tree of `Type` values. The tree
renders three ways:

- as a parameter (`ParameterFormat`);
- at a call site (`ReferenceFormat`);
- as a struct field (`FieldFormat`).

An `ImportSet` records which imports the generated file must keep. A symbol
generator names unnamed parameters and results.

This project models that core as pure functions over immutable datatypes:

- `Types`: the type tree and its three renderings (type.go, array.go, map.go,
  pointer.go, ellipsis.go, channel.go).
- `Identifiers`: a name bound to a type (identifier.go).
- `Methods`: a method and its six joined renderings (method.go).
- `Imports`: the import registry (import.go).
- `Gensym`: the symbol generator, with an explicit 64-bit counter (gensym.go).
- `Syntax`: `unwrapExpr`, the resolver from go/ast nodes (expr.go). The Go
  printer is a parameter.
- `Semantic`: `unwrapType`, the resolver from go/types (type.go).
- `Interfaces`: building an interface's method list from a method field or
  from a checked signature (interface.go).
- `Monolith`: how the second copy of all this code in model.go relates to the
  split files. The only difference is the index-expression case; everything
  else is the same code.
- `Legacy`: the older flat design in charlatan.go. It has `Value` and its
  renderers, an `ImportSet` with `Remove` and a name-only `RequireByName`,
  `extractValues`, `addMethod` and `genDecl`.
- `Memo`: the per-instance rendering caches.
- `Text`: the string helpers that stand in for `strings` and `strconv`.
- `Wrappers`: `Option`, `Result` and the error kinds.

A Go `error` becomes `Err(kind)`. A Go run-time panic (a failed type assertion,
a nil dereference, an index out of range) becomes `Err(Panic)`. The nil `Type`
that expr.go returns for an index expression is the constructor
`Types.Missing`. Every rendering requires a tree without it, because rendering
nil panics in Go. The registry and the generator are mutated in place in the
source. Here they are passed in and handed back, together with the result.

## Model

| member | source | states |
|---|---|---|
| Types.ReferenceFormat | type.go:43-45 | the call-site suffix is "" or "..." and is "..." exactly when the type is a variadic under zero or more pointers |
| Types.BasicRenderings | type.go:28-60 | a basic type renders as `pkg.Name` when qualified and as `Name` otherwise, the same in parameter and field position, and adds nothing at a call site |
| Types.ArrayRenderings | array.go:14-38 | an array without a length is written `[]T` and one with a length `[n]T`, in a parameter list and in a struct field alike, the element rendered in the same position; it never spreads at a call site |
| Types.FieldFormat | ellipsis.go:29-37 | the field rendering is one character shorter than the parameter rendering for each variadic in the tree (`[]` in place of `...`), and is the parameter rendering when the tree holds none |
| Types.EllipsisRenderings | ellipsis.go:13-37 | a variadic is `...T` as a parameter, spreads as `...` at a call site, and is the slice `[]T` as a struct field |
| Types.MapRenderings | map.go:14-38 | a map is `map[K]V` built from the key and value rendered in the same position; it never spreads |
| Types.ChannelDirectionsDistinct | channel.go:13-105 | the three channel kinds over one element render three different texts in both positions, so the direction is never lost; none spreads |
| Types.PointerChainParameter | pointer.go:15-23 | n nested pointers are written as n stars before the pointed type's parameter rendering |
| Types.PointerChainField | pointer.go:31-39 | n nested pointers are written as n stars before the pointed type's field rendering |
| Types.PointerChainReference | pointer.go:26-28 | any number of pointers spread at a call site exactly when the pointed type does |
| Types.FieldIsParameterOfSliceView | ellipsis.go:29-37 | the field rendering of any tree is the parameter rendering of the same tree with every variadic turned into a slice |
| Types.DotsDiffer | ellipsis.go:13-37 | every variadic node puts exactly three more dots in the parameter rendering than in the field rendering |
| Types.FieldMatchesParameterIff | type.go:10-17 | the field and parameter renderings of a tree are equal if and only if the tree holds no variadic |
| Memo.Lookup | pointer.go:15-23 | a cached rendering call answers the computed text whether or not the cache slot was filled, and leaves the slot holding that text |
| Memo.RepeatedLookups | pointer.go:31-39 | any number of calls on one instance all answer the text the first call computed |
| Identifiers.TitleCase | identifier.go:20-25 | the capitalised name has the name's length, keeps every character after the first, and does not start with a lower-case letter |
| Identifiers.ReferenceFormat | identifier.go:37-43 | an argument is its bare name, or its name followed by "..." exactly when its type spreads |
| Identifiers.RenderingsAgree | identifier.go:28-61 | the field rendering is the capitalised name, a space and the signature of the slice view, which is the plain signature when there is no variadic; it is one character shorter than the parameter rendering for each `...` that becomes `[]` |
| Identifiers.VariadicIdentifier | identifier.go:28-52 | a variadic identifier is declared `name ...T`, forwarded as `name...`, and stored as `Name []T` |
| Identifiers.MapperExample | testdata/mapper/mapper.go:12-14 | the synthesized parameter `ident1` of type `map[string]string` renders as in the generated mapper fake |
| Methods.Rendered | method.go:20-33 | the list of renderings has one entry per identifier, each that identifier's own rendering, in declaration order |
| Methods.RenderEmptyIff | method.go:20-81 | a declaration list, or a reference list of named identifiers, renders empty if and only if the list is empty |
| Methods.RenderConcat | method.go:20-113 | rendering a list split in two is rendering the parts joined by one ", ": the order is kept and nothing is dropped or repeated |
| Methods.ParametersDeclaration | method.go:20-33 | empty exactly when there are no parameters; one parameter renders as `name T` |
| Methods.ResultsDeclaration | method.go:36-49 | empty exactly when there are no results; one result renders as `name T` |
| Methods.ParametersReference | method.go:52-65 | when every parameter is named, empty exactly when there are none; one parameter renders as its argument form |
| Methods.ResultsReference | method.go:68-81 | when every result is named, empty exactly when there are none; one result renders as its argument form |
| Methods.ParametersSignature | method.go:84-97 | empty for no parameters; one parameter renders as its type alone |
| Methods.ResultsSignature | method.go:100-113 | empty for no results; one result renders as its type alone |
| Methods.VariadicCallSpreads | method.go:52-65 | when the last parameter spreads, the forwarded argument list ends in `name...` |
| Imports.Contains | import.go:26-34 | true exactly when some record has the same name and path |
| Imports.Add | import.go:17-23 | the value is present afterwards; the set grows by one (the value, at the end) exactly when no record had its name and path; existing records are kept; no duplicates are introduced |
| Imports.GetRequired | import.go:37-45 | the scan returns exactly the required records, in insertion order |
| Imports.RequiredOfMembers | import.go:37-45 | a record is returned by GetRequired if and only if it is in the set and required |
| Imports.RequiredOfConcat | import.go:37-45 | the required records of a concatenation are those of each part, in order |
| Imports.RequireByName | import.go:48-54 | every record keeps its name, alias and path; a record is required afterwards exactly when it was before or its name or alias is the given text |
| Imports.RequireByNameIdempotent | import.go:48-54 | requiring a name twice is requiring it once; requiring a name nothing answers to changes nothing |
| Imports.RequireByNameKeepsDistinct | import.go:48-54 | requiring keeps the set free of duplicates and never drops a record from the required list |
| Imports.RequireEachSpec | expr.go:89-95 | after a series of requirements a record is required exactly when it was before or it answers to one of the names |
| Imports.RequireEachConcat | expr.go:11-107 | a series of requirements splits at any point |
| Gensym.Next | gensym.go:29-32 | the counter goes up by one, wrapping to 0 past the largest uint64; the symbol is prefix, the new count in decimal, and suffix |
| Gensym.Reset | gensym_test.go:27-46 | the counter is 0 and the prefix and suffix are kept |
| Gensym.Gensym | gensym.go:8-21 | the default generator keeps prefix "G" and no suffix, advances its count by one (wrapping like uint64), and answers "G" followed by the new count |
| Gensym.Run | gensym.go:29-32 | k successive calls give k symbols, call i+1 naming the count i+1 higher, and leave the counter k higher, all modulo 2^64 as uint64 wraps, with prefix and suffix kept |
| Gensym.RunSymbols | gensym.go:29-32 | while the counter does not wrap, call number i+1 names count+i+1 and the counter ends k higher |
| Gensym.RunDistinct | gensym.go:23-32 | successive symbols of one generator are pairwise different while the counter does not wrap |
| Gensym.ResetRestarts | golden_test.go:49-51 | after a reset the next symbol is prefix, "1", suffix, whatever the count was |
| Gensym.NextExample | gensym_test.go:14-46 | prefix "A" and suffix "Z" give "A1Z" then "A2Z" with counts 1 and 2, and a reset brings the count to 0 |
| Gensym.GensymExample | gensym_test.go:8-12 | the first default symbol is "G1" |
| Gensym.NextWraps | gensym.go:23-32 | at the largest uint64 count the next symbol names count 0 |
| Text.DecimalRoundTrip | gensym.go:29-32 | reading the decimal text of a number gives the number back |
| Text.TitleCaseFixedIff | identifier.go:20-25 | title-casing leaves a name alone if and only if it does not start with a lower-case letter |
| Text.JoinConcat | method.go:20-33 | joining two non-empty lists is joining each with one separator between |
| Syntax.UnwrapExpr | expr.go:11-107 | the registry only gains required flags, and is untouched when the expression holds no selector |
| Syntax.Opaque | expr.go:81-88 | an anonymous interface, struct or function type succeeds exactly when the printer does, as an unqualified basic type named by the printed text; the registry is untouched |
| Syntax.Channel | expr.go:58-71 | each syntactic direction becomes its own channel kind over the element |
| Syntax.UnwrapExprCases | expr.go:89-103 | a selector `p.N` becomes `N` qualified by `p` and requires `p`; an identifier is unqualified and leaves the registry alone; any other node kind is an error |
| Syntax.UnwrapExprLengthsAndDirections | expr.go:22-71 | an array length must be absent or a basic literal, kept verbatim, else it is an error; each channel direction becomes its own channel kind |
| Syntax.UnwrapExprWraps | expr.go:13-80 | `...E`, `*E` and `[]E` build a variadic, a pointer and a slice around what `E` resolves to; `map[K]V` resolves `K` first, then `V` in the registry `K` left |
| Syntax.ErrorsPropagate | expr.go:13-80 | an error resolving a sub-expression is the result of the whole resolution, unchanged: the element of a variadic, array, channel or pointer, the key of a map, and the value of a map whose key resolved |
| Syntax.UnwrapExprIgnoresRegistry | expr.go:11-107 | the type or error an expression resolves to does not depend on the registry passed in, which the resolver only writes to |
| Syntax.UnwrapExprRequiresPackages | expr.go:89-95 | a successful resolution requires the packages of the selectors it reaches, in walk order |
| Syntax.UnwrapExprQualifiers | expr.go:89-95 | the qualifiers in the resolved tree are exactly the non-empty selector packages of the expression |
| Syntax.ResolutionRequiresQualifiers | expr.go:89-95 | every package the resolved type names is required afterwards, and nothing else becomes required |
| Syntax.MissingOnlyFromIndexExpr | expr.go:100-101 | a resolved tree holds a nil node exactly when the split-file resolver met an index expression |
| Semantic.UnwrapType | type.go:62-131 | fails exactly when an unsupported kind is reached, with the unsupported-type error; a result has no nil node and no variadic; the registry only gains required flags |
| Semantic.Channel | type.go:100-107 | each go/types direction becomes its own channel kind over the element |
| Semantic.UnwrapTypeCases | type.go:117-125 | a named type with a package is qualified by the package's name and requires it; one without a package, and a basic type, is unqualified and leaves the registry alone |
| Semantic.UnwrapTypePrintedCases | type.go:115-127 | interface, struct and signature types are kept whole as their printed text; any other kind is the unsupported-type error; the registry is untouched |
| Semantic.UnwrapTypeWraps | type.go:63-114 | arrays keep a non-zero length in decimal and write length 0 like a slice; slices have no length; pointers and channels wrap their element, keeping the direction; an error in the element is the error of the whole |
| Semantic.ArrayLengthExample | type.go:71-73 | an array of length 7 is written `[7]T` |
| Semantic.UnwrapTypeRequiresPackages | type.go:117-123 | a successful resolution requires the named types' packages, in walk order |
| Semantic.UnwrapTypeQualifiers | type.go:117-123 | the qualifiers in the resolved tree are exactly the non-empty packages of its named types |
| Semantic.UnwrapTypeIgnoresRegistry | type.go:62-131 | the type or error a checked type resolves to does not depend on the registry passed in |
| Semantic.ResolversAgree | type.go:62-131 | for a syntax tree and a checked type it corresponds to, both resolvers give the same type and leave the registry in the same state; the correspondence covers identifiers that name basic or universe types, selectors through imports without an alias, non-zero array lengths, and anonymous types whose printed text is the one go/types reports |
| Semantic.ZeroLengthArrayDiverges | type.go:71-73 | `[0]T` keeps its length through the syntax resolver but becomes the slice `[]T` through the type resolver |
| Semantic.AliasDiverges | expr.go:89-95 | through an aliased import the syntax resolver qualifies by the alias, the type resolver by the package's own name |
| Semantic.LocalNamedDiverges | type.go:117-123 | an identifier naming a type declared in the package being faked resolves unqualified through the syntax resolver, but go/types reports a named type of that package, which the type resolver qualifies and requires; the pair is outside the correspondence |
| Interfaces.ExtractIdentifiersFromField | interface.go:87-111 | fails exactly when the type fails; the registry is the one the type resolution leaves, which on success is the selector packages required in order; named fields give one identifier per name in order, without touching the generator; an unnamed field gives one identifier named by the generator's next symbol; every identifier has the resolved type |
| Interfaces.ExtractFields | interface.go:33-48 | a failure is the error of the first field whose type does not resolve, every earlier field resolving; on success the identifiers of field k start after those of the fields before it, carry its names in order or, for an unnamed field, the next symbol after those drawn for the unnamed fields before it, and all have the field's resolved type; the generator ends advanced once per unnamed field, wrapping like uint64; the registry ends with the fields' selector packages required, field after field |
| Interfaces.AddMethodFromField | interface.go:20-53 | a field that is not a function type is an error; an unnamed method panics; otherwise it fails exactly when some parameter or result type does not resolve, with the first such error in parameters-then-results order, and the interface is left alone; success appends one method with the field's name, its parameters placed field by field from a reset generator and its results (none without a result list) continuing that generator, leaves the generator advanced from the reset past the unnamed parameters and then the unnamed results, and leaves the registry with the parameters' and then the results' selector packages required |
| Interfaces.ExtractIdentifiersFromTuple | interface.go:113-136 | fails with the unsupported-type error exactly when some variable's type has an unsupported kind; otherwise identifier k has variable k's resolved type and its name or, when the variable is unnamed, the next symbol after those drawn for the unnamed variables before it; the generator ends advanced once per unnamed variable; the registry ends with the named types' packages required, variable after variable |
| Interfaces.VariadicType | interface.go:66-73 | the last parameter of a variadic signature becomes a variadic of the slice's element |
| Interfaces.SpreadLast | interface.go:66-73 | only the last identifier changes, and it spreads afterwards |
| Interfaces.AddMethodFromType | interface.go:55-85 | succeeds exactly when every parameter and result type is supported and the signature is not variadic without parameters; an error leaves the interface alone, and the variadic case without parameters panics; success appends one method whose identifiers have the variables' resolved types and their names or successive synthesized symbols (the results continuing from where the parameters left the generator), whose last parameter is a variadic of the slice's element exactly when the signature is variadic; the generator ends advanced once per unnamed variable and the registry with the parameters' and then the results' named packages required |
| Interfaces.FieldMethodIgnoresCounter | interface.go:31 | because the generator is reset first, the method added from a field does not depend on the count left by earlier methods |
| Interfaces.UnnamedParameterIsIdent1 | testdata/mapper/mapper_def.go:4 | the unnamed `map[string]string` parameter of `MapParameter` is named `ident1`, as in the generated fake at testdata/mapper/mapper.go:98 |
| Interfaces.UnnamedResultContinuesCounter | interface.go:129-131 | the signature path does not reset the generator, so an unnamed result continues from the current count |
| Interfaces.VariadicSliceRenderings | interface.go:66-73 | turning a slice parameter into a variadic changes its declaration to `...T` and its argument to `name...`, and keeps its field rendering |
| Interfaces.ExtractionsAgree | interface.go:87-136 | a field list and the variables it declares give the same identifiers and imports |
| Interfaces.SpreadExtractionsAgree | interface.go:66-73 | with a trailing `...T` field against a slice variable, the field list gives the variables' identifiers with the last one spread |
| Interfaces.AddMethodsAgree | interface.go:20-85 | a method field and the signature it declares add the same method and require the same imports |
| Monolith.GenerationsAgree | model.go:135-229 | without an index expression, both copies of the syntax resolver give the same type or error and the same registry |
| Monolith.IndexExprDiverges | model.go:224-225 | on an index expression the split files give the nil type and model.go reports an unsupported expression |
| Monolith.ExtractFieldsGenerationsAgree | model.go:109-133 | without an index expression, extracting a field list gives the same identifiers and state in both copies |
| Monolith.AddMethodGenerationsAgree | model.go:74-107 | without an index expression, adding a method from a field gives the same outcome in both copies |
| Monolith.AddMethodIndexDiverges | model.go:74-107 | a parameter typed by an index expression adds an unrenderable method in the split files and is an error in model.go |
| Legacy.Remove | charlatan.go:166-175 | fails exactly when no record has the name and path; otherwise drops the first such record and keeps the rest in order |
| Legacy.RemoveUndoesAdd | charlatan.go:160-175 | removing what was just added gives the set back |
| Legacy.RemoveRemoves | charlatan.go:166-175 | in a set without duplicates, removing a present record leaves it absent and the set one shorter |
| Legacy.RequireByName | charlatan.go:201-207 | records keep everything but the flag; a record is required afterwards exactly when it was before or its name is the given text |
| Legacy.RequireByNameAgrees | charlatan.go:201-207 | on a set without aliases, the name-only requirement is the current design's |
| Legacy.RequireByAliasDiverges | charlatan.go:201-207 | an import used through its alias is not required by the flat design but is by the current one |
| Legacy.ChanPrefix | charlatan.go:429-437 | a direction number has a channel keyword exactly when it is 1, 2 or 3 |
| Legacy.ArgumentFormat | charlatan.go:450-456 | an argument is the name, followed by "..." exactly when the value is variadic |
| Legacy.CapitalName | charlatan.go:480-482 | the capitalised name has the name's length and does not start with a lower-case letter |
| Legacy.ValueType | charlatan.go:387-394 | the type tree a value stands for spreads exactly when the value is variadic |
| Legacy.DeclarationAgreesWithTypeTree | charlatan.go:428-448 | the corrected declaration rendering of a value is the current design's parameter rendering of its type tree |
| Legacy.ArgumentAgreesWithTypeTree | charlatan.go:450-456 | the argument rendering of a value is the current design's reference rendering |
| Legacy.StructDefAgreesWithTypeTree | charlatan.go:458-478 | the corrected struct field rendering of a value is the current design's field rendering |
| Legacy.DeclarationAsWrittenCorrectIff | charlatan.go:428-448 | the declaration rendering as written is right if and only if the value is not both variadic and a channel |
| Legacy.StructDefAsWrittenCorrectIff | charlatan.go:458-478 | the struct field rendering as written is right if and only if the value is not both variadic and a channel |
| Legacy.VariadicChannelCounterexample | charlatan.go:428-478 | `c ...chan int` is rendered `c chan ...int` and `C chan []int` as written, and `c ...chan int` and `C []chan int` when corrected |
| Legacy.DirNumber | charlatan.go:585-589 | each go/ast direction is a number 1, 2 or 3 whose keyword is that direction's |
| Legacy.ValueNames | charlatan.go:567-574 | a named field keeps its names; an unnamed one gets the prefix and its position |
| Legacy.ValuesNamed | charlatan.go:625-636 | one value per name, in order, equal to the template but for the name |
| Legacy.Peel | charlatan.go:576-597 | a leading `...`, then a channel, then a `*` are peeled in that order, and the base is part of the expression |
| Legacy.Describe | charlatan.go:600-623 | only interfaces, structs, identifiers and selectors on an identifier describe a value; a qualifier comes only from a selector |
| Legacy.ExtractValues | charlatan.go:557-637 | panics exactly when the peeled type is none of the supported bases, leaving the registry alone; otherwise one value per name, all alike but for the name; a selector base requires its package, and nothing else is required |
| Legacy.ExtractValuesAgreesWithResolver | charlatan.go:557-637 | on the shapes it accepts, every value's type tree is what the current syntax resolver gives, and on a set without aliases the registry ends the same |
| Legacy.ExtractAll | charlatan.go:651-660 | it succeeds exactly when every field's peeled type is a supported base, and then field k's values follow those of the fields before it, one per name or one named by the prefix and k, each the field's description under that name; the registry ends with each field's selector package required, field after field |
| Legacy.AddMethod | charlatan.go:639-663 | a field that is not a function type changes nothing; an unnamed method panics; otherwise it succeeds exactly when every parameter and result field is describable, appending one method named after the field whose parameters are the values of the parameter fields in order, unnamed ones `arg<i>`, and whose results are those of the result fields, unnamed ones `ret<i>`; the registry ends with the parameters' and then the results' selector packages required |
| Legacy.PositionalNames | charlatan.go:651-660 | unnamed parameters are `arg0`, `arg1`, and an unnamed result is `ret0` |
| Legacy.SliceParameterPanics | charlatan.go:617-623 | a slice parameter is not a supported base, so adding the method panics |
| Legacy.JoinValues | charlatan.go:396-401 | no values render as "" and one value as its own rendering |
| Legacy.CurrentMethod | charlatan.go:379-394 | the current design's method for a flat method is renderable and has as many parameters and results |
| Legacy.ValuesAgree | charlatan.go:396-426 | values joined in the corrected declaration format, or in the argument format, are the current design's declaration or reference list of the same identifiers |
| Legacy.FormatParamsDeclaration | charlatan.go:396-402 | with the variadic marker outermost, the joined parameter declarations are the current design's `ParametersDeclaration` of the same method |
| Legacy.FormatParamsCall | charlatan.go:404-410 | the joined parameter arguments are the current design's `ParametersReference` |
| Legacy.FormatResultsDeclaration | charlatan.go:412-418 | with the variadic marker outermost, the joined result declarations are the current design's `ResultsDeclaration` |
| Legacy.FormatResultsCall | charlatan.go:420-426 | the joined result names are the current design's `ResultsReference` |
| Legacy.JoinAsWrittenIff | charlatan.go:396-418 | values joined in the as-written declaration format give the corrected join if and only if no value is a variadic channel |
| Legacy.FormatParamsDeclarationAsWritten | charlatan.go:396-402 | the parameter declarations as written are the corrected ones if and only if no parameter is a variadic channel |
| Legacy.FormatResultsDeclarationAsWritten | charlatan.go:412-418 | the result declarations as written are the corrected ones if and only if no result is a variadic channel |
| Text.JoinSameLengths | charlatan.go:396-402 | two lists whose parts have the same lengths one by one join to the same text if and only if they are the same list |
| Legacy.ImportName | charlatan.go:495-496 | the name taken from an import path has no quote and no slash |
| Legacy.ImportNameOfPath | charlatan.go:495-496 | the name of `"dir/name"` is `name` |
| Legacy.ImportNameOfPackage | charlatan.go:495-496 | the name of `"name"` is `name` |
| Legacy.HostedImportName | charlatan.go:495-496 | the repository's own import path gives the name `charlatan` |
| Legacy.StandardImportName | charlatan.go:495-496 | `"fmt"` gives `fmt` |
| Legacy.AddImportSpec | charlatan.go:493-503 | an unaliased spec appends exactly its own record (named after the last path segment, quotes removed), unless a record with that name and path is already there, in which case nothing changes; an aliased one changes nothing; no duplicates are introduced |
| Legacy.AddImports | charlatan.go:489-505 | a failure is a panic; records are only appended, and every appended record is the record of an unaliased import spec of the clause; no duplicates are introduced |
| Legacy.AddImportsSpec | charlatan.go:489-505 | panics exactly when some spec is not an import; otherwise every unaliased import is present afterwards and nothing else is added: each appended record is that of an unaliased spec |
| Legacy.FuncFields | charlatan.go:544-549 | exactly the function-typed fields, and nothing else |
| Legacy.AddMethods | charlatan.go:544-549 | succeeds exactly when every function-typed field has a name and describable parameters and results; success appends, per function-typed field in order, the method `addMethod` makes of it (name, `arg<i>`/`ret<i>` values placed field by field), and leaves the registry with those fields' selector packages required in order; a failure is a panic |
| Legacy.GenDeclStep | charlatan.go:485-554 | a type clause without specs or whose first spec is not a type panics; the walk stops below a node exactly when it declares an interface asked for, which is then collected with its methods as `addMethod` makes them, the registry requiring their selector packages, and which panics exactly when one of its method fields is not accepted; a node panics exactly when it is such an interface, a type clause without specs or whose first spec is not a type, or an import clause holding a spec that is not an import; every other node that is not an import clause (other declarations, other types, interfaces without methods, `_`, names not asked for) is walked into with the file unchanged; an import clause adds its imports |

## Left out

- The command line, flag parsing, reading directories and writing files (charlatan.go:42-118, generator.go): I/O.
- Parsing and type-checking (go/parser, go/types, the importer): their output is the input of the model, as `Syntax.Expr` and `Semantic.GoType` values.
- The go/format printer (expr.go:81-88): it is the `Printer` parameter, a function from a node to its text or a failure.
- The text that go/types prints for interface, struct and signature types: it is data carried by `Semantic.GoType`.
- template.go and `generate()` (charlatan.go:289-372): the output template and its execution are text I/O over the modelled renderings.
- The mutex behind `Gensym()` (gensym.go:14-21): concurrency. The generator is a value passed in and handed back.
- The per-instance `parameterFormat`/`fieldFormat` caches: the renderings are computed as pure functions. `Memo` shows that a cache cannot change an answer.
- `strings.Title` on non-ASCII text: only an ASCII lower-case first letter is capitalised. Go identifiers in the inputs are ASCII.
- Resolution of embedded interfaces, which looks up the embedded interface's method set in go/types: `Interfaces.AddMethodFromType` takes the looked-up `Func` as input.
- Tests and testdata: they are used only as the source of the concrete examples.
- Semantic.UnwrapType: an array length is a `nat`; Go's `Len()` is an `int64` and cannot be negative for a checked array.
- Gensym.Reset: gensym.go itself has no `Reset`. Its behaviour (the count goes back to 0) is taken from gensym_test.go:27-46 and its callers.
- Legacy.ExtractValues: the `fmt.Println` of the parse failure before the nil dereference (charlatan.go:611, 620) is output only; the panic that follows is `Err(Panic)`.
- Interfaces.ExtractFields: after a failure the registry is stated only as grown: the source returns the error at once, and what its callers do with a registry left part-way is not part of this model.
- Interfaces.ExtractIdentifiersFromTuple: after a failure the registry is stated only as grown, for the same reason.
- Interfaces.AddMethodFromField: after a failure in a parameter or result the registry is stated only as grown, for the same reason.
- Interfaces.AddMethodFromType: after a failure the registry is stated only as grown, for the same reason.
- Legacy.ExtractAll: after the panic the registry is stated only as grown, because the panic ends the program.
- Legacy.AddMethod: after the panic the registry is stated only as grown, for the same reason.
- Legacy.AddMethods: after the panic the registry is stated only as grown, for the same reason.
- Semantic.ResolversAgree: takes as given that the Go printer's text for an anonymous interface, struct or function type is the text go/types reports for it, and does not cover identifiers that name types of the package being faked, where the resolvers part (`Semantic.LocalNamedDiverges`).
- The `Generator` structure and package loading (charlatan.go:119-288, generator.go): bookkeeping around parsing.

## Findings

| source | as written | input that shows it | evidently intended | confidence | as-written member | corrected member |
|---|---|---|---|---|---|---|
| charlatan.go:428-478 | the channel keyword is written before the variadic marker: `name chan ...T` in a declaration and `Name chan []T` in a struct field | a parameter `c ...chan int` (Elliptical true, ChanDir 3) renders as `c chan ...int` and `C chan []int`: the declaration is not valid Go and the field is a channel of slices, a different type | the variadic marker outermost: `c ...chan int` and `C []chan int`, as the current design renders `Ellipsis(Channel(T))` | not executed | Legacy.FunctionDeclarationFormatAsWritten, Legacy.StructDefAsWritten, Legacy.FormatParamsDeclarationAsWritten, Legacy.FormatResultsDeclarationAsWritten, Legacy.VariadicChannelCounterexample | Legacy.FunctionDeclarationFormat, Legacy.StructDef, Legacy.FormatParamsDeclaration, Legacy.FormatResultsDeclaration, Legacy.DeclarationAsWrittenCorrectIff, Legacy.JoinAsWrittenIff, Legacy.StructDefAsWrittenCorrectIff, Legacy.DeclarationAgreesWithTypeTree |

=== FILE: gensym.dfy ===
/** The symbol generator (gensym.go) that names unnamed parameters and results.
    The source keeps one process-wide generator per purpose behind a mutex; here
    a generator is a value passed in and handed back. */
module Gensym {
  import opened Text

  /** Go's `uint64`: the counter wraps to 0 after its largest value. */
  const CountLimit: int := 0x1_0000_0000_0000_0000

  newtype uint64 = x: int | 0 <= x < 0x1_0000_0000_0000_0000

  datatype SymbolGenerator = SymbolGenerator(prefix: string, suffix: string, count: uint64)

  /** The default generator behind `Gensym()`. */
  const DefaultGenerator := SymbolGenerator("G", "", 0)

  /** The generator that names unnamed parameters and results ("ident1", "ident2", ...). */
  const IdentGenerator := SymbolGenerator("ident", "", 0)

  /** The text of symbol number `n` of generator `g`. */
  function Symbol(g: SymbolGenerator, n: nat): string
  {
    g.prefix + Decimal(n) + g.suffix
  }

  /** `Next`: advances the counter by one (wrapping like `uint64`) and names the new count. */
  function Next(g: SymbolGenerator): (r: (string, SymbolGenerator))
    ensures r.1.prefix == g.prefix && r.1.suffix == g.suffix
    ensures g.count as int + 1 < CountLimit ==> r.1.count as int == g.count as int + 1
    ensures g.count as int + 1 == CountLimit ==> r.1.count == 0
    ensures r.0 == Symbol(g, r.1.count as nat)
  {
    var count := ((g.count as int + 1) % CountLimit) as uint64;
    (g.prefix + Decimal(count as nat) + g.suffix, g.(count := count))
  }

  /** `Reset`: the counter goes back to 0. */
  function Reset(g: SymbolGenerator): (r: SymbolGenerator)
    ensures r.prefix == g.prefix && r.suffix == g.suffix && r.count == 0
  {
    g.(count := 0)
  }

  /** `Gensym()`: the next symbol of the default generator, with that generator
      passed explicitly instead of guarded by a mutex. */
  function Gensym(state: SymbolGenerator): (r: (string, SymbolGenerator))
    requires state.prefix == DefaultGenerator.prefix && state.suffix == DefaultGenerator.suffix
    ensures r.1.prefix == "G" && r.1.suffix == ""
    ensures r.1.count as int == (state.count as int + 1) % CountLimit
    ensures r.0 == "G" + Decimal(r.1.count as nat)
  {
    Next(state)
  }

  /** The symbols of `k` successive `Next` calls, and the generator afterwards. */
  function Run(g: SymbolGenerator, k: nat): (r: (seq<string>, SymbolGenerator))
    ensures |r.0| == k
    ensures r.1.prefix == g.prefix && r.1.suffix == g.suffix
    ensures r.1.count as int == (g.count as int + k) % CountLimit
    ensures forall i :: 0 <= i < k ==> r.0[i] == Symbol(g, (g.count as int + i + 1) % CountLimit)
    decreases k
  {
    if k == 0 then ([], g)
    else
      var (s, g1) := Next(g);
      var (rest, g2) := Run(g1, k - 1);
      WrapShift(g.count as int, k - 1);
      RunSymbolsStep(g, rest);
      ([s] + rest, g2)
  }

  /** Advancing the wrapped successor of `c` by `j` is advancing `c` by `j + 1`. */
  lemma WrapShift(c: int, j: nat)
    requires 0 <= c < CountLimit
    ensures ((c + 1) % CountLimit + j) % CountLimit == (c + j + 1) % CountLimit
  {
    if c + 1 == CountLimit {
      assert (c + j + 1) % CountLimit == (j + CountLimit) % CountLimit == j % CountLimit;
    }
  }

  /** The symbols after the first call, numbered from the next count, are
      the symbols of all the calls numbered from this one. */
  lemma RunSymbolsStep(g: SymbolGenerator, rest: seq<string>)
    requires var g1 := Next(g).1;
             forall i :: 0 <= i < |rest| ==> rest[i] == Symbol(g1, (g1.count as int + i + 1) % CountLimit)
    ensures forall i :: 0 <= i < |rest| + 1 ==>
              ([Next(g).0] + rest)[i] == Symbol(g, (g.count as int + i + 1) % CountLimit)
  {
    var g1 := Next(g).1;
    assert g1.count as int == (g.count as int + 1) % CountLimit;
    forall i | 1 <= i < |rest| + 1
      ensures ([Next(g).0] + rest)[i] == Symbol(g, (g.count as int + i + 1) % CountLimit)
    {
      WrapShift(g.count as int, i);
      assert ([Next(g).0] + rest)[i] == rest[i - 1];
    }
  }

  /** `k + 1` calls are one call followed by `k` more. */
  lemma RunCons(g: SymbolGenerator, k: nat)
    ensures Run(g, k + 1) == ([Next(g).0] + Run(Next(g).1, k).0, Run(Next(g).1, k).1)
  {
  }

  /** The generator after `k + 1` calls is the generator after one call and `k` more. */
  lemma RunState(g: SymbolGenerator, k: nat)
    ensures Run(g, k + 1).1 == Run(Next(g).1, k).1
  {
    RunCons(g, k);
  }

  /** While the counter does not wrap, call number `i + 1` names count `count + i + 1`. */
  lemma RunSymbols(g: SymbolGenerator, k: nat)
    requires g.count as int + k < CountLimit
    ensures forall i :: 0 <= i < k ==> Run(g, k).0[i] == Symbol(g, g.count as nat + i + 1)
    ensures Run(g, k).1 == g.(count := (g.count as int + k) as uint64)
  {
    var r := Run(g, k);
    forall i | 0 <= i < k
      ensures r.0[i] == Symbol(g, g.count as nat + i + 1)
    {
      assert (g.count as int + i + 1) % CountLimit == g.count as int + i + 1;
    }
    assert (g.count as int + k) % CountLimit == g.count as int + k;
  }

  /** While the counter does not wrap, `k` calls add `k` to it. */
  lemma RunCount(g: SymbolGenerator, k: nat)
    ensures g.count as int + k < CountLimit ==> Run(g, k).1.count as int == g.count as int + k
  {
    if g.count as int + k < CountLimit {
      RunSymbols(g, k);
    }
  }

  /** Equal symbols from one generator come from equal counts. */
  lemma SymbolInjective(g: SymbolGenerator, a: nat, b: nat)
    requires a != b
    ensures Symbol(g, a) != Symbol(g, b)
  {
    DecimalInjective(a, b);
    if |Decimal(a)| == |Decimal(b)| {
      var p := |g.prefix|;
      assert Symbol(g, a)[p..p + |Decimal(a)|] == Decimal(a);
      assert Symbol(g, b)[p..p + |Decimal(b)|] == Decimal(b);
    } else {
      assert |Symbol(g, a)| != |Symbol(g, b)|;
    }
  }

  /** Successive symbols of one generator are pairwise distinct while its counter
      does not wrap, because the count strictly increases. */
  lemma RunDistinct(g: SymbolGenerator, k: nat)
    requires g.count as int + k < CountLimit
    ensures forall i, j :: 0 <= i < j < k ==> Run(g, k).0[i] != Run(g, k).0[j]
  {
    RunSymbols(g, k);
    forall i, j | 0 <= i < j < k
      ensures Run(g, k).0[i] != Run(g, k).0[j]
    {
      SymbolInjective(g, g.count as nat + i + 1, g.count as nat + j + 1);
    }
  }

  /** After a reset the next symbol is `prefix + "1" + suffix`, whatever the
      count was, so two generators with the same prefix and suffix agree. */
  lemma ResetRestarts(g: SymbolGenerator, h: SymbolGenerator)
    requires g.prefix == h.prefix && g.suffix == h.suffix
    ensures Next(Reset(g)).0 == g.prefix + "1" + g.suffix
    ensures Next(Reset(g)) == Next(Reset(h))
  {
    assert Decimal(1) == "1";
  }

  /** A generator with prefix "A" and suffix "Z" yields "A1Z" then "A2Z"; a
      reset brings its count back to 0. */
  lemma NextExample()
    ensures Next(SymbolGenerator("A", "Z", 0)).0 == "A1Z"
    ensures Next(Next(SymbolGenerator("A", "Z", 0)).1).0 == "A2Z"
    ensures Next(Next(SymbolGenerator("A", "Z", 0)).1).1.count == 2
    ensures Reset(Next(Next(SymbolGenerator("A", "Z", 0)).1).1).count == 0
  {
    assert Decimal(1) == "1";
    assert Decimal(2) == "2";
  }

  /** The first symbol of the default generator is "G1". */
  lemma GensymExample()
    ensures Gensym(DefaultGenerator).0 == "G1"
  {
    assert Decimal(1) == "1";
  }

  /** At the largest count the counter wraps to 0 and the symbol is `prefix + "0" + suffix`. */
  lemma NextWraps(g: SymbolGenerator)
    requires g.count as int == CountLimit - 1
    ensures Next(g).0 == g.prefix + "0" + g.suffix
  {
    assert Decimal(0) == "0";
  }
}

=== FILE: identifiers.dfy ===
/** A name bound to a type, and its four renderings (identifier.go; the same
    code is in model.go:463-510). */
module Identifiers {
  import Text
  import Types

  datatype Identifier = Identifier(name: string, valueType: Types.Type)

  /** The identifier's type has no nil node, so it can be rendered. */
  predicate Resolved(i: Identifier)
  {
    Types.Resolved(i.valueType)
  }

  /** `TitleCase`: the name with its first letter capitalised. */
  function TitleCase(i: Identifier): (r: string)
    ensures |r| == |i.name|
    ensures forall k :: 0 < k < |i.name| ==> r[k] == i.name[k]
    ensures |i.name| > 0 ==> !Text.IsLower(r[0])
  {
    Text.TitleCase(i.name)
  }

  /** `ParameterFormat`: `name T`, as in a parameter list. */
  function ParameterFormat(i: Identifier): string
    requires Resolved(i)
  {
    i.name + " " + Types.ParameterFormat(i.valueType)
  }

  /** `ReferenceFormat`: the argument at a call site, the bare name or, for a
      variadic, the name spread with `...`. */
  function ReferenceFormat(i: Identifier): (r: string)
    requires Resolved(i)
    ensures !Types.Spreads(i.valueType) ==> r == i.name
    ensures Types.Spreads(i.valueType) ==> r == i.name + "..."
  {
    i.name + Types.ReferenceFormat(i.valueType)
  }

  /** `FieldFormat`: `Name T` as a struct field, the variadic written as a slice. */
  function FieldFormat(i: Identifier): string
    requires Resolved(i)
  {
    TitleCase(i) + " " + Types.FieldFormat(i.valueType)
  }

  /** `Signature`: the type alone, as in a function type. */
  function Signature(i: Identifier): string
    requires Resolved(i)
  {
    Types.ParameterFormat(i.valueType)
  }

  /** The field rendering is the capitalised name, a space and the signature
      of the type with its variadic turned into a slice, so it is one character
      shorter than the parameter rendering per `...` turned into `[]`. */
  lemma RenderingsAgree(i: Identifier)
    requires Resolved(i)
    ensures |FieldFormat(i)| + Types.EllipsisCount(i.valueType) == |ParameterFormat(i)|
    ensures FieldFormat(i) == TitleCase(i) + " " + Signature(Identifier(i.name, Types.SliceView(i.valueType)))
    ensures Types.EllipsisCount(i.valueType) == 0 ==> FieldFormat(i) == TitleCase(i) + " " + Signature(i)
  {
    Types.FieldIsParameterOfSliceView(i.valueType);
    if Types.EllipsisCount(i.valueType) == 0 {
      Types.NoEllipsisFieldIsParameter(i.valueType);
    }
  }

  /** A variadic identifier `name ...T` is referenced as `name...` and stored
      in a field `Name []T`. */
  lemma VariadicIdentifier(name: string, element: Types.Type)
    requires Types.Resolved(element)
    ensures ParameterFormat(Identifier(name, Types.Ellipsis(element))) == name + " ..." + Types.ParameterFormat(element)
    ensures ReferenceFormat(Identifier(name, Types.Ellipsis(element))) == name + "..."
    ensures FieldFormat(Identifier(name, Types.Ellipsis(element))) == Text.TitleCase(name) + " []" + Types.FieldFormat(element)
  {
    VariadicParameter(name, element);
    VariadicField(name, element);
  }

  /** The declaration half of `VariadicIdentifier`. */
  lemma VariadicParameter(name: string, element: Types.Type)
    requires Types.Resolved(element)
    ensures ParameterFormat(Identifier(name, Types.Ellipsis(element))) == name + " ..." + Types.ParameterFormat(element)
  {
    var p := Types.ParameterFormat(element);
    Types.EllipsisRenderings(element);
    calc {
      ParameterFormat(Identifier(name, Types.Ellipsis(element)));
      name + " " + ("..." + p);
      { assert " " + ("..." + p) == " ..." + p; }
      name + " ..." + p;
    }
  }

  /** The struct field half of `VariadicIdentifier`. */
  lemma VariadicField(name: string, element: Types.Type)
    requires Types.Resolved(element)
    ensures FieldFormat(Identifier(name, Types.Ellipsis(element))) == Text.TitleCase(name) + " []" + Types.FieldFormat(element)
  {
    var f := Types.FieldFormat(element);
    Types.EllipsisRenderings(element);
    Types.ArrayRenderings(element, "");
    calc {
      FieldFormat(Identifier(name, Types.Ellipsis(element)));
      Text.TitleCase(name) + " " + ("[]" + f);
      { assert " " + ("[]" + f) == " []" + f; }
      Text.TitleCase(name) + " []" + f;
    }
  }

  /** The type `map[string]string` renders the same in both positions. */
  lemma StringMapRenders()
    ensures var str := Types.BasicType("string", "");
            Types.ParameterFormat(Types.Map(str, str)) == "map[string]string"
            && Types.FieldFormat(Types.Map(str, str)) == "map[string]string"
  {
    var str := Types.BasicType("string", "");
    assert Types.ParameterFormat(str) == "string" && Types.FieldFormat(str) == "string";
  }

  /** The synthesized `ident1` of type `map[string]string` renders as in the
      generated mapper fake: `ident1 map[string]string` and `Ident1 map[string]string`. */
  lemma MapperExample()
    ensures var str := Types.BasicType("string", "");
            var i := Identifier("ident1", Types.Map(str, str));
            ParameterFormat(i) == "ident1 map[string]string"
            && FieldFormat(i) == "Ident1 map[string]string"
            && ReferenceFormat(i) == "ident1"
            && Signature(i) == "map[string]string"
  {
    StringMapRenders();
    var title := Text.TitleCase("ident1");
    assert title[0] == 'I';
    assert title == "Ident1";
  }
}

=== FILE: imports.dfy ===
/** The import registry of the current design (import.go; the same code is in
    model.go:18-65). The set is a slice of records kept in insertion order. */
module Imports {

  /** A declared import: the package's name, its local alias ("" when none),
      its import path, and whether the generated output refers to it. */
  datatype Import = Import(name: string, alias: string, path: string, required: bool)

  type ImportSet = seq<Import>

  /** Two records denote the same import when name and path agree; alias and
      the required flag play no part. */
  predicate SameImport(a: Import, b: Import)
  {
    a.name == b.name && a.path == b.path
  }

  /** A record answers to `s` by its name or by its alias. */
  predicate Answers(imp: Import, s: string)
  {
    imp.name == s || imp.alias == s
  }

  /** No two records denote the same import. */
  predicate Distinct(imps: ImportSet)
  {
    forall i, j :: 0 <= i < j < |imps| ==> !SameImport(imps[i], imps[j])
  }

  /** `Contains`: a linear scan comparing name and path. */
  function Contains(imps: ImportSet, value: Import): (r: bool)
    ensures r <==> exists i :: 0 <= i < |imps| && SameImport(imps[i], value)
  {
    if |imps| == 0 then false
    else SameImport(imps[0], value) || Contains(imps[1..], value)
  }

  /** `Add`: appends `value` unless an import with its name and path is already there. */
  function Add(imps: ImportSet, value: Import): (r: ImportSet)
    ensures Contains(r, value)
    ensures |imps| <= |r| <= |imps| + 1 && r[..|imps|] == imps
    ensures |r| == |imps| + 1 <==> !Contains(imps, value)
    ensures |r| == |imps| + 1 ==> r[|imps|] == value
    ensures Distinct(imps) ==> Distinct(r)
  {
    if |imps| == 0 then [value]
    else if !Contains(imps, value) then
      assert SameImport((imps + [value])[|imps|], value);
      imps + [value]
    else imps
  }

  /** The required records in insertion order: the reference definition that
      `GetRequired`'s scan is proved to compute. */
  function RequiredOf(imps: ImportSet): ImportSet
  {
    if |imps| == 0 then []
    else RequiredOf(imps[..|imps| - 1]) + (if imps[|imps| - 1].required then [imps[|imps| - 1]] else [])
  }

  /** `GetRequired`: the scan of the source, keeping the records whose flag is set. */
  method GetRequired(imps: ImportSet) returns (r: ImportSet)
    ensures r == RequiredOf(imps)
  {
    r := [];
    var i := 0;
    while i < |imps|
      invariant 0 <= i <= |imps|
      invariant r == RequiredOf(imps[..i])
    {
      assert imps[..i + 1][..i] == imps[..i];
      if imps[i].required {
        r := r + [imps[i]];
      }
      i := i + 1;
    }
    assert imps[..|imps|] == imps;
  }

  /** A record is kept by `RequiredOf` exactly when it is in the set and required. */
  lemma {:induction false} RequiredOfMembers(imps: ImportSet, x: Import)
    ensures x in RequiredOf(imps) <==> x in imps && x.required
    decreases |imps|
  {
    if |imps| > 0 {
      RequiredOfMembers(imps[..|imps| - 1], x);
      assert imps == imps[..|imps| - 1] + [imps[|imps| - 1]];
    }
  }

  /** `RequiredOf` keeps order: it distributes over concatenation. */
  lemma {:induction false} RequiredOfConcat(a: ImportSet, b: ImportSet)
    ensures RequiredOf(a + b) == RequiredOf(a) + RequiredOf(b)
    decreases |b|
  {
    if |b| > 0 {
      var b' := b[..|b| - 1];
      assert (a + b)[..|a + b| - 1] == a + b';
      RequiredOfConcat(a, b');
    } else {
      assert a + b == a;
    }
  }

  /** The record after a `RequireByName(s)`. */
  function Require(imp: Import, s: string): Import
  {
    if Answers(imp, s) then imp.(required := true) else imp
  }

  /** `RequireByName(s)`: sets the flag of every record whose name or alias is `s`;
      nothing else in the set changes. */
  function RequireByName(imps: ImportSet, s: string): (r: ImportSet)
    ensures |r| == |imps|
    ensures forall i :: 0 <= i < |imps| ==>
      r[i].name == imps[i].name && r[i].alias == imps[i].alias && r[i].path == imps[i].path
    ensures forall i :: 0 <= i < |imps| ==> (r[i].required <==> imps[i].required || Answers(imps[i], s))
  {
    seq(|imps|, i requires 0 <= i < |imps| => Require(imps[i], s))
  }

  /** Requiring a name twice is requiring it once; requiring a name nothing
      answers to changes nothing. */
  lemma RequireByNameIdempotent(imps: ImportSet, s: string)
    ensures RequireByName(RequireByName(imps, s), s) == RequireByName(imps, s)
    ensures (forall i :: 0 <= i < |imps| ==> !Answers(imps[i], s)) ==> RequireByName(imps, s) == imps
  {
  }

  /** `RequireByName` keeps the registry free of duplicates and adds exactly the
      answering records to the required list. */
  lemma RequireByNameKeepsDistinct(imps: ImportSet, s: string)
    ensures Distinct(imps) ==> Distinct(RequireByName(imps, s))
    ensures forall x :: x in RequiredOf(imps) ==> x.(required := true) in RequiredOf(RequireByName(imps, s))
  {
    var r := RequireByName(imps, s);
    forall x | x in RequiredOf(imps)
      ensures x.(required := true) in RequiredOf(r)
    {
      RequiredOfMembers(imps, x);
      var i :| 0 <= i < |imps| && imps[i] == x;
      assert r[i] == x;
      RequiredOfMembers(r, x);
    }
  }

  /** `after` is `before` with possibly more required flags set, and nothing else changed. */
  predicate Grows(before: ImportSet, after: ImportSet)
  {
    && |after| == |before|
    && (forall i :: 0 <= i < |before| ==>
          after[i].name == before[i].name && after[i].alias == before[i].alias
          && after[i].path == before[i].path
          && (before[i].required ==> after[i].required))
  }

  /** Growing twice is growing. */
  lemma GrowsTransitive(a: ImportSet, b: ImportSet, c: ImportSet)
    requires Grows(a, b) && Grows(b, c)
    ensures Grows(a, c)
  {
  }

  /** The effect of a series of `RequireByName` calls, in order. */
  function RequireEach(imps: ImportSet, names: seq<string>): ImportSet
    decreases |names|
  {
    if |names| == 0 then imps else RequireEach(RequireByName(imps, names[0]), names[1..])
  }

  /** After a series of `RequireByName` calls a record is required exactly when
      it was before or it answers to one of the names. */
  lemma {:induction false} RequireEachSpec(imps: ImportSet, names: seq<string>)
    ensures |RequireEach(imps, names)| == |imps|
    ensures forall i :: 0 <= i < |imps| ==>
      var r := RequireEach(imps, names)[i];
      r.name == imps[i].name && r.alias == imps[i].alias && r.path == imps[i].path
    ensures forall i :: 0 <= i < |imps| ==>
      (RequireEach(imps, names)[i].required <==>
        imps[i].required || exists k :: 0 <= k < |names| && Answers(imps[i], names[k]))
    decreases |names|
  {
    if |names| > 0 {
      var after := RequireByName(imps, names[0]);
      RequireEachSpec(after, names[1..]);
      forall i | 0 <= i < |imps|
        ensures RequireEach(imps, names)[i].required <==>
          imps[i].required || exists k :: 0 <= k < |names| && Answers(imps[i], names[k])
      {
        if RequireEach(imps, names)[i].required && !imps[i].required && !Answers(imps[i], names[0]) {
          var k :| 0 <= k < |names[1..]| && Answers(after[i], names[1..][k]);
          assert Answers(imps[i], names[k + 1]);
        }
        if exists k :: 0 <= k < |names| && Answers(imps[i], names[k]) {
          var k :| 0 <= k < |names| && Answers(imps[i], names[k]);
          if k > 0 {
            assert Answers(after[i], names[1..][k - 1]);
          }
        }
      }
    }
  }

  /** Requiring names one after the other splits at any point. */
  lemma {:induction false} RequireEachConcat(imps: ImportSet, a: seq<string>, b: seq<string>)
    ensures RequireEach(imps, a + b) == RequireEach(RequireEach(imps, a), b)
    decreases |a|
  {
    if |a| > 0 {
      assert (a + b)[1..] == a[1..] + b;
      RequireEachConcat(RequireByName(imps, a[0]), a[1..], b);
    } else {
      assert a + b == b;
    }
  }
}

=== FILE: interfaces.dfy ===
/** Building an interface's method list (interface.go; model.go:66-133 and
    229-286 hold the same code). A method is added either from the syntax of an
    interface's method field, or from the checked signature of an embedded
    interface's method. The import registry and the `ident` symbol generator,
    process-wide state in the source, are threaded through as an `Env`. */
module Interfaces {
  import opened Wrappers
  import opened Imports
  import Text
  import Types
  import Gensym
  import Identifiers
  import Methods
  import Syntax
  import Semantic

  datatype Interface = Interface(name: string, methods: seq<Methods.Method>, embeds: seq<string>)

  /** The state the source mutates in place: the import registry and the
      generator of names for unnamed parameters and results. */
  datatype Env = Env(imports: ImportSet, symbols: Gensym.SymbolGenerator)

  /** A list of identifiers (or the error), and the state afterwards. */
  datatype Extracted = Extracted(result: Result<seq<Identifiers.Identifier>>, env: Env)

  /** The outcome of adding a method: the error if any, the interface and the
      state afterwards (which an error leaves partly updated, as in the source). */
  datatype Added = Added(error: Option<Error>, iface: Interface, env: Env)

  /** The state after a step: more imports may be required, and the generator
      keeps its prefix and suffix. */
  predicate Evolves(before: Env, after: Env)
  {
    Grows(before.imports, after.imports)
    && after.symbols.prefix == before.symbols.prefix && after.symbols.suffix == before.symbols.suffix
  }

  /** `after` is `before` with one more method at the end, of this interface. */
  predicate AppendsOne(before: Interface, after: Interface)
  {
    && after.name == before.name && after.embeds == before.embeds
    && |after.methods| == |before.methods| + 1
    && after.methods[..|before.methods|] == before.methods
    && after.methods[|before.methods|].interfaceName == before.name
  }

  /** Number of identifiers a field list yields: one per name, or one
      synthesized for an unnamed field. */
  function Arity(fields: seq<Syntax.Field>): nat
  {
    if |fields| == 0 then 0 else Width(fields[0]) + Arity(fields[1..])
  }

  /** Number of identifiers one field yields. */
  function Width(field: Syntax.Field): nat
  {
    if |field.names| == 0 then 1 else |field.names|
  }

  /** Number of unnamed fields, each of which draws one symbol. */
  function Unnamed(fields: seq<Syntax.Field>): nat
  {
    if |fields| == 0 then 0
    else (if |fields[0].names| == 0 then 1 else 0) + Unnamed(fields[1..])
  }

  /** The selector packages of a field list's types, field after field: the
      names a successful extraction requires, in order. */
  function FieldsPackages(fields: seq<Syntax.Field>): seq<string>
  {
    if |fields| == 0 then [] else Syntax.Packages(fields[0].typ) + FieldsPackages(fields[1..])
  }

  /** The type a field's expression resolves to, or the error; the registry
      does not matter (see `Syntax.UnwrapExprIgnoresRegistry`). */
  function FieldType(field: Syntax.Field, printer: Syntax.Printer, gen: Syntax.Generation): Result<Types.Type>
  {
    Syntax.UnwrapExpr(field.typ, [], printer, gen).result
  }

  /** Every field's type resolves. */
  predicate AllResolve(fields: seq<Syntax.Field>, printer: Syntax.Printer, gen: Syntax.Generation)
  {
    forall k :: 0 <= k < |fields| ==> FieldType(fields[k], printer, gen).Ok?
  }

  /** Field `k` is the first whose type does not resolve, and `e` is its error. */
  predicate FailsFirstAt(fields: seq<Syntax.Field>, k: nat, e: Error, printer: Syntax.Printer, gen: Syntax.Generation)
  {
    && k < |fields|
    && FieldType(fields[k], printer, gen) == Err(e)
    && forall j :: 0 <= j < k ==> FieldType(fields[j], printer, gen).Ok?
  }

  /** The identifiers of field `k` when extraction starts with generator `g`:
      they follow those of the fields before it, carry the field's names in
      order (an unnamed field gets the symbol after those drawn for the unnamed
      fields before it), and all have the field's type. */
  predicate FieldPlaced(fields: seq<Syntax.Field>, k: nat, g: Gensym.SymbolGenerator, ids: seq<Identifiers.Identifier>,
                        printer: Syntax.Printer, gen: Syntax.Generation)
    requires k < |fields|
  {
    var offset := Arity(fields[..k]);
    var t := FieldType(fields[k], printer, gen);
    && t.Ok?
    && offset + Width(fields[k]) <= |ids|
    && (|fields[k].names| == 0 ==>
          ids[offset] == Identifiers.Identifier(Gensym.Next(Gensym.Run(g, Unnamed(fields[..k])).1).0, t.value))
    && forall j :: 0 <= j < |fields[k].names| ==> ids[offset + j] == Identifiers.Identifier(fields[k].names[j], t.value)
  }

  /** The identifier list a field list yields, field by field. */
  predicate FieldsPlaced(fields: seq<Syntax.Field>, g: Gensym.SymbolGenerator, ids: seq<Identifiers.Identifier>,
                         printer: Syntax.Printer, gen: Syntax.Generation)
  {
    |ids| == Arity(fields) && forall k :: 0 <= k < |fields| ==> FieldPlaced(fields, k, g, ids, printer, gen)
  }

  /** The generator after one field's symbols are drawn. */
  function FieldStep(field: Syntax.Field, g: Gensym.SymbolGenerator): Gensym.SymbolGenerator
  {
    if |field.names| == 0 then Gensym.Next(g).1 else g
  }

  /** A placed head followed by a placed tail is a placed list. */
  lemma FieldsPlacedCons(fields: seq<Syntax.Field>, g: Gensym.SymbolGenerator,
                         first: seq<Identifiers.Identifier>, rest: seq<Identifiers.Identifier>,
                         printer: Syntax.Printer, gen: Syntax.Generation)
    requires |fields| > 0
    requires FieldsPlaced([fields[0]], g, first, printer, gen)
    requires FieldsPlaced(fields[1..], FieldStep(fields[0], g), rest, printer, gen)
    ensures FieldsPlaced(fields, g, first + rest, printer, gen)
  {
    var ids := first + rest;
    assert [fields[0]][..0] == [] && fields[..0] == [];
    assert FieldPlaced([fields[0]], 0, g, first, printer, gen);
    assert [fields[0]][1..] == [];
    assert |first| == Width(fields[0]);
    forall k | 0 <= k < |fields|
      ensures FieldPlaced(fields, k, g, ids, printer, gen)
    {
      if k > 0 {
        FieldPlacedShift(fields, k, g, first, rest, printer, gen);
      }
    }
  }

  /** Field `k > 0` of a list is placed in the joined list where field `k - 1`
      of the tail is placed in the tail's list. */
  lemma FieldPlacedShift(fields: seq<Syntax.Field>, k: nat, g: Gensym.SymbolGenerator,
                         first: seq<Identifiers.Identifier>, rest: seq<Identifiers.Identifier>,
                         printer: Syntax.Printer, gen: Syntax.Generation)
    requires 0 < k < |fields| && |first| == Width(fields[0])
    requires FieldPlaced(fields[1..], k - 1, FieldStep(fields[0], g), rest, printer, gen)
    ensures FieldPlaced(fields, k, g, first + rest, printer, gen)
  {
    var tail := fields[1..];
    var ids := first + rest;
    assert fields[..k][0] == fields[0] && fields[..k][1..] == tail[..k - 1];
    var off := Arity(tail[..k - 1]);
    var n := Unnamed(tail[..k - 1]);
    assert Arity(fields[..k]) == |first| + off;
    assert Unnamed(fields[..k]) == (if |fields[0].names| == 0 then 1 else 0) + n;
    assert Gensym.Run(g, Unnamed(fields[..k])).1 == Gensym.Run(FieldStep(fields[0], g), n).1 by {
      if |fields[0].names| == 0 {
        Gensym.RunCons(g, n);
      }
    }
    assert tail[k - 1] == fields[k];
    assert forall i :: |first| <= i < |ids| ==> ids[i] == rest[i - |first|];
  }

  /** One field's extraction, when it succeeds, is placed. */
  lemma FieldExtractionPlaced(field: Syntax.Field, env: Env, printer: Syntax.Printer, gen: Syntax.Generation)
    ensures var r := ExtractIdentifiersFromField(field, env, printer, gen);
            r.result.Ok? ==> FieldsPlaced([field], env.symbols, r.result.value, printer, gen)
                             && r.env.symbols == FieldStep(field, env.symbols)
  {
    Syntax.UnwrapExprIgnoresRegistry(field.typ, env.imports, [], printer, gen);
    var r := ExtractIdentifiersFromField(field, env, printer, gen);
    if r.result.Ok? {
      var t := FieldType(field, printer, gen).value;
      var ids := r.result.value;
      assert forall j :: 0 <= j < |field.names| ==> ids[j] == Identifiers.Identifier(field.names[j], t);
      assert |field.names| == 0 ==> ids[0] == Identifiers.Identifier(Gensym.Next(env.symbols).0, t);
      SingleFieldPlaced(field, env.symbols, ids, t, printer, gen);
    }
  }

  /** A single field's identifiers, named and typed as the field says, are placed. */
  lemma SingleFieldPlaced(field: Syntax.Field, g: Gensym.SymbolGenerator, ids: seq<Identifiers.Identifier>, t: Types.Type,
                          printer: Syntax.Printer, gen: Syntax.Generation)
    requires FieldType(field, printer, gen) == Ok(t) && |ids| == Width(field)
    requires forall j :: 0 <= j < |field.names| ==> ids[j] == Identifiers.Identifier(field.names[j], t)
    requires |field.names| == 0 ==> ids[0] == Identifiers.Identifier(Gensym.Next(g).0, t)
    ensures FieldsPlaced([field], g, ids, printer, gen)
  {
    var fields := [field];
    assert fields[..0] == [] && fields[1..] == [];
    assert Arity(fields) == Width(field) + Arity([]);
    FirstFieldPlaced(fields, g, ids, t, printer, gen);
  }

  /** The first field of a list, named and typed as the field says, is placed. */
  lemma FirstFieldPlaced(fields: seq<Syntax.Field>, g: Gensym.SymbolGenerator, ids: seq<Identifiers.Identifier>, t: Types.Type,
                         printer: Syntax.Printer, gen: Syntax.Generation)
    requires |fields| > 0 && FieldType(fields[0], printer, gen) == Ok(t) && Width(fields[0]) <= |ids|
    requires forall j :: 0 <= j < |fields[0].names| ==> ids[j] == Identifiers.Identifier(fields[0].names[j], t)
    requires |fields[0].names| == 0 ==> ids[0] == Identifiers.Identifier(Gensym.Next(g).0, t)
    ensures FieldPlaced(fields, 0, g, ids, printer, gen)
  {
    assert fields[..0] == [];
    assert Arity(fields[..0]) == 0 && Unnamed(fields[..0]) == 0;
    assert Gensym.Run(g, Unnamed(fields[..0])).1 == g;
  }

  /** The first failure of the tail, behind a resolving head, is the first failure of the list. */
  lemma FailsFirstInTail(fields: seq<Syntax.Field>, e: Error, printer: Syntax.Printer, gen: Syntax.Generation)
    requires |fields| > 0 && FieldType(fields[0], printer, gen).Ok?
    requires exists k: nat :: FailsFirstAt(fields[1..], k, e, printer, gen)
    ensures exists k: nat :: FailsFirstAt(fields, k, e, printer, gen)
  {
    var k: nat :| FailsFirstAt(fields[1..], k, e, printer, gen);
    assert fields[k + 1] == fields[1..][k];
    forall j | 1 <= j < k + 1
      ensures FieldType(fields[j], printer, gen).Ok?
    {
      assert fields[j] == fields[1..][j - 1];
    }
    assert FailsFirstAt(fields, k + 1, e, printer, gen);
  }

  // ---------------------------------------------------------------------------
  // From syntax
  // ---------------------------------------------------------------------------

  /** `extractIdentifiersFromField`: one identifier per name, all of the field's
      type; an unnamed field gets the next generated symbol. */
  function ExtractIdentifiersFromField(field: Syntax.Field, env: Env, printer: Syntax.Printer, gen: Syntax.Generation): (r: Extracted)
    ensures Evolves(env, r.env)
    ensures r.env.imports == Syntax.UnwrapExpr(field.typ, env.imports, printer, gen).imports
    ensures r.result.Ok? ==> r.env.imports == RequireEach(env.imports, Syntax.Packages(field.typ))
    ensures r.result.Err? <==> Syntax.UnwrapExpr(field.typ, env.imports, printer, gen).result.Err?
    ensures r.result.Ok? && |field.names| > 0 ==>
              |r.result.value| == |field.names| && r.env.symbols == env.symbols
              && forall k :: 0 <= k < |field.names| ==> r.result.value[k].name == field.names[k]
    ensures r.result.Ok? && |field.names| == 0 ==>
              |r.result.value| == 1 && (r.result.value[0].name, r.env.symbols) == Gensym.Next(env.symbols)
    ensures r.result.Ok? ==>
              forall k :: 0 <= k < |r.result.value| ==>
                r.result.value[k].valueType == Syntax.UnwrapExpr(field.typ, env.imports, printer, gen).result.value
  {
    var unwrapped := Syntax.UnwrapExpr(field.typ, env.imports, printer, gen);
    Syntax.UnwrapExprRequiresPackages(field.typ, env.imports, printer, gen);
    var env1 := env.(imports := unwrapped.imports);
    if unwrapped.result.Err? then Extracted(Err(unwrapped.result.error), env1)
    else if |field.names| == 0 then
      var (name, symbols) := Gensym.Next(env.symbols);
      Extracted(Ok([Identifiers.Identifier(name, unwrapped.result.value)]), env1.(symbols := symbols))
    else
      Extracted(Ok(seq(|field.names|, k requires 0 <= k < |field.names| =>
                         Identifiers.Identifier(field.names[k], unwrapped.result.value))), env1)
  }

  /** The loop over a field list, stopping at the first error: on success the
      identifiers of each field in field order, and otherwise the error of the
      first field whose type does not resolve. */
  function ExtractFields(fields: seq<Syntax.Field>, env: Env, printer: Syntax.Printer, gen: Syntax.Generation): (r: Extracted)
    ensures Evolves(env, r.env)
    ensures r.result.Ok? ==> |r.result.value| == Arity(fields)
    ensures r.result.Ok? ==> FieldsPlaced(fields, env.symbols, r.result.value, printer, gen)
    ensures r.result.Ok? ==> r.env.symbols == Gensym.Run(env.symbols, Unnamed(fields)).1
    ensures r.result.Ok? ==> r.env.imports == RequireEach(env.imports, FieldsPackages(fields))
    ensures r.result.Err? ==> exists k: nat :: FailsFirstAt(fields, k, r.result.error, printer, gen)
    ensures r.result.Ok? && env.symbols.count as int + Unnamed(fields) < Gensym.CountLimit ==>
              r.env.symbols.count as int == env.symbols.count as int + Unnamed(fields)
    decreases |fields|
  {
    if |fields| == 0 then Extracted(Ok([]), env)
    else
      var first := ExtractIdentifiersFromField(fields[0], env, printer, gen);
      if first.result.Err? then
        Syntax.UnwrapExprIgnoresRegistry(fields[0].typ, env.imports, [], printer, gen);
        assert FailsFirstAt(fields, 0, first.result.error, printer, gen);
        first
      else
        var rest := ExtractFields(fields[1..], first.env, printer, gen);
        if rest.result.Err? then
          Syntax.UnwrapExprIgnoresRegistry(fields[0].typ, env.imports, [], printer, gen);
          FailsFirstInTail(fields, rest.result.error, printer, gen);
          rest
        else
          FieldExtractionPlaced(fields[0], env, printer, gen);
          FieldsStep(fields, env, first.result.value, first.env, rest.result.value, rest.env, printer, gen);
          Extracted(Ok(first.result.value + rest.result.value), rest.env)
  }

  /** The success step of `ExtractFields`: the head field's identifiers and the
      tail's, extracted from where the head left the state, are placed for the
      whole list, and the generator and registry end where the whole list's
      symbols and packages leave them. */
  lemma FieldsStep(fields: seq<Syntax.Field>, env: Env, first: seq<Identifiers.Identifier>, mid: Env,
                   rest: seq<Identifiers.Identifier>, last: Env, printer: Syntax.Printer, gen: Syntax.Generation)
    requires |fields| > 0
    requires FieldsPlaced([fields[0]], env.symbols, first, printer, gen) && mid.symbols == FieldStep(fields[0], env.symbols)
    requires mid.imports == RequireEach(env.imports, Syntax.Packages(fields[0].typ))
    requires FieldsPlaced(fields[1..], mid.symbols, rest, printer, gen)
    requires last.symbols == Gensym.Run(mid.symbols, Unnamed(fields[1..])).1
    requires last.imports == RequireEach(mid.imports, FieldsPackages(fields[1..]))
    ensures FieldsPlaced(fields, env.symbols, first + rest, printer, gen)
    ensures last.symbols == Gensym.Run(env.symbols, Unnamed(fields)).1
    ensures last.imports == RequireEach(env.imports, FieldsPackages(fields))
    ensures env.symbols.count as int + Unnamed(fields) < Gensym.CountLimit ==>
              last.symbols.count as int == env.symbols.count as int + Unnamed(fields)
  {
    FieldsPlacedCons(fields, env.symbols, first, rest, printer, gen);
    var n := Unnamed(fields[1..]);
    if |fields[0].names| == 0 {
      calc {
        Gensym.Run(env.symbols, Unnamed(fields)).1;
        { assert Unnamed(fields) == n + 1; }
        Gensym.Run(env.symbols, n + 1).1;
        { Gensym.RunState(env.symbols, n); }
        Gensym.Run(Gensym.Next(env.symbols).1, n).1;
      }
    } else {
      assert Unnamed(fields) == n && mid.symbols == env.symbols;
    }
    Gensym.RunCount(env.symbols, Unnamed(fields));
    RequireEachConcat(env.imports, Syntax.Packages(fields[0].typ), FieldsPackages(fields[1..]));
  }

  /** The packages a method field requires: its parameters', then its results'. */
  function SignaturePackages(t: Syntax.Expr): seq<string>
    requires t.FuncType?
  {
    FieldsPackages(t.params) + (if t.results.Some? then FieldsPackages(t.results.value) else [])
  }

  /** `addMethodFromField`: the field must be a function type (else an error and
      nothing changes) and must have a name (else the source indexes an empty
      list); the generator is reset, then parameters and results (when present)
      are extracted, and the method is appended. */
  function AddMethodFromField(iface: Interface, field: Syntax.Field, env: Env, printer: Syntax.Printer, gen: Syntax.Generation): (r: Added)
    ensures Evolves(env, r.env)
    ensures !field.typ.FuncType? ==> r == Added(Some(ExpectedFuncType), iface, env)
    ensures field.typ.FuncType? && |field.names| == 0 ==> r == Added(Some(Panic), iface, env)
    ensures r.error.Some? ==> r.iface == iface
    ensures r.error.None? ==>
              AppendsOne(iface, r.iface)
              && r.iface.methods[|iface.methods|].name == field.names[0]
              && |r.iface.methods[|iface.methods|].parameters| == Arity(field.typ.params)
              && (field.typ.results.None? ==> |r.iface.methods[|iface.methods|].results| == 0)
              && (field.typ.results.Some? ==> |r.iface.methods[|iface.methods|].results| == Arity(field.typ.results.value))
    ensures field.typ.FuncType? && |field.names| > 0 ==>
              (r.error.None? <==> AllResolve(field.typ.params, printer, gen)
                                  && (field.typ.results.Some? ==> AllResolve(field.typ.results.value, printer, gen)))
    ensures field.typ.FuncType? && |field.names| > 0 && r.error.Some? ==>
              if AllResolve(field.typ.params, printer, gen)
              then field.typ.results.Some? && exists k: nat :: FailsFirstAt(field.typ.results.value, k, r.error.value, printer, gen)
              else exists k: nat :: FailsFirstAt(field.typ.params, k, r.error.value, printer, gen)
    ensures r.error.None? ==> field.typ.FuncType? && r.env.imports == RequireEach(env.imports, SignaturePackages(field.typ))
    ensures r.error.None? ==>
              field.typ.FuncType? &&
              r.env.symbols == Gensym.Run(Gensym.Run(Gensym.Reset(env.symbols), Unnamed(field.typ.params)).1,
                                          if field.typ.results.Some? then Unnamed(field.typ.results.value) else 0).1
    ensures r.error.None? ==>
              var m := r.iface.methods[|iface.methods|];
              var g := Gensym.Reset(env.symbols);
              && FieldsPlaced(field.typ.params, g, m.parameters, printer, gen)
              && (field.typ.results.None? ==> m.results == [])
              && (field.typ.results.Some? ==>
                    FieldsPlaced(field.typ.results.value, Gensym.Run(g, Unnamed(field.typ.params)).1, m.results, printer, gen))
  {
    if !field.typ.FuncType? then Added(Some(ExpectedFuncType), iface, env)
    else if |field.names| == 0 then Added(Some(Panic), iface, env)
    else
      var env1 := env.(symbols := Gensym.Reset(env.symbols));
      var params := ExtractFields(field.typ.params, env1, printer, gen);
      if params.result.Err? then
        FailsFirstNotAll(field.typ.params, params.result.error, printer, gen);
        Added(Some(params.result.error), iface, params.env)
      else
        PlacedResolve(field.typ.params, env1.symbols, params.result.value, printer, gen);
        var results :=
          if field.typ.results.Some? then ExtractFields(field.typ.results.value, params.env, printer, gen)
          else Extracted(Ok([]), params.env);
        if results.result.Err? then
          FailsFirstNotAll(field.typ.results.value, results.result.error, printer, gen);
          Added(Some(results.result.error), iface, results.env)
        else
          RequireEachConcat(env.imports, FieldsPackages(field.typ.params),
                            if field.typ.results.Some? then FieldsPackages(field.typ.results.value) else []);
          ResultsResolve(field.typ.results, params.env.symbols, results.result.value, printer, gen);
          var m := Methods.Method(iface.name, field.names[0], params.result.value, results.result.value);
          Added(None, iface.(methods := iface.methods + [m]), results.env)
  }

  /** Every field of a placed result list, when there is one, resolves. */
  lemma ResultsResolve(results: Option<seq<Syntax.Field>>, g: Gensym.SymbolGenerator, ids: seq<Identifiers.Identifier>,
                       printer: Syntax.Printer, gen: Syntax.Generation)
    requires results.Some? ==> FieldsPlaced(results.value, g, ids, printer, gen)
    ensures results.Some? ==> AllResolve(results.value, printer, gen)
    ensures results.None? ==> Gensym.Run(g, 0).1 == g
  {
    if results.Some? {
      PlacedResolve(results.value, g, ids, printer, gen);
    }
  }

  /** Every field of a placed list resolves. */
  lemma PlacedResolve(fields: seq<Syntax.Field>, g: Gensym.SymbolGenerator, ids: seq<Identifiers.Identifier>,
                      printer: Syntax.Printer, gen: Syntax.Generation)
    requires FieldsPlaced(fields, g, ids, printer, gen)
    ensures AllResolve(fields, printer, gen)
  {
    forall k | 0 <= k < |fields|
      ensures FieldType(fields[k], printer, gen).Ok?
    {
      assert FieldPlaced(fields, k, g, ids, printer, gen);
    }
  }

  /** A list with a failing field does not all resolve. */
  lemma FailsFirstNotAll(fields: seq<Syntax.Field>, e: Error, printer: Syntax.Printer, gen: Syntax.Generation)
    requires exists k: nat :: FailsFirstAt(fields, k, e, printer, gen)
    ensures !AllResolve(fields, printer, gen)
  {
    var k: nat :| FailsFirstAt(fields, k, e, printer, gen);
    assert FieldType(fields[k], printer, gen).Err?;
  }

  // ---------------------------------------------------------------------------
  // From checked types
  // ---------------------------------------------------------------------------

  /** A parameter or result of a checked signature; "" when unnamed. */
  datatype Var = Var(name: string, typ: Semantic.GoType)

  /** A method of an embedded interface as go/types sees it. */
  datatype Func = Func(name: string, params: seq<Var>, results: seq<Var>, variadic: bool)

  /** Number of unnamed variables, each of which draws one symbol. */
  function UnnamedVars(vars: seq<Var>): nat
  {
    if |vars| == 0 then 0 else (if vars[0].name == "" then 1 else 0) + UnnamedVars(vars[1..])
  }

  /** The packages of the named types in a variable list, variable after
      variable: the names a successful extraction requires, in order. */
  function VarsPackages(vars: seq<Var>): seq<string>
  {
    if |vars| == 0 then [] else Semantic.Packages(vars[0].typ) + VarsPackages(vars[1..])
  }

  /** The identifier made for a variable: its own name when it has one, a
      non-empty name in any case, and a resolved type with no variadic in it. */
  predicate IdentifierFor(v: Var, id: Identifiers.Identifier)
  {
    && (v.name != "" ==> id.name == v.name)
    && id.name != ""
    && Types.Resolved(id.valueType) && Types.EllipsisCount(id.valueType) == 0
  }

  /** One identifier made for each variable, in order. */
  predicate IdentifiersFor(vars: seq<Var>, ids: seq<Identifiers.Identifier>)
  {
    |ids| == |vars| && forall k :: 0 <= k < |vars| ==> IdentifierFor(vars[k], ids[k])
  }

  /** Identifiers made for a head and for a tail are made for the whole list. */
  lemma IdentifiersForCons(vars: seq<Var>, id: Identifiers.Identifier, ids: seq<Identifiers.Identifier>)
    requires |vars| > 0 && IdentifierFor(vars[0], id) && IdentifiersFor(vars[1..], ids)
    ensures IdentifiersFor(vars, [id] + ids)
  {
    forall k | 1 <= k < |vars|
      ensures IdentifierFor(vars[k], ([id] + ids)[k])
    {
      assert vars[k] == vars[1..][k - 1];
    }
  }

  /** The type a checked variable resolves to, or the error; the registry does
      not matter (see `Semantic.UnwrapTypeIgnoresRegistry`). */
  function VarType(v: Var): Result<Types.Type>
  {
    Semantic.UnwrapType(v.typ, []).result
  }

  /** The name the `k`-th variable gets when extraction starts with generator
      `g`: its own, or else the symbol after those drawn for the unnamed
      variables before it. */
  function NameAt(vars: seq<Var>, k: nat, g: Gensym.SymbolGenerator): string
    requires k < |vars|
  {
    if vars[k].name != "" then vars[k].name
    else Gensym.Next(Gensym.Run(g, UnnamedVars(vars[..k])).1).0
  }

  /** One identifier per variable, in order, named `NameAt` and typed as the
      variable's type resolves. */
  predicate IdentifiersAt(vars: seq<Var>, g: Gensym.SymbolGenerator, ids: seq<Identifiers.Identifier>)
  {
    && |ids| == |vars|
    && forall k :: 0 <= k < |vars| ==> ids[k].name == NameAt(vars, k, g) && VarType(vars[k]) == Ok(ids[k].valueType)
  }

  /** The generator after one variable's symbol, if any, is drawn. */
  function VarStep(v: Var, g: Gensym.SymbolGenerator): Gensym.SymbolGenerator
  {
    if v.name == "" then Gensym.Next(g).1 else g
  }

  /** Variable `k > 0` is named in a list as variable `k - 1` is in its tail,
      once the head's symbol is drawn. */
  lemma NameAtShift(vars: seq<Var>, k: nat, g: Gensym.SymbolGenerator)
    requires 0 < k < |vars|
    ensures NameAt(vars, k, g) == NameAt(vars[1..], k - 1, VarStep(vars[0], g))
  {
    var tail := vars[1..];
    assert vars[..k][0] == vars[0] && vars[..k][1..] == tail[..k - 1];
    assert UnnamedVars(vars[..k]) == (if vars[0].name == "" then 1 else 0) + UnnamedVars(tail[..k - 1]);
    Gensym.RunCons(g, UnnamedVars(tail[..k - 1]));
    assert tail[k - 1] == vars[k];
  }

  /** A head identifier and the tail's identifiers are the list's identifiers. */
  lemma IdentifiersAtCons(vars: seq<Var>, g: Gensym.SymbolGenerator, id: Identifiers.Identifier, ids: seq<Identifiers.Identifier>)
    requires |vars| > 0
    requires id.name == NameAt(vars, 0, g) && VarType(vars[0]) == Ok(id.valueType)
    requires IdentifiersAt(vars[1..], VarStep(vars[0], g), ids)
    ensures IdentifiersAt(vars, g, [id] + ids)
  {
    forall k | 1 <= k < |vars|
      ensures ([id] + ids)[k].name == NameAt(vars, k, g) && VarType(vars[k]) == Ok(([id] + ids)[k].valueType)
    {
      NameAtShift(vars, k, g);
      assert vars[k] == vars[1..][k - 1];
    }
  }

  /** The head's identifier: its own name or the generator's next symbol, and
      its resolved type. */
  lemma HeadNameAt(vars: seq<Var>, g: Gensym.SymbolGenerator)
    requires |vars| > 0
    ensures NameAt(vars, 0, g) == if vars[0].name != "" then vars[0].name else Gensym.Next(g).0
  {
    assert vars[..0] == [];
  }

  /** Every variable's type is one the checked resolver handles. */
  predicate Supported(vars: seq<Var>)
  {
    forall k :: 0 <= k < |vars| ==> !Semantic.HasOther(vars[k].typ)
  }

  /** A variable the checked resolver cannot handle in the tail is one in the whole list. */
  lemma HasOtherInTail(vars: seq<Var>)
    requires |vars| > 0 && !Supported(vars[1..])
    ensures !Supported(vars)
  {
    var k :| 0 <= k < |vars[1..]| && Semantic.HasOther(vars[1..][k].typ);
    assert vars[k + 1] == vars[1..][k];
  }

  /** `extractIdentifiersFromTuple`: one identifier per variable, in order; an
      unnamed variable gets the next generated symbol. */
  function ExtractIdentifiersFromTuple(vars: seq<Var>, env: Env): (r: Extracted)
    ensures Evolves(env, r.env)
    ensures r.result.Err? <==> !Supported(vars)
    ensures r.result.Err? ==> r.result.error == UnsupportedType
    ensures r.result.Ok? ==> IdentifiersFor(vars, r.result.value)
    ensures r.result.Ok? ==> IdentifiersAt(vars, env.symbols, r.result.value)
    ensures r.result.Ok? ==> r.env.symbols == Gensym.Run(env.symbols, UnnamedVars(vars)).1
    ensures r.result.Ok? ==> r.env.imports == RequireEach(env.imports, VarsPackages(vars))
    ensures r.result.Ok? && env.symbols.count as int + UnnamedVars(vars) < Gensym.CountLimit ==>
              r.env.symbols.count as int == env.symbols.count as int + UnnamedVars(vars)
    decreases |vars|
  {
    if |vars| == 0 then Extracted(Ok([]), env)
    else
      var unwrapped := Semantic.UnwrapType(vars[0].typ, env.imports);
      Semantic.UnwrapTypeIgnoresRegistry(vars[0].typ, env.imports, []);
      var env1 := env.(imports := unwrapped.imports);
      if unwrapped.result.Err? then Extracted(Err(unwrapped.result.error), env1)
      else
        var name := if vars[0].name == "" then Gensym.Next(env.symbols).0 else vars[0].name;
        var rest := ExtractIdentifiersFromTuple(vars[1..], env1.(symbols := VarStep(vars[0], env.symbols)));
        if rest.result.Err? then
          HasOtherInTail(vars);
          rest
        else
          var id := Identifiers.Identifier(name, unwrapped.result.value);
          assert IdentifierFor(vars[0], id);
          TupleCons(vars, env.symbols, id, rest.result.value, rest.env.symbols);
          TupleImports(vars, env.imports, rest.env.imports);
          Extracted(Ok([id] + rest.result.value), rest.env)
  }

  /** The registry after the head variable's type and then the tail's
      resolve is the registry after the whole list's packages are required. */
  lemma TupleImports(vars: seq<Var>, imports: ImportSet, last: ImportSet)
    requires |vars| > 0 && Semantic.UnwrapType(vars[0].typ, imports).result.Ok?
    requires last == RequireEach(Semantic.UnwrapType(vars[0].typ, imports).imports, VarsPackages(vars[1..]))
    ensures last == RequireEach(imports, VarsPackages(vars))
  {
    Semantic.UnwrapTypeRequiresPackages(vars[0].typ, imports);
    RequireEachConcat(imports, Semantic.Packages(vars[0].typ), VarsPackages(vars[1..]));
  }

  /** The success step of `ExtractIdentifiersFromTuple`: the head's identifier
      and the tail's identifiers, made from where the head left the generator,
      are the list's identifiers, and the generator ends where the whole list's
      symbols leave it. */
  lemma TupleCons(vars: seq<Var>, g: Gensym.SymbolGenerator, id: Identifiers.Identifier, ids: seq<Identifiers.Identifier>,
                  last: Gensym.SymbolGenerator)
    requires |vars| > 0 && IdentifierFor(vars[0], id) && IdentifiersFor(vars[1..], ids)
    requires id.name == (if vars[0].name != "" then vars[0].name else Gensym.Next(g).0)
    requires VarType(vars[0]) == Ok(id.valueType)
    requires IdentifiersAt(vars[1..], VarStep(vars[0], g), ids)
    requires last == Gensym.Run(VarStep(vars[0], g), UnnamedVars(vars[1..])).1
    ensures IdentifiersFor(vars, [id] + ids) && IdentifiersAt(vars, g, [id] + ids)
    ensures last == Gensym.Run(g, UnnamedVars(vars)).1
    ensures g.count as int + UnnamedVars(vars) < Gensym.CountLimit ==>
              last.count as int == g.count as int + UnnamedVars(vars)
  {
    IdentifiersForCons(vars, id, ids);
    HeadNameAt(vars, g);
    IdentifiersAtCons(vars, g, id, ids);
    TupleRun(vars, g);
  }

  /** Drawing the head's symbol, if any, and then the tail's is drawing the list's. */
  lemma TupleRun(vars: seq<Var>, g: Gensym.SymbolGenerator)
    requires |vars| > 0
    ensures Gensym.Run(VarStep(vars[0], g), UnnamedVars(vars[1..])).1 == Gensym.Run(g, UnnamedVars(vars)).1
    ensures g.count as int + UnnamedVars(vars) < Gensym.CountLimit ==>
              Gensym.Run(g, UnnamedVars(vars)).1.count as int == g.count as int + UnnamedVars(vars)
  {
    var n := UnnamedVars(vars[1..]);
    if vars[0].name == "" {
      calc {
        Gensym.Run(g, UnnamedVars(vars)).1;
        { assert UnnamedVars(vars) == n + 1; }
        Gensym.Run(g, n + 1).1;
        { Gensym.RunState(g, n); }
        Gensym.Run(Gensym.Next(g).1, n).1;
      }
    } else {
      assert UnnamedVars(vars) == n && VarStep(vars[0], g) == g;
    }
    Gensym.RunCount(g, UnnamedVars(vars));
  }

  /** The type a variadic last parameter gets: the element type spread, taken
      from the slice the checker reports (any other type is spread whole). */
  function VariadicType(t: Types.Type): (r: Types.Type)
    ensures r.Ellipsis?
    ensures t.Array? ==> r.sub == t.sub
    ensures !t.Array? ==> r.sub == t
  {
    if t.Array? then Types.Ellipsis(t.sub) else Types.Ellipsis(t)
  }

  /** The parameter list with its last parameter's type made a spread. */
  function SpreadLast(ps: seq<Identifiers.Identifier>): (r: seq<Identifiers.Identifier>)
    requires |ps| > 0
    ensures |r| == |ps| && r[..|ps| - 1] == ps[..|ps| - 1]
    ensures forall k :: 0 <= k < |ps| ==> r[k].name == ps[k].name
    ensures r[|ps| - 1].valueType == VariadicType(ps[|ps| - 1].valueType)
    ensures Types.Spreads(r[|ps| - 1].valueType)
    ensures Methods.AllResolved(ps) ==> Methods.AllResolved(r)
  {
    var last := ps[|ps| - 1];
    var r := ps[..|ps| - 1] + [last.(valueType := VariadicType(last.valueType))];
    assert forall k :: 0 <= k < |ps| - 1 ==> r[k] == ps[k];
    r
  }

  /** The method added for a checked signature when the generator starts at
      `g`: its name, one parameter and one result per variable, every
      identifier named and renderable, and a spread last parameter exactly when
      the signature is variadic. Parameter `k` is named `NameAt` and typed as
      its variable resolves (the last one of a variadic signature as that
      type spread); the results are named the same way, with the generator
      where the parameters left it. */
  predicate MethodFor(f: Func, g: Gensym.SymbolGenerator, m: Methods.Method)
  {
    MethodShape(f, m) && MethodContents(f, g, m)
  }

  /** The name, arities, renderability and spread of the method for a signature. */
  predicate MethodShape(f: Func, m: Methods.Method)
  {
    && m.name == f.name
    && |m.parameters| == |f.params| && |m.results| == |f.results|
    && Methods.Renderable(m) && Methods.AllNamed(m.parameters) && Methods.AllNamed(m.results)
    && (forall k :: 0 <= k < |f.params| && f.params[k].name != "" ==> m.parameters[k].name == f.params[k].name)
    && (forall k :: 0 <= k < |f.results| && f.results[k].name != "" ==> m.results[k].name == f.results[k].name)
    && (f.variadic <==> |m.parameters| > 0 && Types.Spreads(m.parameters[|m.parameters| - 1].valueType))
  }

  /** The names and types of the method for a signature. */
  predicate MethodContents(f: Func, g: Gensym.SymbolGenerator, m: Methods.Method)
  {
    && |m.parameters| == |f.params|
    && (forall k :: 0 <= k < |f.params| ==> m.parameters[k].name == NameAt(f.params, k, g))
    && (forall k :: 0 <= k < |f.params| && !(f.variadic && k == |f.params| - 1) ==>
          VarType(f.params[k]) == Ok(m.parameters[k].valueType))
    && (f.variadic && |f.params| > 0 ==>
          var last := |f.params| - 1;
          VarType(f.params[last]).Ok? && m.parameters[last].valueType == VariadicType(VarType(f.params[last]).value))
    && IdentifiersAt(f.results, Gensym.Run(g, UnnamedVars(f.params)).1, m.results)
  }

  /** Identifiers made for a signature's variables, with the last parameter
      spread for a variadic signature, form the method for the signature. */
  lemma MethodForIdentifiers(iface: string, f: Func, g: Gensym.SymbolGenerator, ps: seq<Identifiers.Identifier>, rs: seq<Identifiers.Identifier>)
    requires IdentifiersFor(f.params, ps) && IdentifiersFor(f.results, rs)
    requires IdentifiersAt(f.params, g, ps) && IdentifiersAt(f.results, Gensym.Run(g, UnnamedVars(f.params)).1, rs)
    requires f.variadic ==> |ps| > 0
    ensures MethodFor(f, g, Methods.Method(iface, f.name, if f.variadic then SpreadLast(ps) else ps, rs))
  {
    MethodShapeIdentifiers(iface, f, ps, rs);
    MethodContentsIdentifiers(iface, f, g, ps, rs);
  }

  /** The name, arities, renderability and spread of identifiers made for a
      signature carry over to its method. */
  lemma MethodShapeIdentifiers(iface: string, f: Func, ps: seq<Identifiers.Identifier>, rs: seq<Identifiers.Identifier>)
    requires IdentifiersFor(f.params, ps) && IdentifiersFor(f.results, rs)
    requires f.variadic ==> |ps| > 0
    ensures MethodShape(f, Methods.Method(iface, f.name, if f.variadic then SpreadLast(ps) else ps, rs))
  {
    if !f.variadic && |ps| > 0 {
      Types.SpreadsNeedsEllipsis(ps[|ps| - 1].valueType);
    }
  }

  /** The names and types of identifiers made for a signature carry over to its method. */
  lemma MethodContentsIdentifiers(iface: string, f: Func, g: Gensym.SymbolGenerator, ps: seq<Identifiers.Identifier>, rs: seq<Identifiers.Identifier>)
    requires IdentifiersAt(f.params, g, ps) && IdentifiersAt(f.results, Gensym.Run(g, UnnamedVars(f.params)).1, rs)
    requires f.variadic ==> |ps| > 0
    ensures MethodContents(f, g, Methods.Method(iface, f.name, if f.variadic then SpreadLast(ps) else ps, rs))
  {
    if f.variadic {
      var sp := SpreadLast(ps);
      forall k | 0 <= k < |ps| - 1
        ensures sp[k] == ps[k]
      {
        assert sp[k] == sp[..|ps| - 1][k];
      }
    }
  }

  /** `addMethodFromType`: parameters, then (for a variadic signature) the last
      parameter's type turned into a spread, then results; the method is
      appended. The symbol generator is not reset here. */
  function AddMethodFromType(iface: Interface, f: Func, env: Env): (r: Added)
    ensures Evolves(env, r.env)
    ensures r.error.Some? ==> r.iface == iface
    ensures r.error.Some? && r.error.value != Panic ==> r.error.value == UnsupportedType
    ensures r.error == Some(Panic) <==>
              f.variadic && |f.params| == 0
    ensures r.error.None? ==> AppendsOne(iface, r.iface) && MethodFor(f, env.symbols, r.iface.methods[|iface.methods|])
    ensures r.error.None? ==>
              r.env.symbols == Gensym.Run(Gensym.Run(env.symbols, UnnamedVars(f.params)).1, UnnamedVars(f.results)).1
    ensures r.error.None? <==> Supported(f.params) && Supported(f.results) && !(f.variadic && |f.params| == 0)
    ensures r.error.None? ==> r.env.imports == RequireEach(env.imports, VarsPackages(f.params) + VarsPackages(f.results))
  {
    var params := ExtractIdentifiersFromTuple(f.params, env);
    if params.result.Err? then Added(Some(params.result.error), iface, params.env)
    else if f.variadic && |params.result.value| == 0 then Added(Some(Panic), iface, params.env)  // index -1
    else
      var ps := params.result.value;
      var ps' := if f.variadic then SpreadLast(ps) else ps;
      var results := ExtractIdentifiersFromTuple(f.results, params.env);
      if results.result.Err? then Added(Some(results.result.error), iface, results.env)
      else
        var m := Methods.Method(iface.name, f.name, ps', results.result.value);
        TypeMethodStep(iface.name, f, env, ps, params.env, results.result.value, results.env);
        Added(None, iface.(methods := iface.methods + [m]), results.env)
  }

  /** The success step of `AddMethodFromType`: identifiers extracted for the
      parameters and then, from where they left the state, for the results
      form the method for the signature, and the registry ends where both
      lists' packages leave it. */
  lemma TypeMethodStep(iface: string, f: Func, env: Env, ps: seq<Identifiers.Identifier>, mid: Env,
                       rs: seq<Identifiers.Identifier>, last: Env)
    requires IdentifiersFor(f.params, ps) && IdentifiersFor(f.results, rs)
    requires IdentifiersAt(f.params, env.symbols, ps) && mid.symbols == Gensym.Run(env.symbols, UnnamedVars(f.params)).1
    requires IdentifiersAt(f.results, mid.symbols, rs)
    requires mid.imports == RequireEach(env.imports, VarsPackages(f.params))
    requires last.imports == RequireEach(mid.imports, VarsPackages(f.results))
    requires f.variadic ==> |ps| > 0
    ensures MethodFor(f, env.symbols, Methods.Method(iface, f.name, if f.variadic then SpreadLast(ps) else ps, rs))
    ensures last.imports == RequireEach(env.imports, VarsPackages(f.params) + VarsPackages(f.results))
  {
    MethodForIdentifiers(iface, f, env.symbols, ps, rs);
    RequireEachConcat(env.imports, VarsPackages(f.params), VarsPackages(f.results));
  }

  // ---------------------------------------------------------------------------
  // Properties
  // ---------------------------------------------------------------------------

  /** Because the syntax path resets the generator before each method, the
      method it adds does not depend on how many symbols were drawn before:
      generators with the same prefix and suffix give the same interface. */
  lemma FieldMethodIgnoresCounter(iface: Interface, field: Syntax.Field, imports: ImportSet,
                                  g: Gensym.SymbolGenerator, h: Gensym.SymbolGenerator,
                                  printer: Syntax.Printer, gen: Syntax.Generation)
    requires g.prefix == h.prefix && g.suffix == h.suffix
    ensures AddMethodFromField(iface, field, Env(imports, g), printer, gen).iface
         == AddMethodFromField(iface, field, Env(imports, h), printer, gen).iface
    ensures AddMethodFromField(iface, field, Env(imports, g), printer, gen).error
         == AddMethodFromField(iface, field, Env(imports, h), printer, gen).error
  {
    assert Gensym.Reset(g) == Gensym.Reset(h);
  }

  /** The mapper fake's method: an unnamed `map[string]string` parameter is
      named `ident1`, whatever the generator's count was. */
  lemma UnnamedParameterIsIdent1(iface: Interface, imports: ImportSet, count: Gensym.uint64,
                                 printer: Syntax.Printer, gen: Syntax.Generation)
    ensures var str := Syntax.Ident("string");
            var field := Syntax.Field(["MapParameter"], Syntax.FuncType([Syntax.Field([], Syntax.MapType(str, str))], None));
            var r := AddMethodFromField(iface, field, Env(imports, Gensym.IdentGenerator.(count := count)), printer, gen);
            r.error.None?
            && r.iface.methods[|iface.methods|]
               == Methods.Method(iface.name, "MapParameter",
                                 [Identifiers.Identifier("ident1", Types.Map(Types.BasicType("string", ""), Types.BasicType("string", "")))],
                                 [])
  {
    var str := Syntax.Ident("string");
    var pf := Syntax.Field([], Syntax.MapType(str, str));
    assert Gensym.Reset(Gensym.IdentGenerator.(count := count)) == Gensym.IdentGenerator;
    MapParameterExtracted(imports, printer, gen);
  }

  /** The parameter list of `MapParameter`, extracted from a reset generator. */
  lemma MapParameterExtracted(imports: ImportSet, printer: Syntax.Printer, gen: Syntax.Generation)
    ensures var str := Syntax.Ident("string");
            var pf := Syntax.Field([], Syntax.MapType(str, str));
            ExtractFields([pf], Env(imports, Gensym.IdentGenerator), printer, gen).result
            == Ok([Identifiers.Identifier("ident1", Types.Map(Types.BasicType("string", ""), Types.BasicType("string", "")))])
  {
    assert Text.Decimal(1) == "1";
    var str := Syntax.Ident("string");
    var pf := Syntax.Field([], Syntax.MapType(str, str));
    var env1 := Env(imports, Gensym.IdentGenerator);
    var t := Types.Map(Types.BasicType("string", ""), Types.BasicType("string", ""));
    assert Syntax.UnwrapExpr(pf.typ, imports, printer, gen) == Syntax.Resolution(Ok(t), imports);
    assert (0 + 1) % Gensym.CountLimit == 1;
    assert Gensym.Next(Gensym.IdentGenerator).1 == Gensym.IdentGenerator.(count := 1);
    assert Gensym.Next(Gensym.IdentGenerator).0 == "ident" + Text.Decimal(1) + "";
    assert "ident" + "1" + "" == "ident1";
    assert Gensym.Next(Gensym.IdentGenerator) == ("ident1", Gensym.IdentGenerator.(count := 1));
    var first := ExtractIdentifiersFromField(pf, env1, printer, gen);
    assert first.result == Ok([Identifiers.Identifier("ident1", t)]);
    assert [pf][1..] == [];
    assert ExtractFields([pf], env1, printer, gen).result == Ok([Identifiers.Identifier("ident1", t)] + []);
    assert [Identifiers.Identifier("ident1", t)] + [] == [Identifiers.Identifier("ident1", t)];
  }

  /** The embedder fake's method: the checked-type path does not reset the
      generator, so an unnamed `string` result drawn after four symbols is `ident5`. */
  lemma UnnamedResultContinuesCounter(iface: Interface, imports: ImportSet)
    ensures var f := Func("String", [], [Var("", Semantic.Basic("string"))], false);
            var r := AddMethodFromType(iface, f, Env(imports, Gensym.IdentGenerator.(count := 4)));
            r.error.None?
            && r.iface.methods[|iface.methods|].results == [Identifiers.Identifier("ident5", Types.BasicType("string", ""))]
            && r.env.symbols.count == 5
  {
    var env := Env(imports, Gensym.IdentGenerator.(count := 4));
    UnnamedStringResult(imports);
    assert ExtractIdentifiersFromTuple([], env) == Extracted(Ok([]), env);
  }

  /** The result list of the embedder fake's method, extracted after four symbols. */
  lemma UnnamedStringResult(imports: ImportSet)
    ensures var r := ExtractIdentifiersFromTuple([Var("", Semantic.Basic("string"))], Env(imports, Gensym.IdentGenerator.(count := 4)));
            r.result == Ok([Identifiers.Identifier("ident5", Types.BasicType("string", ""))]) && r.env.symbols.count == 5
  {
    assert Text.Decimal(5) == "5";
    var env := Env(imports, Gensym.IdentGenerator.(count := 4));
    var v := Var("", Semantic.Basic("string"));
    assert (4 + 1) % Gensym.CountLimit == 5;
    assert Gensym.Next(env.symbols).1 == env.symbols.(count := 5);
    assert Gensym.Next(env.symbols).0 == "ident" + Text.Decimal(5) + "";
    assert "ident" + "5" + "" == "ident5";
    TupleOne(v, env);
  }

  /** Extracting a one-variable list whose type resolves: the variable's name,
      or the next symbol when it has none, with its type. */
  lemma TupleOne(v: Var, env: Env)
    requires Semantic.UnwrapType(v.typ, env.imports).result.Ok?
    ensures var u := Semantic.UnwrapType(v.typ, env.imports);
            var r := ExtractIdentifiersFromTuple([v], env);
            && r.result == Ok([Identifiers.Identifier(if v.name == "" then Gensym.Next(env.symbols).0 else v.name, u.result.value)])
            && r.env == Env(u.imports, VarStep(v, env.symbols))
  {
    assert [v][1..] == [];
    var u := Semantic.UnwrapType(v.typ, env.imports);
    var id := Identifiers.Identifier(if v.name == "" then Gensym.Next(env.symbols).0 else v.name, u.result.value);
    var rest := ExtractIdentifiersFromTuple([], Env(u.imports, VarStep(v, env.symbols)));
    assert rest == Extracted(Ok([]), Env(u.imports, VarStep(v, env.symbols)));
    assert [id] + [] == [id];
  }

  /** A variadic signature's last parameter, reported by the checker as a
      slice `[]T`, is declared `name ...T` and referenced `name...`, while its
      field stays the slice `Name []T`. */
  lemma VariadicSliceRenderings(name: string, element: Types.Type)
    requires Types.Resolved(element)
    ensures var before := Identifiers.Identifier(name, Types.Array(element, ""));
            var after := before.(valueType := VariadicType(before.valueType));
            Identifiers.ParameterFormat(after) == name + " ..." + Types.ParameterFormat(element)
            && Identifiers.ReferenceFormat(after) == name + "..."
            && Identifiers.FieldFormat(after) == Identifiers.FieldFormat(before)
  {
    var before := Identifiers.Identifier(name, Types.Array(element, ""));
    Identifiers.VariadicIdentifier(name, element);
    assert Types.FieldFormat(Types.Array(element, "")) == "[]" + Types.FieldFormat(element);
  }

  // ---------------------------------------------------------------------------
  // Agreement of the two ways of adding a method
  // ---------------------------------------------------------------------------

  /** A field list written with one name per field, and the checked variables
      it declares, in order. */
  predicate FieldsMatch(fields: seq<Syntax.Field>, vars: seq<Var>, printer: Syntax.Printer)
  {
    && |fields| == |vars|
    && forall k :: 0 <= k < |vars| ==>
         vars[k].name != "" && fields[k].names == [vars[k].name]
         && Semantic.Corresponds(fields[k].typ, vars[k].typ, printer)
  }

  /** A variadic parameter list: all but the last match, and the last is
      written `name ...E` where the checker reports `name []T` for the `T` that `E` denotes. */
  predicate SpreadFieldsMatch(fields: seq<Syntax.Field>, vars: seq<Var>, printer: Syntax.Printer)
  {
    && |fields| == |vars| > 0
    && FieldsMatch(fields[..|fields| - 1], vars[..|vars| - 1], printer)
    && var (field, v) := (fields[|fields| - 1], vars[|vars| - 1]);
       v.name != "" && field.names == [v.name]
       && field.typ.Ellipsis? && v.typ.Slice?
       && Semantic.Corresponds(field.typ.elt, v.typ.elem, printer)
  }

  /** Dropping the first field and variable keeps the match. */
  lemma FieldsMatchTail(fields: seq<Syntax.Field>, vars: seq<Var>, printer: Syntax.Printer)
    requires FieldsMatch(fields, vars, printer) && |vars| > 0
    ensures FieldsMatch(fields[1..], vars[1..], printer)
  {
    forall k | 0 <= k < |vars| - 1
      ensures vars[1..][k].name != "" && fields[1..][k].names == [vars[1..][k].name]
              && Semantic.Corresponds(fields[1..][k].typ, vars[1..][k].typ, printer)
    {
      assert vars[1..][k] == vars[k + 1] && fields[1..][k] == fields[k + 1];
    }
  }

  /** One field `name E` and the variable `name T` for the `T` that `E` denotes
      extract to the same single identifier and leave the same state. */
  lemma HeadsAgree(field: Syntax.Field, v: Var, env: Env, printer: Syntax.Printer, gen: Syntax.Generation)
    requires v.name != "" && field.names == [v.name] && Semantic.Corresponds(field.typ, v.typ, printer)
    ensures var u := Semantic.UnwrapType(v.typ, env.imports);
            u.result.Ok?
            && var id := Identifiers.Identifier(v.name, u.result.value);
            ExtractIdentifiersFromField(field, env, printer, gen) == Extracted(Ok([id]), env.(imports := u.imports))
            && ExtractIdentifiersFromTuple([v], env) == Extracted(Ok([id]), env.(imports := u.imports))
  {
    Semantic.ResolversAgree(field.typ, v.typ, env.imports, printer, gen);
    var u := Semantic.UnwrapType(v.typ, env.imports);
    var id := Identifiers.Identifier(v.name, u.result.value);
    assert [v][1..] == [];
    assert ExtractIdentifiersFromTuple([], env.(imports := u.imports)) == Extracted(Ok([]), env.(imports := u.imports));
    assert [id] + [] == [id];
    var ids := seq(|field.names|, k requires 0 <= k < |field.names| => Identifiers.Identifier(field.names[k], u.result.value));
    assert ids == [id];
    assert Syntax.UnwrapExpr(field.typ, env.imports, printer, gen) == u;
  }

  /** Extracting a non-empty variable list is extracting its head, then its tail. */
  lemma TupleSplits(vars: seq<Var>, env: Env)
    requires |vars| > 0
    ensures var first := ExtractIdentifiersFromTuple([vars[0]], env);
            var rest := ExtractIdentifiersFromTuple(vars[1..], first.env);
            first.result.Ok? && rest.result.Ok? ==>
              ExtractIdentifiersFromTuple(vars, env) == Extracted(Ok(first.result.value + rest.result.value), rest.env)
  {
    var unwrapped := Semantic.UnwrapType(vars[0].typ, env.imports);
    var env1 := env.(imports := unwrapped.imports);
    if unwrapped.result.Ok? {
      var (name, env2) :=
        if vars[0].name == "" then
          var (symbol, symbols) := Gensym.Next(env1.symbols);
          (symbol, env1.(symbols := symbols))
        else (vars[0].name, env1);
      assert [vars[0]][1..] == [];
      var id := Identifiers.Identifier(name, unwrapped.result.value);
      assert ExtractIdentifiersFromTuple([vars[0]], env) == Extracted(Ok([id] + []), env2);
      assert [id] + [] == [id];
      var rest := ExtractIdentifiersFromTuple(vars[1..], env2);
      if rest.result.Ok? {
        assert ExtractIdentifiersFromTuple(vars, env) == Extracted(Ok([id] + rest.result.value), rest.env);
      }
    }
  }


  /** Matching one-name fields and variables extract to the same identifiers
      and require the same imports; no symbol is drawn on either path. */
  lemma {:induction false} ExtractionsAgree(fields: seq<Syntax.Field>, vars: seq<Var>, e1: Env, e2: Env,
                                            printer: Syntax.Printer, gen: Syntax.Generation)
    requires FieldsMatch(fields, vars, printer) && e1.imports == e2.imports
    ensures var a := ExtractFields(fields, e1, printer, gen);
            var b := ExtractIdentifiersFromTuple(vars, e2);
            a.result.Ok? && a.result == b.result && a.env.imports == b.env.imports
            && a.env.symbols == e1.symbols && b.env.symbols == e2.symbols
    decreases |vars|
  {
    if |vars| > 0 {
      HeadsAgree(fields[0], vars[0], e1, printer, gen);
      HeadsAgree(fields[0], vars[0], e2, printer, gen);
      var first := ExtractIdentifiersFromField(fields[0], e1, printer, gen);
      var firstT := ExtractIdentifiersFromTuple([vars[0]], e2);
      FieldsMatchTail(fields, vars, printer);
      ExtractionsAgree(fields[1..], vars[1..], first.env, firstT.env, printer, gen);
      TupleSplits(vars, e2);
      FieldsSplit(fields, e1, printer, gen);
    }
  }

  /** A variadic list of two or more: the head matches and the tail is again variadic. */
  lemma SpreadFieldsMatchTail(fields: seq<Syntax.Field>, vars: seq<Var>, printer: Syntax.Printer)
    requires SpreadFieldsMatch(fields, vars, printer) && |vars| > 1
    ensures vars[0].name != "" && fields[0].names == [vars[0].name]
    ensures Semantic.Corresponds(fields[0].typ, vars[0].typ, printer)
    ensures SpreadFieldsMatch(fields[1..], vars[1..], printer)
  {
    var n := |vars|;
    assert fields[..n - 1][0] == fields[0] && vars[..n - 1][0] == vars[0];
    FieldsMatchTail(fields[..n - 1], vars[..n - 1], printer);
    assert fields[1..][..n - 2] == fields[..n - 1][1..];
    assert vars[1..][..n - 2] == vars[..n - 1][1..];
    assert fields[1..][n - 2] == fields[n - 1] && vars[1..][n - 2] == vars[n - 1];
  }

  /** The last parameter of a variadic list: the field `name ...E` extracts to
      the spread of what the variable `name []T` extracts to. */
  lemma LastAgrees(field: Syntax.Field, v: Var, e1: Env, e2: Env, printer: Syntax.Printer, gen: Syntax.Generation)
    requires v.name != "" && field.names == [v.name] && field.typ.Ellipsis? && v.typ.Slice?
    requires Semantic.Corresponds(field.typ.elt, v.typ.elem, printer)
    requires e1.imports == e2.imports
    ensures var a := ExtractIdentifiersFromField(field, e1, printer, gen);
            var b := ExtractIdentifiersFromTuple([v], e2);
            a.result.Ok? && b.result.Ok? && |b.result.value| == 1
            && a.result.value == SpreadLast(b.result.value)
            && a.env == e1.(imports := b.env.imports) && b.env == e2.(imports := b.env.imports)
  {
    Semantic.ResolversAgree(field.typ.elt, v.typ.elem, e1.imports, printer, gen);
    var u := Semantic.UnwrapType(v.typ.elem, e1.imports);
    var b := ExtractIdentifiersFromTuple([v], e2);
    assert [v][1..] == [];
    assert b.result.value == [Identifiers.Identifier(v.name, Types.Array(u.result.value, ""))];
    var ids := seq(|field.names|, k requires 0 <= k < |field.names| =>
                     Identifiers.Identifier(field.names[k], Types.Ellipsis(u.result.value)));
    assert ids == SpreadLast(b.result.value);
  }

  /** Extracting a non-empty field list is extracting its head, then its tail. */
  lemma FieldsSplit(fields: seq<Syntax.Field>, env: Env, printer: Syntax.Printer, gen: Syntax.Generation)
    requires |fields| > 0
    ensures var first := ExtractIdentifiersFromField(fields[0], env, printer, gen);
            var rest := ExtractFields(fields[1..], first.env, printer, gen);
            first.result.Ok? && rest.result.Ok? ==>
              ExtractFields(fields, env, printer, gen) == Extracted(Ok(first.result.value + rest.result.value), rest.env)
  {
  }

  /** Making the last of a list a spread leaves a prefix alone. */
  lemma SpreadLastAppend(a: seq<Identifiers.Identifier>, b: seq<Identifiers.Identifier>)
    requires |b| > 0
    ensures SpreadLast(a + b) == a + SpreadLast(b)
  {
    assert (a + b)[..|a + b| - 1] == a + b[..|b| - 1];
  }

  /** A variadic list of one: the single parameter is the spread. */
  lemma SpreadExtractionAgreesOne(fields: seq<Syntax.Field>, vars: seq<Var>, e1: Env, e2: Env,
                                  printer: Syntax.Printer, gen: Syntax.Generation)
    requires SpreadFieldsMatch(fields, vars, printer) && e1.imports == e2.imports && |vars| == 1
    ensures var a := ExtractFields(fields, e1, printer, gen);
            var b := ExtractIdentifiersFromTuple(vars, e2);
            a.result.Ok? && b.result.Ok? && |b.result.value| > 0
            && a.result.value == SpreadLast(b.result.value) && a.env.imports == b.env.imports
            && a.env.symbols == e1.symbols && b.env.symbols == e2.symbols
  {
    LastAgrees(fields[0], vars[0], e1, e2, printer, gen);
    FieldsOne(fields, e1, printer, gen);
    assert vars == [vars[0]];
  }

  /** Extracting a one-field list is extracting its field. */
  lemma FieldsOne(fields: seq<Syntax.Field>, env: Env, printer: Syntax.Printer, gen: Syntax.Generation)
    requires |fields| == 1
    ensures var first := ExtractIdentifiersFromField(fields[0], env, printer, gen);
            first.result.Ok? ==> ExtractFields(fields, env, printer, gen) == first
  {
    var first := ExtractIdentifiersFromField(fields[0], env, printer, gen);
    FieldsSplit(fields, env, printer, gen);
    assert fields[1..] == [];
    if first.result.Ok? {
      assert first.result.value + [] == first.result.value;
    }
  }

  /** The same for a variadic list: the syntax path's list is the checked path's
      list with its last parameter made a spread. */
  lemma {:induction false} SpreadExtractionsAgree(fields: seq<Syntax.Field>, vars: seq<Var>, e1: Env, e2: Env,
                                                  printer: Syntax.Printer, gen: Syntax.Generation)
    requires SpreadFieldsMatch(fields, vars, printer) && e1.imports == e2.imports
    ensures var a := ExtractFields(fields, e1, printer, gen);
            var b := ExtractIdentifiersFromTuple(vars, e2);
            a.result.Ok? && b.result.Ok? && |b.result.value| > 0
            && a.result.value == SpreadLast(b.result.value) && a.env.imports == b.env.imports
            && a.env.symbols == e1.symbols && b.env.symbols == e2.symbols
    decreases |vars|
  {
    if |vars| == 1 {
      SpreadExtractionAgreesOne(fields, vars, e1, e2, printer, gen);
    } else {
      SpreadFieldsMatchTail(fields, vars, printer);
      HeadsAgree(fields[0], vars[0], e1, printer, gen);
      HeadsAgree(fields[0], vars[0], e2, printer, gen);
      var first := ExtractIdentifiersFromField(fields[0], e1, printer, gen);
      var firstT := ExtractIdentifiersFromTuple([vars[0]], e2);
      SpreadExtractionsAgree(fields[1..], vars[1..], first.env, firstT.env, printer, gen);
      TupleSplits(vars, e2);
      FieldsSplit(fields, e1, printer, gen);
      var rest := ExtractIdentifiersFromTuple(vars[1..], firstT.env);
      SpreadLastAppend(first.result.value, rest.result.value);
    }
  }

  /** A method field and the checked signature it declares: the same name, one
      name per parameter and result, variadic exactly when the last parameter is
      written with `...`, and results absent only when there are none. */
  predicate DeclaresSignature(field: Syntax.Field, f: Func, printer: Syntax.Printer)
  {
    && field.names == [f.name]
    && field.typ.FuncType?
    && (if f.variadic then SpreadFieldsMatch(field.typ.params, f.params, printer)
        else FieldsMatch(field.typ.params, f.params, printer))
    && (field.typ.results.None? ==> |f.results| == 0)
    && (field.typ.results.Some? ==> FieldsMatch(field.typ.results.value, f.results, printer))
  }

  /** The two ways of adding a method agree: from a method field and from the
      checked signature it declares, both succeed, append the same method and
      leave the same registry. */
  lemma AddMethodsAgree(iface: Interface, field: Syntax.Field, f: Func, env: Env,
                        printer: Syntax.Printer, gen: Syntax.Generation)
    requires DeclaresSignature(field, f, printer)
    ensures var bySyntax := AddMethodFromField(iface, field, env, printer, gen);
            var byType := AddMethodFromType(iface, f, env);
            bySyntax.error.None? && byType.error.None?
            && bySyntax.iface == byType.iface
            && bySyntax.env.imports == byType.env.imports
  {
    var env1 := env.(symbols := Gensym.Reset(env.symbols));
    var params := ExtractFields(field.typ.params, env1, printer, gen);
    var paramsT := ExtractIdentifiersFromTuple(f.params, env);
    if f.variadic {
      SpreadExtractionsAgree(field.typ.params, f.params, env1, env, printer, gen);
    } else {
      ExtractionsAgree(field.typ.params, f.params, env1, env, printer, gen);
    }
    var ps' := if f.variadic then SpreadLast(paramsT.result.value) else paramsT.result.value;
    assert params.result == Ok(ps');
    var results :=
      if field.typ.results.Some? then ExtractFields(field.typ.results.value, params.env, printer, gen)
      else Extracted(Ok([]), params.env);
    var resultsT := ExtractIdentifiersFromTuple(f.results, paramsT.env);
    if field.typ.results.Some? {
      ExtractionsAgree(field.typ.results.value, f.results, params.env, paramsT.env, printer, gen);
    }
    assert results.result == resultsT.result && results.env.imports == resultsT.env.imports;
  }
}

=== FILE: legacy.dfy ===
/** The older flat design (charlatan.go): a parameter or result is a flat
    `Value` record rather than a type tree, recognised only in the shapes
    `[...][chan ][*][pkg.]Name`, `interface{...}` and `struct{...}`; unnamed
    ones are named by position (`arg0`, `ret1`); and the import registry
    has no aliases. Its `Add`, `Contains` and `GetRequired` are the same code as
    import.go's and are modelled by the `Imports` members, with every alias "". */
module Legacy {
  import opened Wrappers
  import Text
  import Types
  import Imports
  import Identifiers
  import Methods
  import Syntax

  // ---------------------------------------------------------------------------
  // The registry
  // ---------------------------------------------------------------------------

  /** Every record has no alias, as in the flat design's registry. */
  predicate AliasFree(imps: Imports.ImportSet)
  {
    forall i :: 0 <= i < |imps| ==> imps[i].alias == ""
  }

  /** The position of the first record denoting the same import as `ri`. */
  function FirstIndex(imps: Imports.ImportSet, ri: Imports.Import): (i: nat)
    requires Imports.Contains(imps, ri)
    ensures i < |imps| && Imports.SameImport(imps[i], ri)
    ensures forall j :: 0 <= j < i ==> !Imports.SameImport(imps[j], ri)
  {
    if Imports.SameImport(imps[0], ri) then 0 else 1 + FirstIndex(imps[1..], ri)
  }

  /** `Remove`: drops the first record with `ri`'s name and path, or reports that
      there is none. */
  function Remove(imps: Imports.ImportSet, ri: Imports.Import): (r: Result<Imports.ImportSet>)
    ensures r.Err? <==> !Imports.Contains(imps, ri)
    ensures r.Err? ==> r.error == NotPresent
    ensures r.Ok? ==> var i := FirstIndex(imps, ri); r.value == imps[..i] + imps[i + 1..]
    decreases |imps|
  {
    if |imps| == 0 then Err(NotPresent)
    else if Imports.SameImport(imps[0], ri) then Ok(imps[1..])
    else
      match Remove(imps[1..], ri)
      case Ok(rest) => Ok([imps[0]] + rest)
      case Err(e) => Err(e)
  }

  /** Removing an import just added to a set that lacked it gives the set back. */
  lemma RemoveUndoesAdd(imps: Imports.ImportSet, ri: Imports.Import)
    requires !Imports.Contains(imps, ri)
    ensures Remove(Imports.Add(imps, ri), ri) == Ok(imps)
  {
    var added := Imports.Add(imps, ri);
    assert |added| == |imps| + 1 && added[..|imps|] == imps;
    var i := FirstIndex(added, ri);
    assert added[|imps| + 1..] == [];
    assert added[..i] + added[i + 1..] == imps;
  }

  /** In a set without duplicates, the removed import is no longer there. */
  lemma RemoveRemoves(imps: Imports.ImportSet, ri: Imports.Import)
    requires Imports.Distinct(imps) && Imports.Contains(imps, ri)
    ensures Remove(imps, ri).Ok?
    ensures !Imports.Contains(Remove(imps, ri).value, ri)
    ensures |Remove(imps, ri).value| == |imps| - 1
  {
    var i := FirstIndex(imps, ri);
    var r := Remove(imps, ri).value;
    forall j | 0 <= j < |r|
      ensures !Imports.SameImport(r[j], ri)
    {
      if j < i {
        assert r[j] == imps[j];
      } else {
        assert r[j] == imps[j + 1];
        assert !Imports.SameImport(imps[i], imps[j + 1]);
      }
    }
  }

  /** `RequireByName`: sets the flag of every record with the name `s`. */
  function RequireByName(imps: Imports.ImportSet, s: string): (r: Imports.ImportSet)
    ensures |r| == |imps|
    ensures forall i :: 0 <= i < |imps| ==> r[i] == imps[i].(required := r[i].required)
    ensures forall i :: 0 <= i < |imps| ==> (r[i].required <==> imps[i].required || imps[i].name == s)
  {
    seq(|imps|, i requires 0 <= i < |imps| =>
          if imps[i].name == s then imps[i].(required := true) else imps[i])
  }

  /** On an alias-free registry, requiring a non-empty name by name only is
      what the current design's name-or-alias requirement does. */
  lemma RequireByNameAgrees(imps: Imports.ImportSet, s: string)
    requires AliasFree(imps) && s != ""
    ensures RequireByName(imps, s) == Imports.RequireByName(imps, s)
  {
  }

  /** But an alias answers only in the current design. */
  lemma RequireByAliasDiverges(name: string, alias: string, path: string)
    requires alias != name
    ensures var imps := [Imports.Import(name, alias, path, false)];
            !RequireByName(imps, alias)[0].required && Imports.RequireByName(imps, alias)[0].required
  {
  }

  /** A series of `RequireByName` calls, in order. */
  function RequireAll(imps: Imports.ImportSet, names: seq<string>): Imports.ImportSet
    decreases |names|
  {
    if |names| == 0 then imps else RequireAll(RequireByName(imps, names[0]), names[1..])
  }

  /** Requiring names one after the other splits at any point. */
  lemma {:induction false} RequireAllConcat(imps: Imports.ImportSet, a: seq<string>, b: seq<string>)
    ensures RequireAll(imps, a + b) == RequireAll(RequireAll(imps, a), b)
    decreases |a|
  {
    if |a| > 0 {
      assert (a + b)[1..] == a[1..] + b;
      RequireAllConcat(RequireByName(imps, a[0]), a[1..], b);
    } else {
      assert a + b == b;
    }
  }

  // ---------------------------------------------------------------------------
  // Values and their renderings
  // ---------------------------------------------------------------------------

  /** A parameter or result: its name, its type's name and package qualifier,
      whether it is a pointer, whether it is variadic, and its channel
      direction as the number go/ast uses (1 send-only, 2 receive-only, 3 both;
      0 when it is no channel). */
  datatype Value = Value(name: string, typeName: string, qualifier: string,
                         pointer: bool, elliptical: bool, chanDir: int)

  /** The channel keyword a direction number stands for. */
  function ChanPrefix(dir: int): (r: string)
    ensures r == "" <==> dir !in {1, 2, 3}
  {
    if dir == 1 then "chan<- " else if dir == 2 then "<-chan " else if dir == 3 then "chan " else ""
  }

  /** The qualifier and type name, `pkg.Name` or `Name`. */
  function QualifiedType(v: Value): string
  {
    (if |v.qualifier| > 0 then v.qualifier + "." else "") + v.typeName
  }

  /** `functionDeclarationFormat` AS WRITTEN: `name ` followed by the channel
      keyword, then `...`, then `*`, then the qualified type. */
  function FunctionDeclarationFormatAsWritten(v: Value): string
  {
    v.name + " " + ChanPrefix(v.chanDir) + (if v.elliptical then "..." else "")
      + (if v.pointer then "*" else "") + QualifiedType(v)
  }

  /** `functionDeclarationFormat` with the variadic marker first, as Go's syntax
      requires: `name ...chan *pkg.Name`. */
  function FunctionDeclarationFormat(v: Value): string
  {
    v.name + " " + (if v.elliptical then "..." else "") + ChanPrefix(v.chanDir)
      + (if v.pointer then "*" else "") + QualifiedType(v)
  }

  /** `argumentFormat`: the name, spread with `...` when variadic. */
  function ArgumentFormat(v: Value): (r: string)
    ensures v.elliptical ==> r == v.name + "..."
    ensures !v.elliptical ==> r == v.name
  {
    v.name + (if v.elliptical then "..." else "")
  }

  /** `CapitalName`: the name with its first letter capitalised. */
  function CapitalName(v: Value): (r: string)
    ensures |r| == |v.name|
    ensures |v.name| > 0 ==> !Text.IsLower(r[0])
  {
    Text.TitleCase(v.name)
  }

  /** `StructDef` AS WRITTEN: the capitalised name, the channel keyword, then
      `[]` for a variadic, then `*`, then the qualified type. */
  function StructDefAsWritten(v: Value): string
  {
    CapitalName(v) + " " + ChanPrefix(v.chanDir) + (if v.elliptical then "[]" else "")
      + (if v.pointer then "*" else "") + QualifiedType(v)
  }

  /** `StructDef` with the slice of a variadic outermost: `Name []chan *pkg.Name`. */
  function StructDef(v: Value): string
  {
    CapitalName(v) + " " + (if v.elliptical then "[]" else "") + ChanPrefix(v.chanDir)
      + (if v.pointer then "*" else "") + QualifiedType(v)
  }

  /** The qualified name under the value's pointer, if any. */
  function PointedType(v: Value): (t: Types.Type)
    ensures Types.Resolved(t) && !Types.Spreads(t)
    ensures Types.ParameterFormat(t) == (if v.pointer then "*" else "") + QualifiedType(v)
    ensures Types.FieldFormat(t) == Types.ParameterFormat(t)
  {
    var base := Types.BasicType(v.typeName, v.qualifier);
    assert Types.StripPointers(Types.Pointer(base)) == base;
    if v.pointer then Types.Pointer(base) else base
  }

  /** The pointed type under the value's channel, if any. */
  function ChannelType(v: Value): (t: Types.Type)
    ensures Types.Resolved(t) && !Types.Spreads(t)
    ensures Types.ParameterFormat(t) == ChanPrefix(v.chanDir) + Types.ParameterFormat(PointedType(v))
    ensures Types.FieldFormat(t) == ChanPrefix(v.chanDir) + Types.FieldFormat(PointedType(v))
  {
    var pointed := PointedType(v);
    if v.chanDir == 1 then Types.SendChannel(pointed)
    else if v.chanDir == 2 then Types.ReceiveChannel(pointed)
    else if v.chanDir == 3 then Types.Channel(pointed)
    else pointed
  }

  /** The type tree a value stands for: the variadic outermost, then the
      channel, then the pointer, then the qualified name. */
  function ValueType(v: Value): (t: Types.Type)
    ensures Types.Resolved(t)
    ensures Types.Spreads(t) <==> v.elliptical
    ensures Types.ParameterFormat(t) == (if v.elliptical then "..." else "") + Types.ParameterFormat(ChannelType(v))
    ensures Types.FieldFormat(t) == (if v.elliptical then "[]" else "") + Types.FieldFormat(ChannelType(v))
  {
    if v.elliptical then Types.Ellipsis(ChannelType(v)) else ChannelType(v)
  }

  /** The identifier the current design would hold for the value. */
  function ValueIdentifier(v: Value): (i: Identifiers.Identifier)
    ensures Identifiers.Resolved(i) && i.name == v.name
  {
    Identifiers.Identifier(v.name, ValueType(v))
  }

  /** Regrouping a five-part concatenation. */
  lemma Concat5(a: string, b: string, c: string, d: string, e: string)
    ensures a + b + c + d + e == a + (b + (c + (d + e)))
  {
  }

  /** The declaration with the variadic marker outermost is the current
      design's parameter rendering of the same type. */
  lemma DeclarationAgreesWithTypeTree(v: Value)
    ensures FunctionDeclarationFormat(v) == Identifiers.ParameterFormat(ValueIdentifier(v))
  {
    var e := if v.elliptical then "..." else "";
    var c := ChanPrefix(v.chanDir);
    var p := (if v.pointer then "*" else "") + QualifiedType(v);
    var t := ValueType(v);
    assert Types.ParameterFormat(PointedType(v)) == p;
    assert Types.ParameterFormat(ChannelType(v)) == c + p;
    assert Types.ParameterFormat(t) == e + (c + p);
    assert Identifiers.ParameterFormat(ValueIdentifier(v)) == v.name + " " + (e + (c + p));
    var ptr := if v.pointer then "*" else "";
    assert FunctionDeclarationFormat(v) == v.name + " " + e + c + ptr + QualifiedType(v);
    Concat5(v.name + " ", e, c, ptr, QualifiedType(v));
  }

  /** The call argument is the current design's reference rendering. */
  lemma ArgumentAgreesWithTypeTree(v: Value)
    ensures ArgumentFormat(v) == Identifiers.ReferenceFormat(ValueIdentifier(v))
  {
  }

  /** The struct field with the slice outermost is the current design's field
      rendering of the same type. */
  lemma StructDefAgreesWithTypeTree(v: Value)
    ensures StructDef(v) == Identifiers.FieldFormat(ValueIdentifier(v))
  {
    var sl := if v.elliptical then "[]" else "";
    var c := ChanPrefix(v.chanDir);
    var ptr := if v.pointer then "*" else "";
    var p := ptr + QualifiedType(v);
    assert Types.FieldFormat(PointedType(v)) == p;
    assert Types.FieldFormat(ChannelType(v)) == c + p;
    assert Types.FieldFormat(ValueType(v)) == sl + (c + p);
    assert Identifiers.FieldFormat(ValueIdentifier(v)) == CapitalName(v) + " " + (sl + (c + p));
    assert StructDef(v) == CapitalName(v) + " " + sl + c + ptr + QualifiedType(v);
    Concat5(CapitalName(v) + " ", sl, c, ptr, QualifiedType(v));
  }

  /** Swapping two non-empty pieces that start differently changes the text;
      swapping with an empty piece does not. */
  lemma SwapPieces(head: string, a: string, b: string, tail: string)
    ensures (a == "" || b == "") ==> head + a + b + tail == head + b + a + tail
    ensures |a| > 0 && |b| > 0 && a[0] != b[0] ==> head + a + b + tail != head + b + a + tail
  {
    if |a| > 0 && |b| > 0 && a[0] != b[0] {
      assert (head + a + b + tail)[|head|] == a[0];
      assert (head + b + a + tail)[|head|] == b[0];
    } else if a == "" {
      assert head + a == head;
    } else if b == "" {
      assert head + b == head;
    }
  }

  /** Every channel keyword starts with 'c' or '<'. */
  lemma ChanPrefixStart(dir: int)
    requires dir in {1, 2, 3}
    ensures |ChanPrefix(dir)| > 0 && ChanPrefix(dir)[0] in {'c', '<'}
  {
  }

  /** The as-written declaration is right exactly when the value is not both
      variadic and a channel; for a variadic channel it puts the channel keyword
      before the variadic marker. */
  lemma DeclarationAsWrittenCorrectIff(v: Value)
    ensures FunctionDeclarationFormatAsWritten(v) == FunctionDeclarationFormat(v)
            <==> !(v.elliptical && v.chanDir in {1, 2, 3})
  {
    var head := v.name + " ";
    var tail := (if v.pointer then "*" else "") + QualifiedType(v);
    var c := ChanPrefix(v.chanDir);
    var e := if v.elliptical then "..." else "";
    assert FunctionDeclarationFormatAsWritten(v) == head + c + e + tail;
    assert FunctionDeclarationFormat(v) == head + e + c + tail;
    if v.chanDir in {1, 2, 3} {
      ChanPrefixStart(v.chanDir);
    }
    SwapPieces(head, c, e, tail);
  }

  /** The same for the struct field: the as-written one is right exactly when the
      value is not both variadic and a channel. */
  lemma StructDefAsWrittenCorrectIff(v: Value)
    ensures StructDefAsWritten(v) == StructDef(v)
            <==> !(v.elliptical && v.chanDir in {1, 2, 3})
  {
    var head := CapitalName(v) + " ";
    var tail := (if v.pointer then "*" else "") + QualifiedType(v);
    var c := ChanPrefix(v.chanDir);
    var sl := if v.elliptical then "[]" else "";
    assert StructDefAsWritten(v) == head + c + sl + tail;
    assert StructDef(v) == head + sl + c + tail;
    if v.chanDir in {1, 2, 3} {
      ChanPrefixStart(v.chanDir);
    }
    SwapPieces(head, c, sl, tail);
  }

  /** A variadic channel of `int` named `c`, as the source writes it. */
  lemma AsWrittenCounterexample()
    ensures var v := Value("c", "int", "", false, true, 3);
            FunctionDeclarationFormatAsWritten(v) == "c chan ...int"
            && StructDefAsWritten(v) == "C chan []int"
  {
    DeclarationAsWrittenExample();
    StructDefAsWrittenExample();
  }

  /** The declaration half of `AsWrittenCounterexample`. */
  lemma DeclarationAsWrittenExample()
    ensures FunctionDeclarationFormatAsWritten(Value("c", "int", "", false, true, 3)) == "c chan ...int"
  {
    var v := Value("c", "int", "", false, true, 3);
    assert QualifiedType(v) == "int" && ChanPrefix(3) == "chan ";
    assert FunctionDeclarationFormatAsWritten(v) == "c" + " " + "chan " + "..." + "" + "int";
  }

  /** The struct field half of `AsWrittenCounterexample`. */
  lemma StructDefAsWrittenExample()
    ensures StructDefAsWritten(Value("c", "int", "", false, true, 3)) == "C chan []int"
  {
    var v := Value("c", "int", "", false, true, 3);
    assert QualifiedType(v) == "int" && ChanPrefix(3) == "chan ";
    CapitalC();
    assert StructDefAsWritten(v) == "C" + " " + "chan " + "[]" + "" + "int";
  }

  /** The capitalised name of the value `c`. */
  lemma CapitalC()
    ensures CapitalName(Value("c", "int", "", false, true, 3)) == "C"
  {
    var v := Value("c", "int", "", false, true, 3);
    assert Text.TitleCase(v.name) == "C";
  }

  /** The same value with the variadic outermost. */
  lemma CorrectedCounterexample()
    ensures var v := Value("c", "int", "", false, true, 3);
            FunctionDeclarationFormat(v) == "c ...chan int"
            && StructDef(v) == "C []chan int"
  {
    var v := Value("c", "int", "", false, true, 3);
    assert QualifiedType(v) == "int" && ChanPrefix(3) == "chan ";
    CapitalC();
  }

  /** A variadic channel parameter `c ...chan int` is declared `c chan ...int`,
      which is not valid Go, and stored in the field `C chan []int`, which is
      valid Go but a channel of slices rather than a slice of channels; with the
      variadic outermost they are `c ...chan int` and `C []chan int`. */
  lemma VariadicChannelCounterexample()
    ensures var v := Value("c", "int", "", false, true, 3);
            FunctionDeclarationFormatAsWritten(v) == "c chan ...int"
            && StructDefAsWritten(v) == "C chan []int"
            && FunctionDeclarationFormat(v) == "c ...chan int"
            && StructDef(v) == "C []chan int"
  {
    AsWrittenCounterexample();
    CorrectedCounterexample();
  }

  // ---------------------------------------------------------------------------
  // extractValues and addMethod
  // ---------------------------------------------------------------------------

  /** The number go/ast gives a channel direction. */
  function DirNumber(dir: Syntax.ChanDir): (n: int)
    ensures n in {1, 2, 3}
    ensures ChanPrefix(n) == (if dir == Syntax.Send then "chan<- " else if dir == Syntax.Recv then "<-chan " else "chan ")
  {
    match dir
    case Send => 1
    case Recv => 2
    case SendRecv => 3
  }

  /** Values (or the panic) and the registry afterwards. */
  datatype Extracted = Extracted(result: Result<seq<Value>>, imports: Imports.ImportSet)

  /** The names a field's values get: its own, or for an unnamed field the
      prefix and the field's position in the list. */
  function ValueNames(f: Syntax.Field, i: nat, prefix: string): (names: seq<string>)
    ensures |f.names| > 0 ==> names == f.names
    ensures |f.names| == 0 ==> names == [prefix + Text.Decimal(i)]
  {
    if |f.names| == 0 then [prefix + Text.Decimal(i)] else f.names
  }

  /** One value per name, all of the same type description. */
  function ValuesNamed(names: seq<string>, template: Value): (r: seq<Value>)
    ensures |r| == |names|
    ensures forall k :: 0 <= k < |names| ==> r[k] == template.(name := names[k])
  {
    seq(|names|, k requires 0 <= k < |names| => template.(name := names[k]))
  }

  /** What `extractValues` learns from a field's type: whether it is variadic,
      its channel direction number (0 for none), whether it is a pointer, and
      the node that remains. */
  datatype Shape = Shape(elliptical: bool, chanDir: int, pointer: bool, base: Syntax.Expr)

  /** Peel an optional `...`, then an optional channel, then an optional `*`. */
  function Peel(e: Syntax.Expr): (s: Shape)
    ensures s.elliptical <==> e.Ellipsis?
    ensures s.chanDir in {0, 1, 2, 3}
    ensures s.chanDir != 0 <==> (if e.Ellipsis? then e.elt else e).ChanType?
    ensures s.base < e || s.base == e
  {
    var t1 := if e.Ellipsis? then e.elt else e;
    var chanDir := if t1.ChanType? then DirNumber(t1.dir) else 0;
    var t2 := if t1.ChanType? then t1.value else t1;
    var t3 := if t2.StarExpr? then t2.x else t2;
    Shape(e.Ellipsis?, chanDir, t2.StarExpr?, t3)
  }

  /** The unnamed value a shape describes: `interface{}` and `struct{}` for
      anonymous interface and struct types, the name (and package) of an
      identifier or package selector; none for anything else, where the source
      dereferences a nil identifier and panics. */
  function Describe(s: Shape): (r: Option<Value>)
    ensures r.Some? <==> s.base.InterfaceType? || s.base.StructType? || s.base.Ident?
                         || (s.base.SelectorExpr? && s.base.x.Ident?)
    ensures r.Some? ==> r.value.name == "" && r.value.elliptical == s.elliptical
                        && r.value.chanDir == s.chanDir && r.value.pointer == s.pointer
    ensures r.Some? ==> (r.value.qualifier != "" ==> s.base.SelectorExpr?)
  {
    var template := Value("", "", "", s.pointer, s.elliptical, s.chanDir);
    var b := s.base;
    if b.InterfaceType? then Some(template.(typeName := "interface{}"))
    else if b.StructType? then Some(template.(typeName := "struct{}"))
    else if b.SelectorExpr? then
      if b.x.Ident? then Some(template.(typeName := b.sel, qualifier := b.x.name)) else None
    else if b.Ident? then Some(template.(typeName := b.name))
    else None
  }

  /** The package a field's value is qualified by, if any: the selector's
      package under the peeled layers. */
  function ValuePackages(f: Syntax.Field): seq<string>
  {
    var b := Peel(f.typ).base;
    if b.SelectorExpr? && b.x.Ident? then [b.x.name] else []
  }

  /** `extractValues`: one value per name, all described by the field's type,
      with the selector's package required; a panic for a type it cannot describe. */
  function ExtractValues(f: Syntax.Field, i: nat, prefix: string, imps: Imports.ImportSet): (r: Extracted)
    ensures Imports.Grows(imps, r.imports)
    ensures r.result.Err? <==> Describe(Peel(f.typ)).None?
    ensures r.result.Err? ==> r.result.error == Panic && r.imports == imps
    ensures r.result.Ok? ==>
              && |r.result.value| == |ValueNames(f, i, prefix)|
              && (forall k :: 0 <= k < |r.result.value| ==>
                    r.result.value[k] == Describe(Peel(f.typ)).value.(name := ValueNames(f, i, prefix)[k]))
    ensures r.result.Ok? ==>
              r.imports == (if Peel(f.typ).base.SelectorExpr? then RequireByName(imps, Peel(f.typ).base.x.name) else imps)
    ensures r.result.Ok? ==> r.imports == RequireAll(imps, ValuePackages(f))
  {
    var s := Peel(f.typ);
    match Describe(s)
    case None => Extracted(Err(Panic), imps)
    case Some(template) =>
      Extracted(Ok(ValuesNamed(ValueNames(f, i, prefix), template)),
                if s.base.SelectorExpr? then RequireByName(imps, s.base.x.name) else imps)
  }

  /** The field shapes the flat design accepts and that name a type rather
      than an anonymous interface or struct: `[...][chan ][*]Name` or
      `[...][chan ][*]pkg.Name`. */
  predicate NamedShape(e: Syntax.Expr)
  {
    match e
    case Ellipsis(elt) => !elt.Ellipsis? && NamedShape(elt)
    case ChanType(_, v) => !v.Ellipsis? && !v.ChanType? && NamedShape(v)
    case StarExpr(x) => x.Ident? || (x.SelectorExpr? && x.x.Ident?)
    case Ident(_) => true
    case SelectorExpr(x, _) => x.Ident?
    case _ => false
  }

  /** The type tree of a value does not depend on its name. */
  lemma ValueTypeIgnoresName(v: Value, name: string)
    ensures ValueType(v.(name := name)) == ValueType(v)
  {
  }

  /** The pointer layer: `*B` or `B` for a named base `B`. */
  lemma PointerLayerAgrees(e: Syntax.Expr, v: Value, imps: Imports.ImportSet, printer: Syntax.Printer, gen: Syntax.Generation)
    requires var b := if e.StarExpr? then e.x else e;
             b.Ident? || (b.SelectorExpr? && b.x.Ident?)
    requires var b := if e.StarExpr? then e.x else e;
             v.pointer == e.StarExpr?
             && v.typeName == (if b.Ident? then b.name else b.sel)
             && v.qualifier == (if b.Ident? then "" else b.x.name)
    ensures var b := if e.StarExpr? then e.x else e;
            var u := Syntax.UnwrapExpr(e, imps, printer, gen);
            u.result == Ok(PointedType(v))
            && u.imports == (if b.SelectorExpr? then Imports.RequireByName(imps, b.x.name) else imps)
  {
  }

  /** The channel layer over the pointer layer. */
  lemma ChannelLayerAgrees(e: Syntax.Expr, v: Value, imps: Imports.ImportSet, printer: Syntax.Printer, gen: Syntax.Generation)
    requires !e.Ellipsis? && NamedShape(e)
    requires var s := Peel(e); Describe(s) == Some(v.(name := ""))
    ensures var b := Peel(e).base;
            var u := Syntax.UnwrapExpr(e, imps, printer, gen);
            u.result == Ok(ChannelType(v))
            && u.imports == (if b.SelectorExpr? then Imports.RequireByName(imps, b.x.name) else imps)
  {
    if e.ChanType? {
      assert v.chanDir == DirNumber(e.dir);
      PointerLayerAgrees(e.value, v, imps, printer, gen);
    } else {
      PointerLayerAgrees(e, v, imps, printer, gen);
    }
  }

  /** The packages of a named shape are those of its base. */
  lemma ShapePackages(e: Syntax.Expr)
    requires NamedShape(e)
    ensures Syntax.Packages(e) == Syntax.Packages(Peel(e).base)
  {
    var t1 := if e.Ellipsis? then e.elt else e;
    var t2 := if t1.ChanType? then t1.value else t1;
    assert Syntax.Packages(e) == Syntax.Packages(t1);
    assert Syntax.Packages(t1) == Syntax.Packages(t2);
  }

  /** All three layers: a named shape is described, and the resolver builds the
      described value's type tree from it, requiring the selector's package. */
  lemma ShapeAgrees(e: Syntax.Expr, imps: Imports.ImportSet, printer: Syntax.Printer, gen: Syntax.Generation)
    requires NamedShape(e)
    ensures Describe(Peel(e)).Some?
    ensures var b := Peel(e).base;
            var u := Syntax.UnwrapExpr(e, imps, printer, gen);
            u.result == Ok(ValueType(Describe(Peel(e)).value))
            && u.imports == (if b.SelectorExpr? then Imports.RequireByName(imps, b.x.name) else imps)
  {
    if e.Ellipsis? {
      var inner := e.elt;
      assert NamedShape(inner) && !inner.Ellipsis?;
      NamedShapeDescribed(inner);
      var v1 := Describe(Peel(inner)).value;
      assert Peel(e) == Peel(inner).(elliptical := true);
      assert Describe(Peel(e)) == Some(v1.(elliptical := true));
      ChannelLayerAgrees(inner, v1, imps, printer, gen);
      assert ChannelType(v1.(elliptical := true)) == ChannelType(v1);
    } else {
      NamedShapeDescribed(e);
      ChannelLayerAgrees(e, Describe(Peel(e)).value, imps, printer, gen);
    }
  }

  /** A named shape without a leading `...` is described. */
  lemma NamedShapeDescribed(e: Syntax.Expr)
    requires NamedShape(e) && !e.Ellipsis?
    ensures Describe(Peel(e)).Some?
  {
    var t2 := if e.ChanType? then e.value else e;
    assert NamedShape(t2) && !t2.ChanType?;
  }

  /** On the shapes it accepts, the flat design's values stand for exactly the
      type tree the current resolver builds from the same syntax, and (on a
      registry without aliases, when the package name is not empty) require the same imports. */
  lemma ExtractValuesAgreesWithResolver(f: Syntax.Field, i: nat, prefix: string, imps: Imports.ImportSet,
                                        printer: Syntax.Printer, gen: Syntax.Generation)
    requires NamedShape(f.typ)
    ensures var r := ExtractValues(f, i, prefix, imps);
            var u := Syntax.UnwrapExpr(f.typ, imps, printer, gen);
            r.result.Ok? && u.result.Ok?
            && (forall k :: 0 <= k < |r.result.value| ==> ValueType(r.result.value[k]) == u.result.value)
            && (AliasFree(imps) && "" !in Syntax.Packages(f.typ) ==> r.imports == u.imports)
  {
    ShapeAgrees(f.typ, imps, printer, gen);
    ShapePackages(f.typ);
    var s := Peel(f.typ);
    var v := Describe(s).value;
    var r := ExtractValues(f, i, prefix, imps);
    forall k | 0 <= k < |r.result.value|
      ensures ValueType(r.result.value[k]) == ValueType(v)
    {
      ValueTypeIgnoresName(v, r.result.value[k].name);
    }
    if AliasFree(imps) && s.base.SelectorExpr? && s.base.x.name != "" {
      RequireByNameAgrees(imps, s.base.x.name);
    }
  }

  /** Number of values a field list yields: one per name, or one for an unnamed field. */
  function ValueCount(fields: seq<Syntax.Field>): nat
  {
    if |fields| == 0 then 0 else |ValueNames(fields[0], 0, "")| + ValueCount(fields[1..])
  }

  /** Every field's type is one the flat design can describe. */
  predicate Describable(fields: seq<Syntax.Field>)
  {
    forall k :: 0 <= k < |fields| ==> Describe(Peel(fields[k].typ)).Some?
  }

  /** The values of field `k` of a list numbered from `start`: they follow
      those of the fields before it, and are the field's type description
      under each of its names, the name of an unnamed field being `prefix`
      followed by its position `start + k`. */
  predicate ValuesPlaced(fields: seq<Syntax.Field>, k: nat, start: nat, prefix: string, values: seq<Value>)
    requires k < |fields|
  {
    var offset := ValueCount(fields[..k]);
    var names := ValueNames(fields[k], start + k, prefix);
    var d := Describe(Peel(fields[k].typ));
    && d.Some?
    && offset + |names| <= |values|
    && forall j :: 0 <= j < |names| ==> values[offset + j] == d.value.(name := names[j])
  }

  /** The value list a field list yields, field by field. */
  predicate AllValuesPlaced(fields: seq<Syntax.Field>, start: nat, prefix: string, values: seq<Value>)
  {
    |values| == ValueCount(fields) && forall k :: 0 <= k < |fields| ==> ValuesPlaced(fields, k, start, prefix, values)
  }

  /** Field `k > 0` is placed in the joined list where field `k - 1` of the
      tail, numbered from the next position, is placed in the tail's list. */
  lemma ValuesPlacedShift(fields: seq<Syntax.Field>, k: nat, start: nat, prefix: string, first: seq<Value>, rest: seq<Value>)
    requires 0 < k < |fields| && |first| == |ValueNames(fields[0], 0, "")|
    requires ValuesPlaced(fields[1..], k - 1, start + 1, prefix, rest)
    ensures ValuesPlaced(fields, k, start, prefix, first + rest)
  {
    var tail := fields[1..];
    assert fields[..k][0] == fields[0] && fields[..k][1..] == tail[..k - 1];
    assert ValueCount(fields[..k]) == |first| + ValueCount(tail[..k - 1]);
    assert tail[k - 1] == fields[k];
  }

  /** The values of a head field followed by those of the tail are placed. */
  lemma ValuesPlacedCons(fields: seq<Syntax.Field>, start: nat, prefix: string, first: seq<Value>, rest: seq<Value>)
    requires |fields| > 0
    requires var d := Describe(Peel(fields[0].typ));
             d.Some? && first == ValuesNamed(ValueNames(fields[0], start, prefix), d.value)
    requires AllValuesPlaced(fields[1..], start + 1, prefix, rest)
    ensures AllValuesPlaced(fields, start, prefix, first + rest)
  {
    assert fields[..0] == [];
    assert |first| == |ValueNames(fields[0], 0, "")|;
    forall k | 0 <= k < |fields|
      ensures ValuesPlaced(fields, k, start, prefix, first + rest)
    {
      if k > 0 {
        ValuesPlacedShift(fields, k, start, prefix, first, rest);
      }
    }
  }

  /** A field that cannot be described, behind describable ones in the tail, is one in the list. */
  lemma UndescribableInTail(fields: seq<Syntax.Field>)
    requires |fields| > 0 && !Describable(fields[1..])
    ensures !Describable(fields)
  {
    var k :| 0 <= k < |fields[1..]| && Describe(Peel(fields[1..][k].typ)).None?;
    assert fields[k + 1] == fields[1..][k];
  }

  /** The packages a field list's values are qualified by, field after field. */
  function DescribedPackages(fields: seq<Syntax.Field>): seq<string>
  {
    if |fields| == 0 then [] else ValuePackages(fields[0]) + DescribedPackages(fields[1..])
  }

  /** The values of a field list, numbering unnamed fields by position from
      `start`: each field's values in field order, or the panic when some
      field cannot be described. */
  function ExtractAll(fields: seq<Syntax.Field>, start: nat, prefix: string, imps: Imports.ImportSet): (r: Extracted)
    ensures Imports.Grows(imps, r.imports)
    ensures r.result.Err? ==> r.result.error == Panic
    ensures r.result.Ok? ==> |r.result.value| >= |fields|
    ensures r.result.Ok? <==> Describable(fields)
    ensures r.result.Ok? ==> AllValuesPlaced(fields, start, prefix, r.result.value)
    ensures r.result.Ok? ==> r.imports == RequireAll(imps, DescribedPackages(fields))
    decreases |fields|
  {
    if |fields| == 0 then Extracted(Ok([]), imps)
    else
      var first := ExtractValues(fields[0], start, prefix, imps);
      if first.result.Err? then first
      else
        var rest := ExtractAll(fields[1..], start + 1, prefix, first.imports);
        if rest.result.Err? then
          UndescribableInTail(fields);
          rest
        else
          ValuesPlacedCons(fields, start, prefix, first.result.value, rest.result.value);
          RequireAllConcat(imps, ValuePackages(fields[0]), DescribedPackages(fields[1..]));
          assert forall k :: 0 <= k < |fields| - 1 ==> fields[1..][k] == fields[k + 1];
          Extracted(Ok(first.result.value + rest.result.value), rest.imports)
  }

  /** A method of the flat design. */
  datatype LegacyMethod = LegacyMethod(interfaceName: string, name: string, params: seq<Value>, results: seq<Value>)

  /** An interface selected for generation, with its methods. */
  datatype InterfaceDeclaration = InterfaceDeclaration(name: string, methods: seq<LegacyMethod>)

  /** The interface with its methods, or the panic, and the registry afterwards. */
  datatype AddedMethod = AddedMethod(result: Result<InterfaceDeclaration>, imports: Imports.ImportSet)

  /** The packages a method field's values are qualified by: its parameters',
      then its results'. */
  function SignaturePackages(t: Syntax.Expr): seq<string>
    requires t.FuncType?
  {
    DescribedPackages(t.params) + (if t.results.Some? then DescribedPackages(t.results.value) else [])
  }

  /** A field `addMethod` accepts: anything but a function type is skipped;
      a function type needs a name and describable parameters and results. */
  predicate Addable(m: Syntax.Field)
  {
    m.typ.FuncType? ==>
      |m.names| > 0 && Describable(m.typ.params) && (m.typ.results.Some? ==> Describable(m.typ.results.value))
  }

  /** The method `addMethod` appends for the function field `m` to the
      interface `iname`: named by the field's first name, its parameters
      placed with `arg` and its results with `ret`, none when the function has
      no result list. */
  predicate MethodFrom(m: Syntax.Field, iname: string, added: LegacyMethod)
  {
    && m.typ.FuncType? && |m.names| > 0
    && added.interfaceName == iname && added.name == m.names[0]
    && AllValuesPlaced(m.typ.params, 0, "arg", added.params)
    && (m.typ.results.None? ==> added.results == [])
    && (m.typ.results.Some? ==> AllValuesPlaced(m.typ.results.value, 0, "ret", added.results))
  }

  /** `addMethod`: nothing for a field that is not a function type; otherwise
      parameters named `arg<i>` and results `ret<i>` when unnamed, results only
      when the function has a result list, and the method appended. */
  function AddMethod(decl: InterfaceDeclaration, m: Syntax.Field, imps: Imports.ImportSet): (r: AddedMethod)
    ensures Imports.Grows(imps, r.imports)
    ensures !m.typ.FuncType? ==> r == AddedMethod(Ok(decl), imps)
    ensures m.typ.FuncType? && |m.names| == 0 ==> r.result == Err(Panic)
    ensures r.result.Err? ==> r.result.error == Panic
    ensures r.result.Ok? && m.typ.FuncType? ==>
              && AddsMethods(decl, [m], r.result.value)
              && |r.result.value.methods[|decl.methods|].params| >= |m.typ.params|
    ensures m.typ.FuncType? && |m.names| > 0 ==>
              (r.result.Ok? <==> Describable(m.typ.params) && (m.typ.results.Some? ==> Describable(m.typ.results.value)))
    ensures r.result.Ok? <==> Addable(m)
    ensures r.result.Ok? && m.typ.FuncType? ==> r.imports == RequireAll(imps, SignaturePackages(m.typ))
    ensures r.result.Ok? && m.typ.FuncType? ==>
              var added := r.result.value.methods[|decl.methods|];
              && AllValuesPlaced(m.typ.params, 0, "arg", added.params)
              && (m.typ.results.None? ==> added.results == [])
              && (m.typ.results.Some? ==> AllValuesPlaced(m.typ.results.value, 0, "ret", added.results))
  {
    if !m.typ.FuncType? then AddedMethod(Ok(decl), imps)
    else if |m.names| == 0 then AddedMethod(Err(Panic), imps)
    else
      var params := ExtractAll(m.typ.params, 0, "arg", imps);
      if params.result.Err? then AddedMethod(Err(Panic), params.imports)
      else
        var results :=
          if m.typ.results.Some? then ExtractAll(m.typ.results.value, 0, "ret", params.imports)
          else Extracted(Ok([]), params.imports);
        if results.result.Err? then AddedMethod(Err(Panic), results.imports)
        else
          var added := LegacyMethod(decl.name, m.names[0], params.result.value, results.result.value);
          RequireAllConcat(imps, DescribedPackages(m.typ.params),
                           if m.typ.results.Some? then DescribedPackages(m.typ.results.value) else []);
          AddedMethod(Ok(decl.(methods := decl.methods + [added])), results.imports)
  }

  /** An unnamed parameter is named by its position in the list, so the second
      unnamed `string` parameter is `arg1` whatever came before. */
  lemma PositionalNames(decl: InterfaceDeclaration, imps: Imports.ImportSet)
    ensures var str := Syntax.Field([], Syntax.Ident("string"));
            var m := Syntax.Field(["Get"], Syntax.FuncType([str, str], Some([Syntax.Field([], Syntax.Ident("error"))])));
            var r := AddMethod(decl, m, imps);
            r.result.Ok?
            && r.result.value.methods[|decl.methods|]
               == LegacyMethod(decl.name, "Get",
                               [Value("arg0", "string", "", false, false, 0), Value("arg1", "string", "", false, false, 0)],
                               [Value("ret0", "error", "", false, false, 0)])
  {
    assert Text.Decimal(0) == "0" && Text.Decimal(1) == "1";
    assert "arg" + Text.Decimal(0) == "arg0" && "arg" + Text.Decimal(1) == "arg1";
    assert "ret" + Text.Decimal(0) == "ret0";
    var str := Syntax.Field([], Syntax.Ident("string"));
    var ret := Syntax.Field([], Syntax.Ident("error"));
    var a0 := Value("arg0", "string", "", false, false, 0);
    var a1 := Value("arg1", "string", "", false, false, 0);
    TwoUnnamedValues(str, str, "arg", imps);
    UnnamedIdentValue(ret, 0, "ret", imps);
    var m := Syntax.Field(["Get"], Syntax.FuncType([str, str], Some([ret])));
    AddMethodOf(decl, m, imps, [a0, a1], imps, [Value("ret0", "error", "", false, false, 0)], imps);
  }

  /** Two unnamed fields of plain type names are the values at positions 0 and 1. */
  lemma TwoUnnamedValues(f0: Syntax.Field, f1: Syntax.Field, prefix: string, imps: Imports.ImportSet)
    requires f0.names == [] && f0.typ.Ident? && f1.names == [] && f1.typ.Ident?
    ensures ExtractAll([f0, f1], 0, prefix, imps)
            == Extracted(Ok([Value(prefix + Text.Decimal(0), f0.typ.name, "", false, false, 0),
                             Value(prefix + Text.Decimal(1), f1.typ.name, "", false, false, 0)]), imps)
  {
    var v0 := Value(prefix + Text.Decimal(0), f0.typ.name, "", false, false, 0);
    var v1 := Value(prefix + Text.Decimal(1), f1.typ.name, "", false, false, 0);
    UnnamedIdentValue(f0, 0, prefix, imps);
    UnnamedIdentValue(f1, 1, prefix, imps);
    assert [f0, f1][1..] == [f1] && [f0, f1][0] == f0;
    assert ExtractAll([f0, f1], 0, prefix, imps) == Extracted(Ok([v0] + [v1]), imps);
    assert [v0] + [v1] == [v0, v1];
  }

  /** A method whose parameters and results both extract is appended with exactly
      those values. */
  lemma AddMethodOf(decl: InterfaceDeclaration, m: Syntax.Field, imps: Imports.ImportSet,
                    ps: seq<Value>, imps1: Imports.ImportSet, rs: seq<Value>, imps2: Imports.ImportSet)
    requires m.typ.FuncType? && |m.names| > 0 && m.typ.results.Some?
    requires ExtractAll(m.typ.params, 0, "arg", imps) == Extracted(Ok(ps), imps1)
    requires ExtractAll(m.typ.results.value, 0, "ret", imps1) == Extracted(Ok(rs), imps2)
    ensures AddMethod(decl, m, imps).result
            == Ok(decl.(methods := decl.methods + [LegacyMethod(decl.name, m.names[0], ps, rs)]))
  {
  }

  /** An unnamed field of a plain type name is one value, named by the prefix
      and its position, with the registry untouched. */
  lemma UnnamedIdentValue(f: Syntax.Field, i: nat, prefix: string, imps: Imports.ImportSet)
    requires f.names == [] && f.typ.Ident?
    ensures ExtractValues(f, i, prefix, imps) == Extracted(Ok([Value(prefix + Text.Decimal(i), f.typ.name, "", false, false, 0)]), imps)
    ensures ExtractAll([f], i, prefix, imps) == Extracted(Ok([Value(prefix + Text.Decimal(i), f.typ.name, "", false, false, 0)]), imps)
  {
    var v := Value(prefix + Text.Decimal(i), f.typ.name, "", false, false, 0);
    assert Describe(Peel(f.typ)) == Some(v.(name := ""));
    assert ValueNames(f, i, prefix) == [prefix + Text.Decimal(i)];
    var first := ExtractValues(f, i, prefix, imps);
    assert first.result.Ok? && |first.result.value| == 1 && first.result.value[0] == v;
    assert first.result.value == [v];
    assert first.imports == imps;
    assert [f][1..] == [];
    assert [v] + [] == [v];
  }

  /** A parameter type the flat design cannot describe, such as a slice, makes it panic. */
  lemma SliceParameterPanics(decl: InterfaceDeclaration, imps: Imports.ImportSet)
    ensures var m := Syntax.Field(["Put"], Syntax.FuncType([Syntax.Field(["xs"], Syntax.ArrayType(None, Syntax.Ident("int")))], None));
            AddMethod(decl, m, imps).result == Err(Panic)
  {
  }

  // ---------------------------------------------------------------------------
  // The method renderings
  // ---------------------------------------------------------------------------

  /** The values rendered one way each, in order. */
  function Renderings(values: seq<Value>, render: Value -> string): (r: seq<string>)
    ensures |r| == |values|
    ensures forall k :: 0 <= k < |values| ==> r[k] == render(values[k])
  {
    seq(|values|, k requires 0 <= k < |values| => render(values[k]))
  }

  /** The values rendered one way each, joined with ", " (`strings.Join`, so ""
      for none). */
  function JoinValues(values: seq<Value>, render: Value -> string): (r: string)
    ensures |values| == 0 ==> r == ""
    ensures |values| == 1 ==> r == render(values[0])
  {
    Text.Join(Renderings(values, render), ", ")
  }

  /** The identifiers the current design would hold for a list of values. */
  function ValueIdentifiers(values: seq<Value>): (ids: seq<Identifiers.Identifier>)
    ensures Methods.AllResolved(ids) && |ids| == |values|
    ensures forall k :: 0 <= k < |values| ==> ids[k] == ValueIdentifier(values[k])
  {
    seq(|values|, k requires 0 <= k < |values| => ValueIdentifier(values[k]))
  }

  /** The method the current design would hold for a flat-design method. */
  function CurrentMethod(m: LegacyMethod): (r: Methods.Method)
    ensures Methods.Renderable(r)
    ensures |r.parameters| == |m.params| && |r.results| == |m.results|
  {
    Methods.Method(m.interfaceName, m.name, ValueIdentifiers(m.params), ValueIdentifiers(m.results))
  }

  /** Joining per-value renderings that agree one by one with the current
      design's renderings gives the current design's joined rendering. */
  lemma JoinAgrees(values: seq<Value>, render: Value -> string, ids: seq<Identifiers.Identifier>, view: Methods.View)
    requires Methods.AllResolved(ids) && |ids| == |values|
    requires forall k :: 0 <= k < |values| ==> render(values[k]) == Methods.RenderOne(ids[k], view)
    ensures JoinValues(values, render) == Methods.Render(ids, view)
  {
    assert Renderings(values, render) == Methods.Rendered(ids, view);
  }

  /** Values joined one declaration each (with the variadic marker outermost)
      are the current design's declaration list of the same identifiers, and
      joined one argument each, its reference list. */
  lemma ValuesAgree(values: seq<Value>)
    ensures JoinValues(values, FunctionDeclarationFormat)
            == Methods.Render(ValueIdentifiers(values), Methods.Declaration)
    ensures JoinValues(values, ArgumentFormat)
            == Methods.Render(ValueIdentifiers(values), Methods.Reference)
  {
    var ids := ValueIdentifiers(values);
    forall k | 0 <= k < |values|
      ensures FunctionDeclarationFormat(values[k]) == Methods.RenderOne(ids[k], Methods.Declaration)
      ensures ArgumentFormat(values[k]) == Methods.RenderOne(ids[k], Methods.Reference)
    {
      DeclarationAgreesWithTypeTree(values[k]);
      ArgumentAgreesWithTypeTree(values[k]);
    }
    JoinAgrees(values, FunctionDeclarationFormat, ids, Methods.Declaration);
    JoinAgrees(values, ArgumentFormat, ids, Methods.Reference);
  }

  /** `FormatParamsDeclaration`: the current design's `ParametersDeclaration`
      of the same method. */
  function FormatParamsDeclaration(m: LegacyMethod): (r: string)
    ensures r == Methods.ParametersDeclaration(CurrentMethod(m))
  {
    ValuesAgree(m.params);
    JoinValues(m.params, FunctionDeclarationFormat)
  }

  /** `FormatParamsCall`: the current design's `ParametersReference`. */
  function FormatParamsCall(m: LegacyMethod): (r: string)
    ensures r == Methods.ParametersReference(CurrentMethod(m))
  {
    ValuesAgree(m.params);
    JoinValues(m.params, ArgumentFormat)
  }

  /** `FormatResultsDeclaration`: the current design's `ResultsDeclaration`. */
  function FormatResultsDeclaration(m: LegacyMethod): (r: string)
    ensures r == Methods.ResultsDeclaration(CurrentMethod(m))
  {
    ValuesAgree(m.results);
    JoinValues(m.results, FunctionDeclarationFormat)
  }

  /** `FormatResultsCall`: the current design's `ResultsReference`. */
  function FormatResultsCall(m: LegacyMethod): (r: string)
    ensures r == Methods.ResultsReference(CurrentMethod(m))
  {
    ValuesAgree(m.results);
    JoinValues(m.results, ArgumentFormat)
  }

  /** No value being a variadic channel. */
  predicate NoVariadicChannel(values: seq<Value>)
  {
    forall k :: 0 <= k < |values| ==> !(values[k].elliptical && values[k].chanDir in {1, 2, 3})
  }

  /** Values joined with the as-written declaration format give the corrected
      join exactly when no value is a variadic channel. */
  lemma JoinAsWrittenIff(values: seq<Value>)
    ensures JoinValues(values, FunctionDeclarationFormatAsWritten) == JoinValues(values, FunctionDeclarationFormat)
            <==> NoVariadicChannel(values)
  {
    var a := Renderings(values, FunctionDeclarationFormatAsWritten);
    var b := Renderings(values, FunctionDeclarationFormat);
    forall k | 0 <= k < |values|
      ensures |a[k]| == |b[k]|
      ensures a[k] == b[k] <==> !(values[k].elliptical && values[k].chanDir in {1, 2, 3})
    {
      DeclarationAsWrittenCorrectIff(values[k]);
    }
    Text.JoinSameLengths(a, b, ", ");
    if NoVariadicChannel(values) {
      assert a == b;
    } else {
      var k :| 0 <= k < |values| && values[k].elliptical && values[k].chanDir in {1, 2, 3};
      assert a[k] != b[k];
    }
  }

  /** `FormatParamsDeclaration` AS WRITTEN, each value in the as-written
      declaration format: it is the corrected join exactly when no parameter
      is a variadic channel. */
  function FormatParamsDeclarationAsWritten(m: LegacyMethod): (r: string)
    ensures r == FormatParamsDeclaration(m) <==> NoVariadicChannel(m.params)
  {
    JoinAsWrittenIff(m.params);
    JoinValues(m.params, FunctionDeclarationFormatAsWritten)
  }

  /** `FormatResultsDeclaration` AS WRITTEN: the corrected join exactly when no
      result is a variadic channel. */
  function FormatResultsDeclarationAsWritten(m: LegacyMethod): (r: string)
    ensures r == FormatResultsDeclaration(m) <==> NoVariadicChannel(m.results)
  {
    JoinAsWrittenIff(m.results);
    JoinValues(m.results, FunctionDeclarationFormatAsWritten)
  }

  // ---------------------------------------------------------------------------
  // genDecl: the declaration walker
  // ---------------------------------------------------------------------------

  /** The package name the flat design takes from an import path literal: its
      last `/`-separated segment with every quote removed. */
  function ImportName(pathLiteral: string): (r: string)
    ensures '"' !in r && '/' !in r
    ensures |r| <= |pathLiteral|
  {
    var segment := Text.LastSegment(pathLiteral, '/');
    RemoveAllKeepsOut(segment, '"', '/');
    Text.RemoveAll(segment, '"')
  }

  /** Removing one character introduces no other. */
  lemma {:induction false} RemoveAllKeepsOut(s: string, c: char, d: char)
    requires d !in s
    ensures d !in Text.RemoveAll(s, c)
    decreases |s|
  {
    if |s| > 0 {
      RemoveAllKeepsOut(s[1..], c, d);
    }
  }

  /** The last segment after a separator is everything after the last separator. */
  lemma {:induction false} LastSegmentAfter(p: string, q: string, sep: char)
    requires sep !in q
    ensures Text.LastSegment(p + [sep] + q, sep) == q
    decreases |q|
  {
    var s := p + [sep] + q;
    if |q| > 0 {
      var q' := q[..|q| - 1];
      assert s[..|s| - 1] == p + [sep] + q';
      LastSegmentAfter(p, q', sep);
      assert q == q' + [q[|q| - 1]];
    }
  }

  /** Removing a character distributes over concatenation. */
  lemma {:induction false} RemoveAllConcat(a: string, b: string, c: char)
    ensures Text.RemoveAll(a + b, c) == Text.RemoveAll(a, c) + Text.RemoveAll(b, c)
    decreases |a|
  {
    if |a| > 0 {
      assert (a + b)[1..] == a[1..] + b;
      RemoveAllConcat(a[1..], b, c);
    } else {
      assert a + b == b;
    }
  }

  /** A name between quotes comes out unquoted. */
  lemma Unquote(q: string)
    requires '"' !in q
    ensures Text.RemoveAll("\"" + q + "\"", '"') == q
  {
    RemoveAllConcat("\"" + q, "\"", '"');
    RemoveAllConcat("\"", q, '"');
  }

  /** Without a separator the last segment is the whole string. */
  lemma LastSegmentWhole(s: string, sep: char)
    requires sep !in s
    ensures Text.LastSegment(s, sep) == s
  {
  }

  /** A path under a host takes its last segment's name. */
  lemma ImportNameOfPath(dir: string, name: string)
    requires '"' !in name && '/' !in name
    ensures ImportName("\"" + dir + "/" + name + "\"") == name
  {
    var lit := "\"" + dir + "/" + name + "\"";
    assert lit == ("\"" + dir) + ['/'] + (name + "\"");
    LastSegmentAfter("\"" + dir, name + "\"", '/');
    RemoveAllConcat(name, "\"", '"');
    assert Text.RemoveAll("\"", '"') == "";
  }

  /** A path of one segment is its own name. */
  lemma ImportNameOfPackage(name: string)
    requires '"' !in name && '/' !in name
    ensures ImportName("\"" + name + "\"") == name
  {
    var lit := "\"" + name + "\"";
    LastSegmentWhole(lit, '/');
    Unquote(name);
  }

  /** The name the flat design gives a hosted import: `"github.com/percolate/charlatan"` is `charlatan`. */
  lemma HostedImportName()
    ensures ImportName("\"github.com/percolate/charlatan\"") == "charlatan"
  {
    var lit := "\"github.com/percolate/charlatan\"";
    assert lit == "\"" + "github.com/percolate" + "/" + "charlatan" + "\"";
    ImportNameOfPath("github.com/percolate", "charlatan");
  }

  /** The name the flat design gives a standard-library import: `"fmt"` is `fmt`. */
  lemma StandardImportName()
    ensures ImportName("\"fmt\"") == "fmt"
  {
    var lit := "\"fmt\"";
    assert lit == "\"" + "fmt" + "\"";
    ImportNameOfPackage("fmt");
  }

  /** The token of a general declaration. */
  datatype Token = ImportToken | TypeToken | OtherToken

  /** A specification inside a general declaration: an import (with its alias,
      if any, and its path literal, quotes included), a named type, or anything else. */
  datatype Spec = ImportSpec(alias: Option<string>, pathLiteral: string)
                | TypeSpec(name: string, typ: Syntax.Expr)
                | ValueSpec

  /** A node visited by the walk: a general declaration, or any other node. */
  datatype Node = GenDecl(tok: Token, specs: seq<Spec>) | OtherNode

  /** The state of one source file's walk: its imports, the interface names
      asked for, and the interfaces collected so far. */
  datatype File = File(imports: Imports.ImportSet, interfaceNames: seq<string>, interfaces: seq<InterfaceDeclaration>)

  /** The record an unaliased import spec adds. */
  function ImportOf(pathLiteral: string): (imp: Imports.Import)
    ensures imp.alias == "" && !imp.required && imp.path == pathLiteral
  {
    Imports.Import(ImportName(pathLiteral), "", pathLiteral, false)
  }

  /** Adding a record without an alias keeps the registry free of aliases. */
  lemma AddKeepsAliasFree(imps: Imports.ImportSet, imp: Imports.Import)
    requires AliasFree(imps) && imp.alias == ""
    ensures AliasFree(Imports.Add(imps, imp))
  {
    var r := Imports.Add(imps, imp);
    forall i | 0 <= i < |r|
      ensures r[i].alias == ""
    {
      if i < |imps| {
        assert r[i] == r[..|imps|][i] == imps[i];
      }
    }
  }

  /** Adding a record appends it exactly when no record with its name and path
      is present. */
  lemma AddAppends(imps: Imports.ImportSet, value: Imports.Import)
    ensures Imports.Add(imps, value) == (if Imports.Contains(imps, value) then imps else imps + [value])
  {
    var r := Imports.Add(imps, value);
    if !Imports.Contains(imps, value) {
      assert r == r[..|imps|] + [r[|imps|]];
    }
  }

  /** One import spec: an unaliased import is added, an aliased one skipped. */
  function AddImportSpec(imps: Imports.ImportSet, alias: Option<string>, pathLiteral: string): (r: Imports.ImportSet)
    ensures |imps| <= |r| && r[..|imps|] == imps
    ensures alias.None? ==> Imports.Contains(r, ImportOf(pathLiteral))
    ensures alias.None? ==>
              r == (if Imports.Contains(imps, ImportOf(pathLiteral)) then imps else imps + [ImportOf(pathLiteral)])
    ensures alias.Some? ==> r == imps
    ensures Imports.Distinct(imps) ==> Imports.Distinct(r)
    ensures AliasFree(imps) ==> AliasFree(r)
  {
    if alias.None? then
      AddAppends(imps, ImportOf(pathLiteral));
      if AliasFree(imps) then AddKeepsAliasFree(imps, ImportOf(pathLiteral)); Imports.Add(imps, ImportOf(pathLiteral))
      else Imports.Add(imps, ImportOf(pathLiteral))
    else imps
  }

  /** Every record of `r` past the first `|imps|` is the record of an unaliased
      import spec among `specs`. */
  predicate AddedFrom(imps: Imports.ImportSet, r: Imports.ImportSet, specs: seq<Spec>)
  {
    forall i :: |imps| <= i < |r| ==> FromSpecs(r[i], specs)
  }

  /** `x` is the record of an unaliased import spec among `specs`. */
  predicate FromSpecs(x: Imports.Import, specs: seq<Spec>)
  {
    exists k :: 0 <= k < |specs| && specs[k].ImportSpec? && specs[k].alias.None? &&
                x == ImportOf(specs[k].pathLiteral)
  }

  /** The records added by the first spec, followed by those added by the rest,
      all come from the whole clause. */
  lemma AddedFromStep(imps: Imports.ImportSet, next: Imports.ImportSet, r: Imports.ImportSet, specs: seq<Spec>)
    requires |specs| > 0 && specs[0].ImportSpec?
    requires next == AddImportSpec(imps, specs[0].alias, specs[0].pathLiteral)
    requires |next| <= |r| && r[..|next|] == next
    requires AddedFrom(next, r, specs[1..])
    ensures AddedFrom(imps, r, specs)
  {
    forall i | |imps| <= i < |r|
      ensures FromSpecs(r[i], specs)
    {
      if i < |next| {
        assert next == imps + [ImportOf(specs[0].pathLiteral)];
        assert r[i] == next[i] == ImportOf(specs[0].pathLiteral);
        assert specs[0].alias.None?;
      } else {
        assert FromSpecs(r[i], specs[1..]);
        var k :| 0 <= k < |specs[1..]| && specs[1..][k].ImportSpec? && specs[1..][k].alias.None? &&
                 r[i] == ImportOf(specs[1..][k].pathLiteral);
        assert specs[k + 1] == specs[1..][k];
      }
    }
  }

  /** The import clause: each unaliased import is added to the registry, aliased
      ones are skipped; a spec that is not an import fails the source's type assertion. */
  function AddImports(imps: Imports.ImportSet, specs: seq<Spec>): (r: Result<Imports.ImportSet>)
    ensures r.Err? ==> r.error == Panic
    ensures r.Ok? ==> |imps| <= |r.value| && r.value[..|imps|] == imps
    ensures r.Ok? ==> AddedFrom(imps, r.value, specs)
    ensures r.Ok? && Imports.Distinct(imps) ==> Imports.Distinct(r.value)
    decreases |specs|
  {
    if |specs| == 0 then Ok(imps)
    else if !specs[0].ImportSpec? then Err(Panic)
    else
      var next := AddImportSpec(imps, specs[0].alias, specs[0].pathLiteral);
      var rest := AddImports(next, specs[1..]);
      if rest.Err? then rest
      else
        assert rest.value[..|imps|] == rest.value[..|next|][..|imps|];
        AddedFromStep(imps, next, rest.value, specs);
        rest
  }

  /** A record in a registry is still there once the registry is extended. */
  lemma ContainsExtends(a: Imports.ImportSet, b: Imports.ImportSet, x: Imports.Import)
    requires |a| <= |b| && b[..|a|] == a && Imports.Contains(a, x)
    ensures Imports.Contains(b, x)
  {
    var i :| 0 <= i < |a| && Imports.SameImport(a[i], x);
    assert b[i] == a[i];
  }

  /** The import clause fails exactly when it holds a spec that is not an import;
      otherwise every unaliased import is in the registry afterwards, under the
      name taken from its path, and an alias-free registry stays alias-free. */
  lemma {:induction false} AddImportsSpec(imps: Imports.ImportSet, specs: seq<Spec>)
    ensures AddImports(imps, specs).Err? <==> exists k :: 0 <= k < |specs| && !specs[k].ImportSpec?
    ensures var r := AddImports(imps, specs);
            r.Ok? ==> forall k :: 0 <= k < |specs| && specs[k].alias.None? ==>
                        Imports.Contains(r.value, ImportOf(specs[k].pathLiteral))
    ensures var r := AddImports(imps, specs); r.Ok? ==> AddedFrom(imps, r.value, specs)
    ensures var r := AddImports(imps, specs); r.Ok? && AliasFree(imps) ==> AliasFree(r.value)
    decreases |specs|
  {
    if |specs| > 0 && specs[0].ImportSpec? {
      var next := AddImportSpec(imps, specs[0].alias, specs[0].pathLiteral);
      AddImportsSpec(next, specs[1..]);
      var r := AddImports(imps, specs);
      assert r == AddImports(next, specs[1..]);
      if exists k :: 0 <= k < |specs[1..]| && !specs[1..][k].ImportSpec? {
        var k :| 0 <= k < |specs[1..]| && !specs[1..][k].ImportSpec?;
        assert !specs[k + 1].ImportSpec?;
      }
      if exists k :: 0 <= k < |specs| && !specs[k].ImportSpec? {
        var k :| 0 <= k < |specs| && !specs[k].ImportSpec?;
        assert !specs[1..][k - 1].ImportSpec?;
      }
      if r.Ok? {
        forall k | 0 <= k < |specs| && specs[k].alias.None?
          ensures Imports.Contains(r.value, ImportOf(specs[k].pathLiteral))
        {
          if k == 0 {
            ContainsExtends(next, r.value, ImportOf(specs[0].pathLiteral));
          } else {
            assert specs[1..][k - 1] == specs[k];
          }
        }
      }
    }
  }

  /** The method fields of an interface, in order: the fields whose type is a
      function type (embedded interfaces are skipped). */
  function FuncFields(fields: seq<Syntax.Field>): (r: seq<Syntax.Field>)
    ensures |r| <= |fields|
    ensures forall k :: 0 <= k < |r| ==> r[k].typ.FuncType? && r[k] in fields
    ensures forall k :: 0 <= k < |fields| && fields[k].typ.FuncType? ==> fields[k] in r
    decreases |fields|
  {
    if |fields| == 0 then []
    else (if fields[0].typ.FuncType? then [fields[0]] else []) + FuncFields(fields[1..])
  }

  /** `after` is `decl` with one method appended per function field, in order,
      each the method `addMethod` makes of its field. */
  predicate AddsMethods(decl: InterfaceDeclaration, funcs: seq<Syntax.Field>, after: InterfaceDeclaration)
  {
    && after.name == decl.name
    && |after.methods| == |decl.methods| + |funcs|
    && after.methods[..|decl.methods|] == decl.methods
    && (forall j :: 0 <= j < |funcs| ==> MethodFrom(funcs[j], decl.name, after.methods[|decl.methods| + j]))
  }

  /** Appending for one field and then for the rest is appending for all. */
  lemma AddsMethodsCompose(decl: InterfaceDeclaration, f: Syntax.Field, mid: InterfaceDeclaration,
                           rest: seq<Syntax.Field>, after: InterfaceDeclaration)
    requires AddsMethods(decl, [f], mid) && AddsMethods(mid, rest, after)
    ensures AddsMethods(decl, [f] + rest, after)
  {
    var n := |decl.methods|;
    assert after.methods[..n] == after.methods[..n + 1][..n];
    forall j | 0 <= j < |[f] + rest|
      ensures MethodFrom(([f] + rest)[j], decl.name, after.methods[n + j])
    {
      if j == 0 {
        assert after.methods[n] == after.methods[..n + 1][n] == mid.methods[n];
      } else {
        assert ([f] + rest)[j] == rest[j - 1];
      }
    }
  }

  /** The packages the method fields of a list require, field after field. */
  function MethodsPackages(fields: seq<Syntax.Field>): seq<string>
  {
    if |fields| == 0 then []
    else (if fields[0].typ.FuncType? then SignaturePackages(fields[0].typ) else []) + MethodsPackages(fields[1..])
  }

  /** `addMethod` for each method field in order. */
  function AddMethods(decl: InterfaceDeclaration, fields: seq<Syntax.Field>, imps: Imports.ImportSet): (r: AddedMethod)
    ensures Imports.Grows(imps, r.imports)
    ensures r.result.Err? ==> r.result.error == Panic
    ensures r.result.Ok? ==> AddsMethods(decl, FuncFields(fields), r.result.value)
    ensures r.result.Ok? <==> forall k :: 0 <= k < |fields| ==> Addable(fields[k])
    ensures r.result.Ok? ==> r.imports == RequireAll(imps, MethodsPackages(fields))
    decreases |fields|
  {
    if |fields| == 0 then AddedMethod(Ok(decl), imps)
    else if !fields[0].typ.FuncType? then
      assert FuncFields(fields) == FuncFields(fields[1..]);
      assert MethodsPackages(fields) == MethodsPackages(fields[1..]);
      AddableSplit(fields);
      AddMethods(decl, fields[1..], imps)
    else
      var first := AddMethod(decl, fields[0], imps);
      AddableSplit(fields);
      if first.result.Err? then first
      else
        var rest := AddMethods(first.result.value, fields[1..], first.imports);
        Imports.GrowsTransitive(imps, first.imports, rest.imports);
        if rest.result.Err? then rest
        else
          assert FuncFields(fields) == [fields[0]] + FuncFields(fields[1..]);
          AddsMethodsCompose(decl, fields[0], first.result.value, FuncFields(fields[1..]), rest.result.value);
          RequireAllConcat(imps, SignaturePackages(fields[0].typ), MethodsPackages(fields[1..]));
          rest
  }

  /** Every field of a list is accepted exactly when the head and every field
      of the tail are. */
  lemma AddableSplit(fields: seq<Syntax.Field>)
    requires |fields| > 0
    ensures (forall k :: 0 <= k < |fields| ==> Addable(fields[k]))
        <==> Addable(fields[0]) && forall k :: 0 <= k < |fields[1..]| ==> Addable(fields[1..][k])
  {
    assert forall k :: 0 <= k < |fields[1..]| ==> fields[1..][k] == fields[k + 1];
  }

  /** A file whose walk has reached a general declaration of a type `name` that
      is an interface with at least one method field, is not named `_`, and is
      one of the interface names asked for. */
  predicate Selects(f: File, node: Node)
  {
    && node.GenDecl? && node.tok == TypeToken && |node.specs| > 0
    && node.specs[0].TypeSpec? && node.specs[0].typ.InterfaceType?
    && |node.specs[0].typ.methods| > 0
    && node.specs[0].name != "_"
    && node.specs[0].name in f.interfaceNames
  }

  /** Whether to keep walking into the node, or the panic, and the file afterwards. */
  datatype Walked = Walked(result: Result<bool>, file: File)

  /** `genDecl`: an import clause adds its unaliased imports; a type clause
      whose first spec is an interface asked for is collected with its methods
      and stops the walk below it; every other node is walked into unchanged.
      A type clause with no specs, or whose first spec is not a type, panics. */
  function GenDeclStep(f: File, node: Node): (r: Walked)
    ensures r.result.Err? ==> r.result.error == Panic
    ensures r.result.Err? <==>
              node.GenDecl? &&
              ((node.tok == TypeToken &&
                (|node.specs| == 0 || !node.specs[0].TypeSpec? ||
                 (Selects(f, node) &&
                  !forall k :: 0 <= k < |node.specs[0].typ.methods| ==> Addable(node.specs[0].typ.methods[k])))) ||
               (node.tok == ImportToken && exists k :: 0 <= k < |node.specs| && !node.specs[k].ImportSpec?))
    ensures node.GenDecl? && node.tok == TypeToken && (|node.specs| == 0 || !node.specs[0].TypeSpec?) ==>
              r.result == Err(Panic)
    ensures !Selects(f, node) && !(r.result.Ok? && node.GenDecl? && node.tok == ImportToken) ==> r.file == f
    ensures r.result.Ok? ==> (!r.result.value <==> Selects(f, node))
    ensures r.result.Ok? ==> r.file.interfaceNames == f.interfaceNames
    ensures r.result.Ok? && !Selects(f, node) ==> r.file.interfaces == f.interfaces
    ensures r.result.Ok? && Selects(f, node) ==>
              && |r.file.interfaces| == |f.interfaces| + 1
              && r.file.interfaces[..|f.interfaces|] == f.interfaces
              && r.file.interfaces[|f.interfaces|].name == node.specs[0].name
              && AddsMethods(InterfaceDeclaration(node.specs[0].name, []), FuncFields(node.specs[0].typ.methods),
                             r.file.interfaces[|f.interfaces|])
              && r.file.imports == RequireAll(f.imports, MethodsPackages(node.specs[0].typ.methods))
    ensures Selects(f, node) ==>
              (r.result.Ok? <==> forall k :: 0 <= k < |node.specs[0].typ.methods| ==> Addable(node.specs[0].typ.methods[k]))
    ensures r.result.Ok? && !(node.GenDecl? && node.tok == ImportToken) ==> Imports.Grows(f.imports, r.file.imports)
    ensures r.result.Ok? && node.GenDecl? && node.tok == ImportToken ==>
              AddImports(f.imports, node.specs) == Ok(r.file.imports)
  {
    if !node.GenDecl? || node.tok != TypeToken then
      if node.GenDecl? && node.tok == ImportToken then
        AddImportsSpec(f.imports, node.specs);
        match AddImports(f.imports, node.specs)
        case Ok(imps) => Walked(Ok(true), f.(imports := imps))
        case Err(e) => Walked(Err(e), f)
      else Walked(Ok(true), f)
    else if |node.specs| == 0 || !node.specs[0].TypeSpec? then Walked(Err(Panic), f)
    else if !Selects(f, node) then Walked(Ok(true), f)
    else
      var spec := node.specs[0];
      var added := AddMethods(InterfaceDeclaration(spec.name, []), spec.typ.methods, f.imports);
      if added.result.Err? then Walked(Err(Panic), f.(imports := added.imports))
      else Walked(Ok(false), f.(imports := added.imports, interfaces := f.interfaces + [added.result.value]))
  }
}

=== FILE: memo.dfy ===
/** The rendering cache every type, identifier and method of the source keeps:
    a string field that is empty until the first call computes and stores the
    rendering. Because the renderings are pure functions of fields that never
    change after construction, the model computes them directly; this module
    shows that the cache never makes a difference. */
module Memo {

  /** One cached call: `slot` is the stored text ("" when nothing is stored yet),
      `computed` what the rendering computes. Returns the answer and the new slot.
      The source only ever writes `computed` into the slot, so the slot holds either
      nothing or that value. */
  function Lookup(slot: string, computed: string): (r: (string, string))
    requires slot == "" || slot == computed
    ensures r.0 == computed
    ensures r.1 == computed
  {
    if slot != "" then (slot, slot) else (computed, computed)
  }

  /** Any number of repeated calls answer the same text as the first. */
  lemma {:induction false} RepeatedLookups(slot: string, computed: string, n: nat)
    requires slot == "" || slot == computed
    ensures Calls(slot, computed, n) == computed
    decreases n
  {
    if n > 1 {
      RepeatedLookups(Lookup(slot, computed).1, computed, n - 1);
    }
  }

  /** The answer of the `n`-th call (counting from 1) made on one instance. */
  function Calls(slot: string, computed: string, n: nat): string
    requires slot == "" || slot == computed
    decreases n
  {
    var (answer, after) := Lookup(slot, computed);
    if n <= 1 then answer else Calls(after, computed, n - 1)
  }
}

=== FILE: methods.dfy ===
/** A method of an interface and its joined renderings (method.go; the same code
    is in model.go:359-461). Each of the six renderings joins one rendering of
    every parameter (or result) with ", ", and is "" for an empty list. */
module Methods {
  import Text
  import Types
  import opened Identifiers

  datatype Method = Method(interfaceName: string, name: string,
                           parameters: seq<Identifier>, results: seq<Identifier>)

  /** Which identifier rendering a list is built from. */
  datatype View = Declaration | Reference | Signature

  predicate AllResolved(ids: seq<Identifier>)
  {
    forall k :: 0 <= k < |ids| ==> Identifiers.Resolved(ids[k])
  }

  /** Every identifier has a non-empty name, as both construction paths ensure. */
  predicate AllNamed(ids: seq<Identifier>)
  {
    forall k :: 0 <= k < |ids| ==> ids[k].name != ""
  }

  function RenderOne(i: Identifier, view: View): string
    requires Identifiers.Resolved(i)
  {
    match view
    case Declaration => Identifiers.ParameterFormat(i)
    case Reference => Identifiers.ReferenceFormat(i)
    case Signature => Identifiers.Signature(i)
  }

  /** The rendering of each identifier, in order. */
  function Rendered(ids: seq<Identifier>, view: View): (r: seq<string>)
    requires AllResolved(ids)
    ensures |r| == |ids|
    ensures forall k :: 0 <= k < |ids| ==> r[k] == RenderOne(ids[k], view)
  {
    seq(|ids|, k requires 0 <= k < |ids| && AllResolved(ids) => RenderOne(ids[k], view))
  }

  /** The joined rendering, with the source's early return for an empty list. */
  function Render(ids: seq<Identifier>, view: View): (r: string)
    requires AllResolved(ids)
    ensures |ids| == 1 ==> r == RenderOne(ids[0], view)
  {
    if |ids| == 0 then "" else Text.Join(Rendered(ids, view), ", ")
  }

  /** A list rendering is empty exactly when the list is: a declaration always
      holds a space, and a reference holds a non-empty name. */
  lemma RenderEmptyIff(ids: seq<Identifier>, view: View)
    requires AllResolved(ids)
    ensures view == Declaration || (view == Reference && AllNamed(ids)) ==>
      (Render(ids, view) == "" <==> |ids| == 0)
  {
    if |ids| > 0 && (view == Declaration || (view == Reference && AllNamed(ids))) {
      Text.JoinEmptyIff(Rendered(ids, view), ", ");
      assert RenderOne(ids[0], view) != "" by {
        if view == Reference {
          assert |Identifiers.ReferenceFormat(ids[0])| >= |ids[0].name|;
        }
      }
    }
  }

  /** Rendering a list split in two is rendering each part with one ", " between:
      declaration order is kept and no identifier is dropped or repeated. */
  lemma RenderConcat(a: seq<Identifier>, b: seq<Identifier>, view: View)
    requires AllResolved(a) && AllResolved(b) && |a| > 0 && |b| > 0
    ensures AllResolved(a + b)
    ensures Render(a + b, view) == Render(a, view) + ", " + Render(b, view)
  {
    assert Rendered(a + b, view) == Rendered(a, view) + Rendered(b, view);
    Text.JoinConcat(Rendered(a, view), Rendered(b, view), ", ");
  }

  /** Rendering with one more identifier at the end appends ", " and its rendering. */
  lemma RenderSnoc(a: seq<Identifier>, i: Identifier, view: View)
    requires AllResolved(a) && Identifiers.Resolved(i) && |a| > 0
    ensures AllResolved(a + [i])
    ensures Render(a + [i], view) == Render(a, view) + ", " + RenderOne(i, view)
  {
    RenderConcat(a, [i], view);
  }

  predicate Renderable(m: Method)
  {
    AllResolved(m.parameters) && AllResolved(m.results)
  }

  /** `ParametersDeclaration`: `a A, b B`, as in the method's own signature. */
  function ParametersDeclaration(m: Method): (r: string)
    requires Renderable(m)
    ensures r == "" <==> |m.parameters| == 0
    ensures |m.parameters| == 1 ==> r == Identifiers.ParameterFormat(m.parameters[0])
  {
    RenderEmptyIff(m.parameters, Declaration);
    Render(m.parameters, Declaration)
  }

  /** `ResultsDeclaration`: the named results, `x X, y Y`. */
  function ResultsDeclaration(m: Method): (r: string)
    requires Renderable(m)
    ensures r == "" <==> |m.results| == 0
    ensures |m.results| == 1 ==> r == Identifiers.ParameterFormat(m.results[0])
  {
    RenderEmptyIff(m.results, Declaration);
    Render(m.results, Declaration)
  }

  /** `ParametersReference`: the arguments forwarded to the hook, `a, b...`. */
  function ParametersReference(m: Method): (r: string)
    requires Renderable(m)
    ensures AllNamed(m.parameters) ==> (r == "" <==> |m.parameters| == 0)
    ensures |m.parameters| == 1 ==> r == Identifiers.ReferenceFormat(m.parameters[0])
  {
    RenderEmptyIff(m.parameters, Reference);
    Render(m.parameters, Reference)
  }

  /** `ResultsReference`: the result names, `x, y`. */
  function ResultsReference(m: Method): (r: string)
    requires Renderable(m)
    ensures AllNamed(m.results) ==> (r == "" <==> |m.results| == 0)
    ensures |m.results| == 1 ==> r == Identifiers.ReferenceFormat(m.results[0])
  {
    RenderEmptyIff(m.results, Reference);
    Render(m.results, Reference)
  }

  /** `ParametersSignature`: the parameter types alone, `A, B`. */
  function ParametersSignature(m: Method): (r: string)
    requires Renderable(m)
    ensures |m.parameters| == 0 ==> r == ""
    ensures |m.parameters| == 1 ==> r == Identifiers.Signature(m.parameters[0])
  {
    Render(m.parameters, Signature)
  }

  /** `ResultsSignature`: the result types alone, `X, Y`. */
  function ResultsSignature(m: Method): (r: string)
    requires Renderable(m)
    ensures |m.results| == 0 ==> r == ""
    ensures |m.results| == 1 ==> r == Identifiers.Signature(m.results[0])
  {
    Render(m.results, Signature)
  }

  /** A call forwards a variadic last parameter spread: with parameters `p ++ [v]`
      where `v` is variadic, the reference list ends in `name...`. */
  lemma VariadicCallSpreads(m: Method)
    requires Renderable(m) && |m.parameters| > 0
    requires Types.Spreads(m.parameters[|m.parameters| - 1].valueType)
    ensures var last := m.parameters[|m.parameters| - 1];
            var r := ParametersReference(m);
            |r| >= |last.name| + 3 && r[|r| - |last.name| - 3..] == last.name + "..."
  {
    var ps := m.parameters;
    var last := ps[|ps| - 1];
    if |ps| > 1 {
      var init := ps[..|ps| - 1];
      assert ps == init + [last];
      RenderSnoc(init, last, Reference);
    }
  }
}

=== FILE: monolith.dfy ===
/** model.go holds an earlier, single-file copy of the type model, import
    registry and interface builders. Its code is the split files' code except
    in one place: its `unwrapExpr` has no case for an index expression, which
    therefore falls to the unsupported-expression error instead of yielding a
    nil type. Both copies are modelled by the same members, with the
    `Syntax.Generation` flag choosing the branch; this module states how far
    they agree. */
module Monolith {
  import opened Wrappers
  import opened Imports
  import Types
  import Syntax
  import Interfaces
  import Gensym
  import Identifiers

  /** On every expression without an index expression in a walked position,
      the two copies of `unwrapExpr` give the same type or error and the same registry. */
  lemma {:induction false} GenerationsAgree(node: Syntax.Expr, imports: ImportSet, printer: Syntax.Printer)
    requires !Syntax.HasIndexExpr(node)
    ensures Syntax.UnwrapExpr(node, imports, printer, Syntax.SplitFiles)
         == Syntax.UnwrapExpr(node, imports, printer, Syntax.Monolithic)
    decreases node
  {
    match node
    case Ellipsis(elt) => GenerationsAgree(elt, imports, printer);
    case ArrayType(_, elt) => GenerationsAgree(elt, imports, printer);
    case ChanType(_, v) => GenerationsAgree(v, imports, printer);
    case StarExpr(x) => GenerationsAgree(x, imports, printer);
    case MapType(k, v) =>
      GenerationsAgree(k, imports, printer);
      GenerationsAgree(v, Syntax.UnwrapExpr(k, imports, printer, Syntax.SplitFiles).imports, printer);
    case InterfaceType(_) =>
    case StructType(_) =>
    case FuncType(_, _) =>
    case SelectorExpr(_, _) =>
    case Ident(_) =>
    case BasicLit(_) =>
    case OtherExpr(_) =>
  }

  /** The one divergence: an index expression (a generic instantiation such as
      `List[int]`) is a nil type without error in the split files and an
      unsupported expression in model.go; neither copy touches the registry. */
  lemma IndexExprDiverges(x: Syntax.Expr, index: Syntax.Expr, imports: ImportSet, printer: Syntax.Printer)
    ensures Syntax.UnwrapExpr(Syntax.IndexExpr(x, index), imports, printer, Syntax.SplitFiles)
         == Syntax.Resolution(Ok(Types.Missing), imports)
    ensures Syntax.UnwrapExpr(Syntax.IndexExpr(x, index), imports, printer, Syntax.Monolithic)
         == Syntax.Resolution(Err(UnsupportedExpr), imports)
  {
  }

  /** No field of the list has an index expression in its type. */
  predicate FieldsWithoutIndex(fields: seq<Syntax.Field>)
  {
    forall k :: 0 <= k < |fields| ==> !Syntax.HasIndexExpr(fields[k].typ)
  }

  /** Extracting such a field list gives the same identifiers and state in both copies. */
  lemma {:induction false} ExtractFieldsGenerationsAgree(fields: seq<Syntax.Field>, env: Interfaces.Env, printer: Syntax.Printer)
    requires FieldsWithoutIndex(fields)
    ensures Interfaces.ExtractFields(fields, env, printer, Syntax.SplitFiles)
         == Interfaces.ExtractFields(fields, env, printer, Syntax.Monolithic)
    decreases |fields|
  {
    if |fields| > 0 {
      GenerationsAgree(fields[0].typ, env.imports, printer);
      var first := Interfaces.ExtractIdentifiersFromField(fields[0], env, printer, Syntax.SplitFiles);
      assert forall k :: 0 <= k < |fields| - 1 ==> fields[1..][k] == fields[k + 1];
      ExtractFieldsGenerationsAgree(fields[1..], first.env, printer);
    }
  }

  /** Adding a method from a field whose parameters and results have no index
      expression gives the same outcome in both copies. */
  lemma AddMethodGenerationsAgree(iface: Interfaces.Interface, field: Syntax.Field, env: Interfaces.Env, printer: Syntax.Printer)
    requires field.typ.FuncType? && FieldsWithoutIndex(field.typ.params)
    requires field.typ.results.Some? ==> FieldsWithoutIndex(field.typ.results.value)
    ensures Interfaces.AddMethodFromField(iface, field, env, printer, Syntax.SplitFiles)
         == Interfaces.AddMethodFromField(iface, field, env, printer, Syntax.Monolithic)
  {
    var env1 := env.(symbols := Gensym.Reset(env.symbols));
    ExtractFieldsGenerationsAgree(field.typ.params, env1, printer);
    var params := Interfaces.ExtractFields(field.typ.params, env1, printer, Syntax.SplitFiles);
    if field.typ.results.Some? {
      ExtractFieldsGenerationsAgree(field.typ.results.value, params.env, printer);
    }
  }

  /** A method whose parameter is an index expression is added by the split
      files, with a nil parameter type that cannot be rendered, and refused by
      model.go with the unsupported-expression error. */
  lemma AddMethodIndexDiverges(iface: Interfaces.Interface, name: string, param: string,
                               x: Syntax.Expr, index: Syntax.Expr, env: Interfaces.Env, printer: Syntax.Printer)
    ensures var field := Syntax.Field([name], Syntax.FuncType([Syntax.Field([param], Syntax.IndexExpr(x, index))], None));
            var split := Interfaces.AddMethodFromField(iface, field, env, printer, Syntax.SplitFiles);
            var mono := Interfaces.AddMethodFromField(iface, field, env, printer, Syntax.Monolithic);
            split.error.None? && !Types.Resolved(split.iface.methods[|iface.methods|].parameters[0].valueType)
            && mono.error == Some(UnsupportedExpr) && mono.iface == iface
  {
    var pf := Syntax.Field([param], Syntax.IndexExpr(x, index));
    var env1 := env.(symbols := Gensym.Reset(env.symbols));
    var first := Interfaces.ExtractIdentifiersFromField(pf, env1, printer, Syntax.SplitFiles);
    assert Syntax.UnwrapExpr(pf.typ, env1.imports, printer, Syntax.SplitFiles).result == Ok(Types.Missing);
    assert first.result.Ok? && |first.result.value| == 1;
    assert first.result.value[0] == Identifiers.Identifier(param, Types.Missing);
    Interfaces.FieldsOne([pf], env1, printer, Syntax.SplitFiles);
    var firstMono := Interfaces.ExtractIdentifiersFromField(pf, env1, printer, Syntax.Monolithic);
    assert firstMono.result == Err(UnsupportedExpr);
  }
}

=== FILE: semantic.dfy ===
/** The resolver from type-checked Go types to the type tree (type.go
    `unwrapType`; model.go:288-357 is the same code). The go/types kinds the
    resolver inspects become the constructors of `GoType`; the text go/types
    prints for an interface, struct or signature type is carried as data. */
module Semantic {
  import opened Wrappers
  import opened Imports
  import Text
  import Types
  import Syntax

  /** `types.ChanDir`. */
  datatype ChanDir = SendOnly | RecvOnly | SendRecv

  datatype GoType =
    | Array(elem: GoType, len: nat)              // [Len]Elem
    | Slice(elem: GoType)                        // []Elem
    | Map(key: GoType, elem: GoType)             // map[Key]Elem
    | Chan(dir: ChanDir, elem: GoType)           // chan Elem, in a direction
    | Pointer(elem: GoType)                      // *Elem
    | Interface(text: string)                    // interface{...}, as printed by String()
    | Struct(text: string)                       // struct{...}, as printed by String()
    | Signature(text: string)                    // func(...) ..., as printed by String()
    | Named(name: string, pkg: Option<string>)   // a declared type; no package for a universe type
    | Basic(name: string)                        // a predeclared basic type
    | Other(kind: string)                        // any other kind

  /** `unwrapType`. */
  function UnwrapType(t: GoType, imports: ImportSet): (r: Syntax.Resolution)
    ensures Grows(imports, r.imports)
    ensures r.result.Err? <==> HasOther(t)
    ensures r.result.Err? ==> r.result.error == UnsupportedType
    ensures r.result.Ok? ==> Types.Resolved(r.result.value) && Types.EllipsisCount(r.result.value) == 0
    decreases t
  {
    match t
    case Array(elem, len) =>
      var sub := UnwrapType(elem, imports);
      if sub.result.Err? then sub
      else
        var scale := if len != 0 then Text.Decimal(len) else "";
        Syntax.Resolution(Ok(Types.Array(sub.result.value, scale)), sub.imports)
    case Slice(elem) =>
      var sub := UnwrapType(elem, imports);
      if sub.result.Err? then sub
      else Syntax.Resolution(Ok(Types.Array(sub.result.value, "")), sub.imports)
    case Map(k, v) =>
      var key := UnwrapType(k, imports);
      if key.result.Err? then key
      else
        var value := UnwrapType(v, key.imports);
        if value.result.Err? then value
        else Syntax.Resolution(Ok(Types.Map(key.result.value, value.result.value)), value.imports)
    case Chan(dir, elem) =>
      var sub := UnwrapType(elem, imports);
      if sub.result.Err? then sub
      else Syntax.Resolution(Ok(Channel(dir, sub.result.value)), sub.imports)
    case Pointer(elem) =>
      var sub := UnwrapType(elem, imports);
      if sub.result.Err? then sub
      else Syntax.Resolution(Ok(Types.Pointer(sub.result.value)), sub.imports)
    case Interface(text) => Syntax.Resolution(Ok(Types.BasicType(text, "")), imports)
    case Struct(text) => Syntax.Resolution(Ok(Types.BasicType(text, "")), imports)
    case Signature(text) => Syntax.Resolution(Ok(Types.BasicType(text, "")), imports)
    case Named(name, pkg) =>
      if pkg.Some? then Syntax.Resolution(Ok(Types.BasicType(name, pkg.value)), RequireByName(imports, pkg.value))
      else Syntax.Resolution(Ok(Types.BasicType(name, "")), imports)
    case Basic(name) => Syntax.Resolution(Ok(Types.BasicType(name, "")), imports)
    case Other(_) => Syntax.Resolution(Err(UnsupportedType), imports)
  }

  /** The channel type for a go/types direction. */
  function Channel(dir: ChanDir, sub: Types.Type): (t: Types.Type)
    ensures (t.Channel? || t.ReceiveChannel? || t.SendChannel?) && t.sub == sub
    ensures dir == SendOnly <==> t.SendChannel?
    ensures dir == RecvOnly <==> t.ReceiveChannel?
    ensures dir == SendRecv <==> t.Channel?
  {
    match dir
    case SendOnly => Types.SendChannel(sub)
    case RecvOnly => Types.ReceiveChannel(sub)
    case SendRecv => Types.Channel(sub)
  }

  /** Some unsupported kind is reached by the walk. */
  predicate HasOther(t: GoType)
  {
    match t
    case Array(elem, _) => HasOther(elem)
    case Slice(elem) => HasOther(elem)
    case Map(k, v) => HasOther(k) || HasOther(v)
    case Chan(_, elem) => HasOther(elem)
    case Pointer(elem) => HasOther(elem)
    case Other(_) => true
    case _ => false
  }

  /** The packages of the named types the walk reaches, in walk order. */
  function Packages(t: GoType): seq<string>
  {
    match t
    case Array(elem, _) => Packages(elem)
    case Slice(elem) => Packages(elem)
    case Map(k, v) => Packages(k) + Packages(v)
    case Chan(_, elem) => Packages(elem)
    case Pointer(elem) => Packages(elem)
    case Named(_, pkg) => if pkg.Some? then [pkg.value] else []
    case _ => []
  }

  /** A successful resolution has required the named types' packages one after
      the other, in walk order. */
  lemma {:induction false} UnwrapTypeRequiresPackages(t: GoType, imports: ImportSet)
    ensures var r := UnwrapType(t, imports);
            r.result.Ok? ==> r.imports == RequireEach(imports, Packages(t))
    decreases t
  {
    match t
    case Array(elem, _) => UnwrapTypeRequiresPackages(elem, imports);
    case Slice(elem) => UnwrapTypeRequiresPackages(elem, imports);
    case Chan(_, elem) => UnwrapTypeRequiresPackages(elem, imports);
    case Pointer(elem) => UnwrapTypeRequiresPackages(elem, imports);
    case Map(k, v) =>
      var key := UnwrapType(k, imports);
      UnwrapTypeRequiresPackages(k, imports);
      UnwrapTypeRequiresPackages(v, key.imports);
      RequireEachConcat(imports, Packages(k), Packages(v));
    case Named(_, pkg) =>
      if pkg.Some? {
        assert RequireEach(RequireByName(imports, pkg.value), []) == RequireByName(imports, pkg.value);
      }
    case Interface(_) =>
    case Struct(_) =>
    case Signature(_) =>
    case Basic(_) =>
    case Other(_) =>
  }

  /** What a checked type resolves to, or the error, does not depend on the
      registry: the registry is only written to. */
  lemma {:induction false} UnwrapTypeIgnoresRegistry(t: GoType, a: ImportSet, b: ImportSet)
    ensures UnwrapType(t, a).result == UnwrapType(t, b).result
    decreases t
  {
    match t
    case Array(elem, _) => UnwrapTypeIgnoresRegistry(elem, a, b);
    case Slice(elem) => UnwrapTypeIgnoresRegistry(elem, a, b);
    case Chan(_, elem) => UnwrapTypeIgnoresRegistry(elem, a, b);
    case Pointer(elem) => UnwrapTypeIgnoresRegistry(elem, a, b);
    case Map(k, v) =>
      UnwrapTypeIgnoresRegistry(k, a, b);
      UnwrapTypeIgnoresRegistry(v, UnwrapType(k, a).imports, UnwrapType(k, b).imports);
    case Interface(_) =>
    case Struct(_) =>
    case Signature(_) =>
    case Named(_, _) =>
    case Basic(_) =>
    case Other(_) =>
  }

  /** The package qualifiers of a resolved type are exactly the non-empty
      packages of its named types. */
  lemma {:induction false} UnwrapTypeQualifiers(t: GoType, imports: ImportSet)
    ensures var r := UnwrapType(t, imports);
            r.result.Ok? ==> Types.Qualifiers(r.result.value) == (set p | p in Packages(t) && p != "")
    decreases t
  {
    match t
    case Array(elem, _) => UnwrapTypeQualifiers(elem, imports);
    case Slice(elem) => UnwrapTypeQualifiers(elem, imports);
    case Chan(_, elem) => UnwrapTypeQualifiers(elem, imports);
    case Pointer(elem) => UnwrapTypeQualifiers(elem, imports);
    case Map(k, v) =>
      var key := UnwrapType(k, imports);
      UnwrapTypeQualifiers(k, imports);
      UnwrapTypeQualifiers(v, key.imports);
    case Named(_, _) =>
    case Interface(_) =>
    case Struct(_) =>
    case Signature(_) =>
    case Basic(_) =>
    case Other(_) =>
  }

  // ---------------------------------------------------------------------------
  // Agreement with the syntax resolver
  // ---------------------------------------------------------------------------

  /** The syntax `e` denotes the checked type `t`: identifiers name basic or
      universe types, a selector `p.N` names type `N` of a package imported
      without an alias under its own name `p`, an array length is the decimal
      literal of a non-zero length, and an anonymous type is printed by
      `printer` as go/types prints it. */
  predicate Corresponds(e: Syntax.Expr, t: GoType, printer: Syntax.Printer)
  {
    match e
    case Ident(n) => t == Basic(n) || t == Named(n, None)
    case SelectorExpr(x, sel) => x.Ident? && t == Named(sel, Some(x.name))
    case ArrayType(len, elt) =>
      (len.None? && t.Slice? && Corresponds(elt, t.elem, printer))
      || (len.Some? && t.Array? && t.len != 0 && len.value == Syntax.BasicLit(Text.Decimal(t.len))
          && Corresponds(elt, t.elem, printer))
    case MapType(k, v) => t.Map? && Corresponds(k, t.key, printer) && Corresponds(v, t.elem, printer)
    case ChanType(dir, v) =>
      t.Chan? && Corresponds(v, t.elem, printer)
      && (dir == Syntax.Send <==> t.dir == SendOnly)
      && (dir == Syntax.Recv <==> t.dir == RecvOnly)
    case StarExpr(x) => t.Pointer? && Corresponds(x, t.elem, printer)
    case InterfaceType(_) => t.Interface? && printer(e) == Some(t.text)
    case StructType(_) => t.Struct? && printer(e) == Some(t.text)
    case FuncType(_, _) => t.Signature? && printer(e) == Some(t.text)
    case _ => false
  }

  /** Both resolvers, in either generation, give the same type and leave the
      registry in the same state for a syntax tree and the type it denotes. */
  lemma {:induction false} ResolversAgree(e: Syntax.Expr, t: GoType, imports: ImportSet, printer: Syntax.Printer, gen: Syntax.Generation)
    requires Corresponds(e, t, printer)
    ensures Syntax.UnwrapExpr(e, imports, printer, gen) == UnwrapType(t, imports)
    ensures UnwrapType(t, imports).result.Ok?
    decreases e
  {
    match e
    case Ellipsis(_) =>
    case ArrayType(_, elt) => ResolversAgree(elt, t.elem, imports, printer, gen);
    case MapType(k, v) =>
      ResolversAgree(k, t.key, imports, printer, gen);
      ResolversAgree(v, t.elem, UnwrapType(t.key, imports).imports, printer, gen);
    case ChanType(_, v) => ResolversAgree(v, t.elem, imports, printer, gen);
    case StarExpr(x) => ResolversAgree(x, t.elem, imports, printer, gen);
    case InterfaceType(_) =>
    case StructType(_) =>
    case FuncType(_, _) =>
    case SelectorExpr(_, _) =>
    case Ident(_) =>
    case IndexExpr(_, _) =>
    case BasicLit(_) =>
    case OtherExpr(_) =>
  }

  /** Where the resolvers part: a zero-length array `[0]T` keeps its length
      through the syntax resolver but becomes a slice through this one, because
      the array case only records a non-zero length. */
  lemma ZeroLengthArrayDiverges(n: string, imports: ImportSet, printer: Syntax.Printer, gen: Syntax.Generation)
    ensures var bySyntax := Syntax.UnwrapExpr(Syntax.ArrayType(Some(Syntax.BasicLit("0")), Syntax.Ident(n)), imports, printer, gen);
            var byType := UnwrapType(Array(Basic(n), 0), imports);
            bySyntax.result == Ok(Types.Array(Types.BasicType(n, ""), "0"))
            && byType.result == Ok(Types.Array(Types.BasicType(n, ""), ""))
            && Types.ParameterFormat(bySyntax.result.value) == "[0]" + n
            && Types.ParameterFormat(byType.result.value) == "[]" + n
            && byType.result == UnwrapType(Slice(Basic(n)), imports).result
  {
  }

  /** Where the resolvers part: a selector through an aliased import is
      qualified by the alias, the named type by the package's own name. */
  lemma AliasDiverges(alias: string, pkg: string, n: string, imports: ImportSet, printer: Syntax.Printer, gen: Syntax.Generation)
    requires alias != pkg
    ensures var bySyntax := Syntax.UnwrapExpr(Syntax.SelectorExpr(Syntax.Ident(alias), n), imports, printer, gen);
            var byType := UnwrapType(Named(n, Some(pkg)), imports);
            bySyntax.result == Ok(Types.BasicType(n, alias))
            && byType.result == Ok(Types.BasicType(n, pkg))
            && bySyntax.result != byType.result
  {
  }

  /** Where the resolvers part: an identifier naming a type declared in the
      package being faked is unqualified through the syntax resolver, while
      go/types reports a named type of that package, which the type resolver
      qualifies and requires. Such a pair is outside `Corresponds`. */
  lemma LocalNamedDiverges(n: string, pkg: string, imports: ImportSet, printer: Syntax.Printer, gen: Syntax.Generation)
    requires pkg != ""
    ensures var bySyntax := Syntax.UnwrapExpr(Syntax.Ident(n), imports, printer, gen);
            var byType := UnwrapType(Named(n, Some(pkg)), imports);
            && bySyntax == Syntax.Resolution(Ok(Types.BasicType(n, "")), imports)
            && byType == Syntax.Resolution(Ok(Types.BasicType(n, pkg)), RequireByName(imports, pkg))
            && bySyntax.result != byType.result
            && !Corresponds(Syntax.Ident(n), Named(n, Some(pkg)), printer)
  {
  }

  /** The kinds and what they become: a named type with a package is qualified
      by the package's name and requires it, one without a package (a universe
      type) is unqualified and touches nothing, and so is a basic type. */
  lemma UnwrapTypeCases(imports: ImportSet, n: string, p: string)
    ensures UnwrapType(Named(n, Some(p)), imports) == Syntax.Resolution(Ok(Types.BasicType(n, p)), RequireByName(imports, p))
    ensures UnwrapType(Named(n, None), imports) == Syntax.Resolution(Ok(Types.BasicType(n, "")), imports)
    ensures UnwrapType(Basic(n), imports) == Syntax.Resolution(Ok(Types.BasicType(n, "")), imports)
  {
  }

  /** The printed text of an anonymous interface, struct or signature type is
      kept whole as an unqualified name; any other kind is the
      unsupported-type error. Neither touches the registry. */
  lemma UnwrapTypePrintedCases(imports: ImportSet, text: string, kind: string)
    ensures UnwrapType(Interface(text), imports).result == Ok(Types.BasicType(text, ""))
    ensures UnwrapType(Struct(text), imports).result == Ok(Types.BasicType(text, ""))
    ensures UnwrapType(Signature(text), imports).result == Ok(Types.BasicType(text, ""))
    ensures UnwrapType(Other(kind), imports) == Syntax.Resolution(Err(UnsupportedType), imports)
    ensures UnwrapType(Interface(text), imports).imports == imports
    ensures UnwrapType(Struct(text), imports).imports == imports
    ensures UnwrapType(Signature(text), imports).imports == imports
  {
  }

  /** The composite kinds build their type around what their element resolves
      to: an array keeps its length in decimal unless it is 0, when it is
      written like a slice; a slice has no length; a channel keeps its
      direction; and an error in the element is the error of the whole. */
  lemma UnwrapTypeWraps(elem: GoType, len: nat, dir: ChanDir, imports: ImportSet)
    ensures var sub := UnwrapType(elem, imports);
            sub.result.Ok? ==>
              && UnwrapType(Array(elem, len), imports)
                 == Syntax.Resolution(Ok(Types.Array(sub.result.value, if len != 0 then Text.Decimal(len) else "")), sub.imports)
              && UnwrapType(Slice(elem), imports) == Syntax.Resolution(Ok(Types.Array(sub.result.value, "")), sub.imports)
              && UnwrapType(Pointer(elem), imports) == Syntax.Resolution(Ok(Types.Pointer(sub.result.value)), sub.imports)
              && UnwrapType(Chan(dir, elem), imports) == Syntax.Resolution(Ok(Channel(dir, sub.result.value)), sub.imports)
    ensures var sub := UnwrapType(elem, imports);
            sub.result.Err? ==>
              && UnwrapType(Array(elem, len), imports) == sub
              && UnwrapType(Slice(elem), imports) == sub
              && UnwrapType(Pointer(elem), imports) == sub
              && UnwrapType(Chan(dir, elem), imports) == sub
  {
  }

  /** An array of length 7 is written `[7]T`. */
  lemma ArrayLengthExample(n: string, imports: ImportSet)
    ensures UnwrapType(Array(Basic(n), 7), imports).result == Ok(Types.Array(Types.BasicType(n, ""), "7"))
  {
    assert Text.Decimal(7) == "7";
  }
}

=== FILE: syntax.dfy ===
/** The resolver from Go syntax to the type tree (expr.go `unwrapExpr`, and its
    copy in model.go:135-229). The go/ast node kinds the resolver inspects
    become the constructors of `Expr`; go/format's printer, used for anonymous
    interface, struct and function types, is a parameter. */
module Syntax {
  import opened Wrappers
  import opened Imports
  import Types

  /** `ast.ChanDir`: the parser yields SEND, RECV or SEND|RECV. */
  datatype ChanDir = Send | Recv | SendRecv

  datatype Expr =
    | Ellipsis(elt: Expr)                                   // ...Elt
    | ArrayType(len: Option<Expr>, elt: Expr)               // [Len]Elt; no Len for a slice
    | MapType(key: Expr, value: Expr)                       // map[Key]Value
    | ChanType(dir: ChanDir, value: Expr)                   // chan Value, in a direction
    | StarExpr(x: Expr)                                     // *X
    | InterfaceType(methods: seq<Field>)                    // interface{ ... }
    | StructType(fields: seq<Field>)                        // struct{ ... }
    | FuncType(params: seq<Field>, results: Option<seq<Field>>)  // func(...) (...); Results may be nil
    | SelectorExpr(x: Expr, sel: string)                    // X.Sel
    | Ident(name: string)                                   // Name
    | IndexExpr(x: Expr, index: Expr)                       // X[Index], a generic instantiation
    | BasicLit(text: string)                                // a literal, as written
    | OtherExpr(kind: string)                               // any other node kind

  /** `ast.Field`: a parameter, result or interface-method entry with zero or more names. */
  datatype Field = Field(names: seq<string>, typ: Expr)

  /** The two copies of the resolver in the repository. They differ only in
      the index-expression case. */
  datatype Generation = SplitFiles | Monolithic

  /** go/format's `Node` applied to an anonymous type node: its source text, or
      `None` when the printer reports an error. */
  type Printer = Expr -> Option<string>

  /** A resolved type (or the error) and the import registry afterwards: the
      registry is updated in place as the walk goes, even when it later fails. */
  datatype Resolution = Resolution(result: Result<Types.Type>, imports: ImportSet)

  /** `unwrapExpr`. */
  function UnwrapExpr(node: Expr, imports: ImportSet, printer: Printer, gen: Generation): (r: Resolution)
    ensures Grows(imports, r.imports)
    ensures !HasSelector(node) ==> r.imports == imports
    decreases node
  {
    match node
    case Ellipsis(elt) =>
      var sub := UnwrapExpr(elt, imports, printer, gen);
      if sub.result.Err? then sub
      else Resolution(Ok(Types.Ellipsis(sub.result.value)), sub.imports)
    case ArrayType(len, elt) =>
      var sub := UnwrapExpr(elt, imports, printer, gen);
      if sub.result.Err? then sub
      else if len.None? then Resolution(Ok(Types.Array(sub.result.value, "")), sub.imports)
      else if len.value.BasicLit? then Resolution(Ok(Types.Array(sub.result.value, len.value.text)), sub.imports)
      else Resolution(Err(UnsupportedArrayLen), sub.imports)
    case MapType(k, v) =>
      var key := UnwrapExpr(k, imports, printer, gen);
      if key.result.Err? then key
      else
        var value := UnwrapExpr(v, key.imports, printer, gen);
        if value.result.Err? then value
        else Resolution(Ok(Types.Map(key.result.value, value.result.value)), value.imports)
    case ChanType(dir, v) =>
      var sub := UnwrapExpr(v, imports, printer, gen);
      if sub.result.Err? then sub
      else Resolution(Ok(Channel(dir, sub.result.value)), sub.imports)
    case StarExpr(x) =>
      var sub := UnwrapExpr(x, imports, printer, gen);
      if sub.result.Err? then sub
      else Resolution(Ok(Types.Pointer(sub.result.value)), sub.imports)
    case InterfaceType(_) => Opaque(node, imports, printer)
    case StructType(_) => Opaque(node, imports, printer)
    case FuncType(_, _) => Opaque(node, imports, printer)
    case SelectorExpr(x, sel) =>
      if x.Ident? then Resolution(Ok(Types.BasicType(sel, x.name)), RequireByName(imports, x.name))
      else Resolution(Err(Panic), imports)  // the unchecked assertion `X.(*ast.Ident)` fails
    case Ident(name) => Resolution(Ok(Types.BasicType(name, "")), imports)
    case IndexExpr(_, _) =>
      if gen == SplitFiles then Resolution(Ok(Types.Missing), imports)  // no type and no error
      else Resolution(Err(UnsupportedExpr), imports)
    case BasicLit(_) => Resolution(Err(UnsupportedExpr), imports)
    case OtherExpr(_) => Resolution(Err(UnsupportedExpr), imports)
  }

  /** The channel type for a syntactic direction. */
  function Channel(dir: ChanDir, sub: Types.Type): (t: Types.Type)
    ensures (t.Channel? || t.ReceiveChannel? || t.SendChannel?) && t.sub == sub
    ensures dir == Send <==> t.SendChannel?
    ensures dir == Recv <==> t.ReceiveChannel?
    ensures dir == SendRecv <==> t.Channel?
  {
    match dir
    case Send => Types.SendChannel(sub)
    case Recv => Types.ReceiveChannel(sub)
    case SendRecv => Types.Channel(sub)
  }

  /** An anonymous interface, struct or function type: kept whole as a basic type
      named by its printed text. */
  function Opaque(node: Expr, imports: ImportSet, printer: Printer): (r: Resolution)
    ensures r.imports == imports
    ensures printer(node).Some? <==> r.result.Ok?
    ensures printer(node).Some? ==> r.result.value == Types.BasicType(printer(node).value, "")
  {
    match printer(node)
    case None => Resolution(Err(PrinterFailed), imports)
    case Some(text) => Resolution(Ok(Types.BasicType(text, "")), imports)
  }

  // ---------------------------------------------------------------------------
  // What a resolution visits
  // ---------------------------------------------------------------------------

  /** Some selector is reached by the walk (anonymous types are not walked into). */
  predicate HasSelector(node: Expr)
  {
    match node
    case Ellipsis(elt) => HasSelector(elt)
    case ArrayType(_, elt) => HasSelector(elt)
    case MapType(k, v) => HasSelector(k) || HasSelector(v)
    case ChanType(_, v) => HasSelector(v)
    case StarExpr(x) => HasSelector(x)
    case SelectorExpr(_, _) => true
    case _ => false
  }

  /** Some index expression is reached by the walk. */
  predicate HasIndexExpr(node: Expr)
  {
    match node
    case Ellipsis(elt) => HasIndexExpr(elt)
    case ArrayType(_, elt) => HasIndexExpr(elt)
    case MapType(k, v) => HasIndexExpr(k) || HasIndexExpr(v)
    case ChanType(_, v) => HasIndexExpr(v)
    case StarExpr(x) => HasIndexExpr(x)
    case IndexExpr(_, _) => true
    case _ => false
  }

  /** The package names of the selectors the walk reaches, in walk order. */
  function Packages(node: Expr): seq<string>
  {
    match node
    case Ellipsis(elt) => Packages(elt)
    case ArrayType(_, elt) => Packages(elt)
    case MapType(k, v) => Packages(k) + Packages(v)
    case ChanType(_, v) => Packages(v)
    case StarExpr(x) => Packages(x)
    case SelectorExpr(x, _) => if x.Ident? then [x.name] else []
    case _ => []
  }

  // ---------------------------------------------------------------------------
  // Properties
  // ---------------------------------------------------------------------------

  /** A successful resolution has required, in the registry, the selectors'
      packages one after the other, in walk order. */
  lemma {:induction false} UnwrapExprRequiresPackages(node: Expr, imports: ImportSet, printer: Printer, gen: Generation)
    ensures var r := UnwrapExpr(node, imports, printer, gen);
            r.result.Ok? ==> r.imports == RequireEach(imports, Packages(node))
    decreases node
  {
    match node
    case Ellipsis(elt) => UnwrapExprRequiresPackages(elt, imports, printer, gen);
    case ArrayType(_, elt) => UnwrapExprRequiresPackages(elt, imports, printer, gen);
    case ChanType(_, v) => UnwrapExprRequiresPackages(v, imports, printer, gen);
    case StarExpr(x) => UnwrapExprRequiresPackages(x, imports, printer, gen);
    case MapType(k, v) =>
      var key := UnwrapExpr(k, imports, printer, gen);
      UnwrapExprRequiresPackages(k, imports, printer, gen);
      UnwrapExprRequiresPackages(v, key.imports, printer, gen);
      RequireEachConcat(imports, Packages(k), Packages(v));
    case SelectorExpr(x, _) =>
      if x.Ident? {
        assert RequireEach(RequireByName(imports, x.name), []) == RequireByName(imports, x.name);
      }
    case InterfaceType(_) =>
    case StructType(_) =>
    case FuncType(_, _) =>
    case Ident(_) =>
    case IndexExpr(_, _) =>
    case BasicLit(_) =>
    case OtherExpr(_) =>
  }

  /** The non-empty packages of two lists, one after the other. */
  lemma PackageSetConcat(a: seq<string>, b: seq<string>)
    ensures (set p | p in a + b && p != "") == (set p | p in a && p != "") + (set p | p in b && p != "")
  {
  }

  /** The package qualifiers of a successfully resolved type are exactly the
      non-empty packages of the expression's selectors. */
  lemma {:induction false} UnwrapExprQualifiers(node: Expr, imports: ImportSet, printer: Printer, gen: Generation)
    ensures var r := UnwrapExpr(node, imports, printer, gen);
            r.result.Ok? ==> Types.Qualifiers(r.result.value) == (set p | p in Packages(node) && p != "")
    decreases node
  {
    match node
    case Ellipsis(elt) => UnwrapExprQualifiers(elt, imports, printer, gen);
    case ArrayType(_, elt) => UnwrapExprQualifiers(elt, imports, printer, gen);
    case ChanType(_, v) => UnwrapExprQualifiers(v, imports, printer, gen);
    case StarExpr(x) => UnwrapExprQualifiers(x, imports, printer, gen);
    case MapType(k, v) =>
      var key := UnwrapExpr(k, imports, printer, gen);
      UnwrapExprQualifiers(k, imports, printer, gen);
      UnwrapExprQualifiers(v, key.imports, printer, gen);
      MapQualifiers(k, v, imports, printer, gen);
    case SelectorExpr(_, _) =>
    case InterfaceType(_) =>
    case StructType(_) =>
    case FuncType(_, _) =>
    case Ident(_) =>
    case IndexExpr(_, _) =>
    case BasicLit(_) =>
    case OtherExpr(_) =>
  }

  /** The map step of `UnwrapExprQualifiers`: the qualifiers of a resolved map
      are those of its key and value. */
  lemma MapQualifiers(k: Expr, v: Expr, imports: ImportSet, printer: Printer, gen: Generation)
    requires var key := UnwrapExpr(k, imports, printer, gen);
             var value := UnwrapExpr(v, key.imports, printer, gen);
             (key.result.Ok? ==> Types.Qualifiers(key.result.value) == (set p | p in Packages(k) && p != ""))
             && (value.result.Ok? ==> Types.Qualifiers(value.result.value) == (set p | p in Packages(v) && p != ""))
    ensures var r := UnwrapExpr(MapType(k, v), imports, printer, gen);
            r.result.Ok? ==> Types.Qualifiers(r.result.value) == (set p | p in Packages(MapType(k, v)) && p != "")
  {
    PackageSetConcat(Packages(k), Packages(v));
  }

  /** Import pruning: after a successful resolution, a registry entry is required
      exactly when it already was or its name or alias is the package of a selector
      in the expression; so every package the rendered type names is required. */
  lemma ResolutionRequiresQualifiers(node: Expr, imports: ImportSet, printer: Printer, gen: Generation)
    ensures var r := UnwrapExpr(node, imports, printer, gen);
            r.result.Ok? ==>
              |r.imports| == |imports|
              && (forall i :: 0 <= i < |imports| ==>
                   (r.imports[i].required <==>
                     imports[i].required || exists k :: 0 <= k < |Packages(node)| && Answers(imports[i], Packages(node)[k])))
              && (forall i, q :: 0 <= i < |imports| && q in Types.Qualifiers(r.result.value) && Answers(imports[i], q) ==>
                   r.imports[i].required)
  {
    var r := UnwrapExpr(node, imports, printer, gen);
    UnwrapExprRequiresPackages(node, imports, printer, gen);
    UnwrapExprQualifiers(node, imports, printer, gen);
    RequireEachSpec(imports, Packages(node));
    if r.result.Ok? {
      forall i, q | 0 <= i < |imports| && q in Types.Qualifiers(r.result.value) && Answers(imports[i], q)
        ensures r.imports[i].required
      {
        var k :| 0 <= k < |Packages(node)| && Packages(node)[k] == q;
      }
    }
  }

  /** A successful resolution has a nil node exactly when the split-files copy met
      an index expression; the monolithic copy never produces one. */
  lemma {:induction false} MissingOnlyFromIndexExpr(node: Expr, imports: ImportSet, printer: Printer, gen: Generation)
    ensures var r := UnwrapExpr(node, imports, printer, gen);
            r.result.Ok? ==> (Types.Resolved(r.result.value) <==> !(gen == SplitFiles && HasIndexExpr(node)))
    decreases node
  {
    match node
    case Ellipsis(elt) => MissingOnlyFromIndexExpr(elt, imports, printer, gen);
    case ArrayType(_, elt) => MissingOnlyFromIndexExpr(elt, imports, printer, gen);
    case ChanType(_, v) => MissingOnlyFromIndexExpr(v, imports, printer, gen);
    case StarExpr(x) => MissingOnlyFromIndexExpr(x, imports, printer, gen);
    case MapType(k, v) =>
      var key := UnwrapExpr(k, imports, printer, gen);
      MissingOnlyFromIndexExpr(k, imports, printer, gen);
      MissingOnlyFromIndexExpr(v, key.imports, printer, gen);
    case InterfaceType(_) =>
    case StructType(_) =>
    case FuncType(_, _) =>
    case SelectorExpr(_, _) =>
    case Ident(_) =>
    case IndexExpr(_, _) =>
    case BasicLit(_) =>
    case OtherExpr(_) =>
  }

  /** An error in a sub-resolution is the error of the whole resolution, unchanged. */
  lemma ErrorsPropagate(node: Expr, imports: ImportSet, printer: Printer, gen: Generation)
    requires node.Ellipsis? || node.ArrayType? || node.ChanType? || node.StarExpr? || node.MapType?
    ensures var first := if node.Ellipsis? || node.ArrayType? then node.elt
                         else if node.ChanType? || node.MapType? then (if node.MapType? then node.key else node.value)
                         else node.x;
            var sub := UnwrapExpr(first, imports, printer, gen);
            sub.result.Err? ==> UnwrapExpr(node, imports, printer, gen) == sub
    ensures node.MapType? ==>
              var key := UnwrapExpr(node.key, imports, printer, gen);
              var value := UnwrapExpr(node.value, key.imports, printer, gen);
              key.result.Ok? && value.result.Err? ==> UnwrapExpr(node, imports, printer, gen) == value
  {
  }

  /** What an expression resolves to, or the error, does not depend on the
      registry: the registry is only written to. */
  lemma {:induction false} UnwrapExprIgnoresRegistry(node: Expr, a: ImportSet, b: ImportSet, printer: Printer, gen: Generation)
    ensures UnwrapExpr(node, a, printer, gen).result == UnwrapExpr(node, b, printer, gen).result
    decreases node
  {
    match node
    case Ellipsis(elt) => UnwrapExprIgnoresRegistry(elt, a, b, printer, gen);
    case ArrayType(_, elt) => UnwrapExprIgnoresRegistry(elt, a, b, printer, gen);
    case ChanType(_, v) => UnwrapExprIgnoresRegistry(v, a, b, printer, gen);
    case StarExpr(x) => UnwrapExprIgnoresRegistry(x, a, b, printer, gen);
    case MapType(k, v) =>
      UnwrapExprIgnoresRegistry(k, a, b, printer, gen);
      UnwrapExprIgnoresRegistry(v, UnwrapExpr(k, a, printer, gen).imports, UnwrapExpr(k, b, printer, gen).imports, printer, gen);
    case InterfaceType(_) =>
    case StructType(_) =>
    case FuncType(_, _) =>
    case SelectorExpr(_, _) =>
    case Ident(_) =>
    case IndexExpr(_, _) =>
    case BasicLit(_) =>
    case OtherExpr(_) =>
  }

  /** The leaf node kinds and what they become: a selector `p.N` is `N`
      qualified by `p` and requires `p`; a plain identifier is unqualified and
      touches nothing; any other kind is an error. */
  lemma UnwrapExprCases(imports: ImportSet, printer: Printer, gen: Generation, p: string, n: string)
    ensures UnwrapExpr(SelectorExpr(Ident(p), n), imports, printer, gen) ==
            Resolution(Ok(Types.BasicType(n, p)), RequireByName(imports, p))
    ensures UnwrapExpr(Ident(n), imports, printer, gen) == Resolution(Ok(Types.BasicType(n, "")), imports)
    ensures UnwrapExpr(OtherExpr(n), imports, printer, gen).result == Err(UnsupportedExpr)
  {
  }

  /** An array length must be absent or a basic literal, kept verbatim, and
      any other length is an error; each channel direction keeps its kind. */
  lemma UnwrapExprLengthsAndDirections(imports: ImportSet, printer: Printer, gen: Generation, n: string, lit: string, other: Expr)
    requires !other.BasicLit?
    ensures UnwrapExpr(ArrayType(None, Ident(n)), imports, printer, gen).result == Ok(Types.Array(Types.BasicType(n, ""), ""))
    ensures UnwrapExpr(ArrayType(Some(BasicLit(lit)), Ident(n)), imports, printer, gen).result == Ok(Types.Array(Types.BasicType(n, ""), lit))
    ensures UnwrapExpr(ArrayType(Some(other), Ident(n)), imports, printer, gen).result == Err(UnsupportedArrayLen)
    ensures UnwrapExpr(ChanType(Send, Ident(n)), imports, printer, gen).result == Ok(Types.SendChannel(Types.BasicType(n, "")))
    ensures UnwrapExpr(ChanType(Recv, Ident(n)), imports, printer, gen).result == Ok(Types.ReceiveChannel(Types.BasicType(n, "")))
    ensures UnwrapExpr(ChanType(SendRecv, Ident(n)), imports, printer, gen).result == Ok(Types.Channel(Types.BasicType(n, "")))
  {
  }

  /** The wrapping node kinds build their type around what their parts resolve
      to, in the registry state the parts leave: `...E` is a variadic of `E`,
      `*E` a pointer to `E`, `[]E` a slice of `E`, and `map[K]V` resolves `K`
      first and then `V`. */
  lemma UnwrapExprWraps(e: Expr, k: Expr, imports: ImportSet, printer: Printer, gen: Generation)
    ensures var sub := UnwrapExpr(e, imports, printer, gen);
            sub.result.Ok? ==>
              && UnwrapExpr(Ellipsis(e), imports, printer, gen) == Resolution(Ok(Types.Ellipsis(sub.result.value)), sub.imports)
              && UnwrapExpr(StarExpr(e), imports, printer, gen) == Resolution(Ok(Types.Pointer(sub.result.value)), sub.imports)
              && UnwrapExpr(ArrayType(None, e), imports, printer, gen) == Resolution(Ok(Types.Array(sub.result.value, "")), sub.imports)
    ensures var key := UnwrapExpr(k, imports, printer, gen);
            var value := UnwrapExpr(e, key.imports, printer, gen);
            key.result.Ok? && value.result.Ok? ==>
              UnwrapExpr(MapType(k, e), imports, printer, gen)
              == Resolution(Ok(Types.Map(key.result.value, value.result.value)), value.imports)
  {
    WrapsOne(e, imports, printer, gen);
    WrapsMap(k, e, imports, printer, gen);
  }

  /** The one-element wrappers of `UnwrapExprWraps`. */
  lemma WrapsOne(e: Expr, imports: ImportSet, printer: Printer, gen: Generation)
    ensures var sub := UnwrapExpr(e, imports, printer, gen);
            sub.result.Ok? ==>
              && UnwrapExpr(Ellipsis(e), imports, printer, gen) == Resolution(Ok(Types.Ellipsis(sub.result.value)), sub.imports)
              && UnwrapExpr(StarExpr(e), imports, printer, gen) == Resolution(Ok(Types.Pointer(sub.result.value)), sub.imports)
              && UnwrapExpr(ArrayType(None, e), imports, printer, gen) == Resolution(Ok(Types.Array(sub.result.value, "")), sub.imports)
  {
  }

  /** The map case of `UnwrapExprWraps`. */
  lemma WrapsMap(k: Expr, e: Expr, imports: ImportSet, printer: Printer, gen: Generation)
    ensures var key := UnwrapExpr(k, imports, printer, gen);
            var value := UnwrapExpr(e, key.imports, printer, gen);
            key.result.Ok? && value.result.Ok? ==>
              UnwrapExpr(MapType(k, e), imports, printer, gen)
              == Resolution(Ok(Types.Map(key.result.value, value.result.value)), value.imports)
  {
  }
}

=== FILE: text.dfy ===
/** String helpers standing in for the Go library calls the core uses:
    `strings.Join`, `strconv.FormatInt`/`%d`, `strings.Title`, `strings.Split`
    and `strings.Replace`. */
module Text {

  // ---------------------------------------------------------------------------
  // strings.Join
  // ---------------------------------------------------------------------------

  /** `strings.Join(parts, sep)`: the parts in order, with `sep` between neighbours. */
  function Join(parts: seq<string>, sep: string): string
  {
    if |parts| == 0 then ""
    else if |parts| == 1 then parts[0]
    else parts[0] + sep + Join(parts[1..], sep)
  }

  /** Joining two non-empty lists is joining each and putting one separator
      between them: the order of the parts is kept and no part is lost. */
  lemma {:induction false} JoinConcat(a: seq<string>, b: seq<string>, sep: string)
    requires |a| > 0 && |b| > 0
    ensures Join(a + b, sep) == Join(a, sep) + sep + Join(b, sep)
    decreases |a|
  {
    if |a| == 1 {
      assert (a + b)[1..] == b;
    } else {
      assert (a + b)[1..] == a[1..] + b;
      JoinConcat(a[1..], b, sep);
    }
  }

  /** Lists whose parts have the same lengths, one by one, join to the same
      text exactly when they are the same list. */
  lemma {:induction false} JoinSameLengths(a: seq<string>, b: seq<string>, sep: string)
    requires |a| == |b| && forall k :: 0 <= k < |a| ==> |a[k]| == |b[k]|
    ensures Join(a, sep) == Join(b, sep) <==> a == b
    decreases |a|
  {
    if |a| >= 2 && Join(a, sep) == Join(b, sep) {
      var n := |a[0]| + |sep|;
      assert forall k :: 0 <= k < |a| - 1 ==> a[1..][k] == a[k + 1] && b[1..][k] == b[k + 1];
      JoinSameLengths(a[1..], b[1..], sep);
      assert a[0] == Join(a, sep)[..|a[0]|] == Join(b, sep)[..|b[0]|] == b[0];
      assert Join(a[1..], sep) == Join(a, sep)[n..] == Join(b, sep)[n..] == Join(b[1..], sep);
      assert a == [a[0]] + a[1..] && b == [b[0]] + b[1..];
    }
  }

  /** With a non-empty separator the join is empty exactly when there is
      nothing to join but empty text. */
  lemma JoinEmptyIff(parts: seq<string>, sep: string)
    requires sep != ""
    ensures Join(parts, sep) == "" <==> |parts| == 0 || (|parts| == 1 && parts[0] == "")
  {
    if |parts| >= 2 {
      assert |Join(parts, sep)| >= |sep|;
    }
  }

  // ---------------------------------------------------------------------------
  // Decimal rendering of counters and array lengths
  // ---------------------------------------------------------------------------

  predicate IsDigit(c: char)
  {
    '0' <= c <= '9'
  }

  predicate IsDigits(s: string)
  {
    forall i :: 0 <= i < |s| ==> IsDigit(s[i])
  }

  function DigitChar(d: nat): (c: char)
    requires d < 10
    ensures IsDigit(c)
  {
    (('0' as int) + d) as char
  }

  function DigitValue(c: char): (d: nat)
    requires IsDigit(c)
    ensures d < 10
  {
    (c as int) - ('0' as int)
  }

  /** Base-10 text of `n`, as `strconv.FormatInt(n, 10)` and `fmt`'s `%d` write it. */
  function Decimal(n: nat): (r: string)
    ensures |r| > 0 && IsDigits(r)
    ensures r[0] == '0' ==> n == 0
  {
    if n < 10 then [DigitChar(n)] else Decimal(n / 10) + [DigitChar(n % 10)]
  }

  /** Reads base-10 text back into a number. */
  function DecimalValue(s: string): nat
    requires IsDigits(s)
  {
    if |s| == 0 then 0 else 10 * DecimalValue(s[..|s| - 1]) + DigitValue(s[|s| - 1])
  }

  /** Reading the decimal text of `n` gives `n` back. */
  lemma {:induction false} DecimalRoundTrip(n: nat)
    ensures DecimalValue(Decimal(n)) == n
  {
    if n >= 10 {
      var r := Decimal(n);
      assert r[..|r| - 1] == Decimal(n / 10);
      DecimalRoundTrip(n / 10);
    }
  }

  /** Different numbers have different decimal texts. */
  lemma DecimalInjective(a: nat, b: nat)
    requires a != b
    ensures Decimal(a) != Decimal(b)
  {
    DecimalRoundTrip(a);
    DecimalRoundTrip(b);
  }

  // ---------------------------------------------------------------------------
  // strings.Title on an identifier
  // ---------------------------------------------------------------------------

  predicate IsLower(c: char)
  {
    'a' <= c <= 'z'
  }

  predicate IsUpper(c: char)
  {
    'A' <= c <= 'Z'
  }

  function Upper(c: char): char
  {
    if IsLower(c) then ((c as int) - 32) as char else c
  }

  /** `strings.Title` on a Go identifier: letters, digits and `_` are one word,
      so only the first character changes, and only when it is a lower-case letter. */
  function TitleCase(s: string): (r: string)
    ensures |r| == |s|
    ensures forall i :: 0 < i < |s| ==> r[i] == s[i]
    ensures |s| > 0 && IsLower(s[0]) ==> IsUpper(r[0]) && r[0] as int == s[0] as int - 32
    ensures |s| > 0 && !IsLower(s[0]) ==> r[0] == s[0]
  {
    if |s| == 0 then "" else [Upper(s[0])] + s[1..]
  }

  /** Title-casing twice is title-casing once. */
  lemma TitleCaseIdempotent(s: string)
    ensures TitleCase(TitleCase(s)) == TitleCase(s)
  {
  }

  /** A name is left alone exactly when it does not start with a lower-case letter. */
  lemma TitleCaseFixedIff(s: string)
    ensures TitleCase(s) == s <==> |s| == 0 || !IsLower(s[0])
  {
    if |s| > 0 && IsLower(s[0]) {
      assert TitleCase(s)[0] != s[0];
    }
  }

  // ---------------------------------------------------------------------------
  // strings.Split(...)[last] and strings.Replace(..., -1)
  // ---------------------------------------------------------------------------

  /** The last element of `strings.Split(s, [sep])`: the text after the last `sep`,
      or all of `s` when it has none. */
  function LastSegment(s: string, sep: char): (r: string)
    ensures sep !in r
    ensures |r| <= |s| && s[|s| - |r|..] == r
    ensures |r| < |s| ==> s[|s| - |r| - 1] == sep
  {
    if |s| == 0 then ""
    else if s[|s| - 1] == sep then ""
    else LastSegment(s[..|s| - 1], sep) + [s[|s| - 1]]
  }

  /** `strings.Replace(s, [c], "", -1)`: every `c` removed, everything else kept in order. */
  function RemoveAll(s: string, c: char): (r: string)
    ensures c !in r
    ensures |r| <= |s|
    ensures c !in s ==> r == s
  {
    if |s| == 0 then ""
    else if s[0] == c then RemoveAll(s[1..], c)
    else [s[0]] + RemoveAll(s[1..], c)
  }
}

=== FILE: types.dfy ===
/** The type tree and its three renderings (type.go, array.go, map.go, pointer.go,
    ellipsis.go, channel.go; the same code is repeated in model.go).

    Every Go type that implements `Type` becomes one constructor here; each Go
    method `ParameterFormat`, `ReferenceFormat`, `FieldFormat` becomes one
    total function with an exhaustive match. The per-instance `== ""` caches of
    the source are not part of these functions: see module Memo. */
module Types {
  import opened Text

  datatype Type =
    | BasicType(name: string, qualifier: string)  // a named or built-in type, maybe package-qualified
    | Pointer(sub: Type)                          // *sub
    | Array(sub: Type, scale: string)             // [scale]sub; an empty scale is a slice
    | Map(key: Type, sub: Type)                   // map[key]sub
    | Channel(sub: Type)                          // chan sub
    | ReceiveChannel(sub: Type)                   // <-chan sub
    | SendChannel(sub: Type)                      // chan<- sub
    | Ellipsis(sub: Type)                         // ...sub, the trailing variadic parameter
    | Missing                                     // the nil Type the syntax resolver yields for an index expression

  /** A tree with no nil (`Missing`) node anywhere: calling a rendering method
      on a nil `Type` panics in the source, so every rendering demands this. */
  predicate Resolved(t: Type)
  {
    match t
    case BasicType(_, _) => true
    case Pointer(s) => Resolved(s)
    case Array(s, _) => Resolved(s)
    case Map(k, v) => Resolved(k) && Resolved(v)
    case Channel(s) => Resolved(s)
    case ReceiveChannel(s) => Resolved(s)
    case SendChannel(s) => Resolved(s)
    case Ellipsis(s) => Resolved(s)
    case Missing => false
  }

  /** `Qualifier.Name`, or the bare name when there is no qualifier. */
  function QualifiedName(name: string, qualifier: string): string
  {
    if qualifier != "" then qualifier + "." + name else name
  }

  /** The package qualifiers the tree names (an empty qualifier names none). */
  function Qualifiers(t: Type): set<string>
  {
    match t
    case BasicType(_, q) => if q != "" then {q} else {}
    case Pointer(s) => Qualifiers(s)
    case Array(s, _) => Qualifiers(s)
    case Map(k, v) => Qualifiers(k) + Qualifiers(v)
    case Channel(s) => Qualifiers(s)
    case ReceiveChannel(s) => Qualifiers(s)
    case SendChannel(s) => Qualifiers(s)
    case Ellipsis(s) => Qualifiers(s)
    case Missing => {}
  }

  // ---------------------------------------------------------------------------
  // The three renderings
  // ---------------------------------------------------------------------------

  /** The type as written in a parameter list. */
  function ParameterFormat(t: Type): string
    requires Resolved(t)
  {
    match t
    case BasicType(n, q) => QualifiedName(n, q)
    case Pointer(s) => "*" + ParameterFormat(s)
    case Array(s, scale) => "[" + scale + "]" + ParameterFormat(s)
    case Map(k, v) => "map[" + ParameterFormat(k) + "]" + ParameterFormat(v)
    case Channel(s) => "chan " + ParameterFormat(s)
    case ReceiveChannel(s) => "<-chan " + ParameterFormat(s)
    case SendChannel(s) => "chan<- " + ParameterFormat(s)
    case Ellipsis(s) => "..." + ParameterFormat(s)
  }

  /** The type as written for a struct field: a variadic becomes a slice, so
      each variadic makes the text one character shorter than the parameter
      rendering, and a tree without one is written as in a parameter list. */
  function FieldFormat(t: Type): (r: string)
    requires Resolved(t)
    ensures |r| + EllipsisCount(t) == |ParameterFormat(t)|
    ensures EllipsisCount(t) == 0 ==> r == ParameterFormat(t)
  {
    match t
    case BasicType(n, q) => QualifiedName(n, q)
    case Pointer(s) => "*" + FieldFormat(s)
    case Array(s, scale) => "[" + scale + "]" + FieldFormat(s)
    case Map(k, v) => "map[" + FieldFormat(k) + "]" + FieldFormat(v)
    case Channel(s) => "chan " + FieldFormat(s)
    case ReceiveChannel(s) => "<-chan " + FieldFormat(s)
    case SendChannel(s) => "chan<- " + FieldFormat(s)
    case Ellipsis(s) => "[]" + FieldFormat(s)
  }

  /** Drops every leading pointer. */
  function StripPointers(t: Type): Type
  {
    if t.Pointer? then StripPointers(t.sub) else t
  }

  /** A type whose argument must be spread at a call site: a variadic, possibly
      under pointers (a pointer defers its reference rendering to what it points at). */
  predicate Spreads(t: Type)
  {
    StripPointers(t).Ellipsis?
  }

  /** The suffix that follows an argument's name at a call site. */
  function ReferenceFormat(t: Type): (r: string)
    requires Resolved(t)
    ensures r == "" || r == "..."
    ensures r == "..." <==> Spreads(t)
  {
    match t
    case BasicType(_, _) => ""
    case Pointer(s) => ReferenceFormat(s)
    case Array(_, _) => ""
    case Map(_, _) => ""
    case Channel(_) => ""
    case ReceiveChannel(_) => ""
    case SendChannel(_) => ""
    case Ellipsis(_) => "..."
  }

  // ---------------------------------------------------------------------------
  // Basic types
  // ---------------------------------------------------------------------------

  /** A basic type renders the same in parameter and field position, as its
      qualified name, and contributes nothing at a call site. */
  lemma BasicRenderings(name: string, qualifier: string)
    ensures ParameterFormat(BasicType(name, qualifier)) == FieldFormat(BasicType(name, qualifier))
    ensures qualifier != "" ==> ParameterFormat(BasicType(name, qualifier)) == qualifier + "." + name
    ensures qualifier == "" ==> ParameterFormat(BasicType(name, qualifier)) == name
    ensures ReferenceFormat(BasicType(name, qualifier)) == ""
  {
  }

  // ---------------------------------------------------------------------------
  // Arrays, slices and variadics
  // ---------------------------------------------------------------------------

  /** An array with an empty scale is written with slice syntax `[]T`, a scaled
      one as `[n]T`, and neither adds anything at a call site. */
  lemma ArrayRenderings(s: Type, scale: string)
    requires Resolved(s)
    ensures ParameterFormat(Array(s, "")) == "[]" + ParameterFormat(s)
    ensures FieldFormat(Array(s, "")) == "[]" + FieldFormat(s)
    ensures ParameterFormat(Array(s, scale)) == "[" + scale + "]" + ParameterFormat(s)
    ensures FieldFormat(Array(s, scale)) == "[" + scale + "]" + FieldFormat(s)
    ensures ReferenceFormat(Array(s, scale)) == ""
  {
  }

  /** A variadic is `...T` in a parameter list, spreads as `...` at a call site
      whatever its element, and is the slice `[]T` as a struct field. */
  lemma EllipsisRenderings(s: Type)
    requires Resolved(s)
    ensures ParameterFormat(Ellipsis(s)) == "..." + ParameterFormat(s)
    ensures ReferenceFormat(Ellipsis(s)) == "..."
    ensures FieldFormat(Ellipsis(s)) == FieldFormat(Array(s, ""))
  {
  }

  /** The tree with every variadic replaced by a slice of its element. */
  function SliceView(t: Type): (r: Type)
    requires Resolved(t)
    ensures Resolved(r)
  {
    match t
    case BasicType(_, _) => t
    case Pointer(s) => Pointer(SliceView(s))
    case Array(s, scale) => Array(SliceView(s), scale)
    case Map(k, v) => Map(SliceView(k), SliceView(v))
    case Channel(s) => Channel(SliceView(s))
    case ReceiveChannel(s) => ReceiveChannel(SliceView(s))
    case SendChannel(s) => SendChannel(SliceView(s))
    case Ellipsis(s) => Array(SliceView(s), "")
  }

  /** The field rendering of any type is the parameter rendering of the same
      type with its variadics turned into slices. */
  lemma {:induction false} FieldIsParameterOfSliceView(t: Type)
    requires Resolved(t)
    ensures FieldFormat(t) == ParameterFormat(SliceView(t))
  {
    match t
    case BasicType(_, _) =>
    case Pointer(s) =>
      FieldIsParameterOfSliceView(s);
      assert SliceView(t) == Pointer(SliceView(s));
    case Array(s, scale) =>
      FieldIsParameterOfSliceView(s);
      assert SliceView(t) == Array(SliceView(s), scale);
    case Map(k, v) =>
      FieldIsParameterOfSliceView(k);
      FieldIsParameterOfSliceView(v);
      assert SliceView(t) == Map(SliceView(k), SliceView(v));
    case Channel(s) =>
      FieldIsParameterOfSliceView(s);
      assert SliceView(t) == Channel(SliceView(s));
    case ReceiveChannel(s) =>
      FieldIsParameterOfSliceView(s);
      assert SliceView(t) == ReceiveChannel(SliceView(s));
    case SendChannel(s) =>
      FieldIsParameterOfSliceView(s);
      assert SliceView(t) == SendChannel(SliceView(s));
    case Ellipsis(s) =>
      FieldIsParameterOfSliceView(s);
      assert SliceView(t) == Array(SliceView(s), "");
  }

  /** How many variadic nodes the tree holds. */
  function EllipsisCount(t: Type): nat
  {
    match t
    case BasicType(_, _) => 0
    case Pointer(s) => EllipsisCount(s)
    case Array(s, _) => EllipsisCount(s)
    case Map(k, v) => EllipsisCount(k) + EllipsisCount(v)
    case Channel(s) => EllipsisCount(s)
    case ReceiveChannel(s) => EllipsisCount(s)
    case SendChannel(s) => EllipsisCount(s)
    case Ellipsis(s) => 1 + EllipsisCount(s)
    case Missing => 0
  }

  /** Only a tree holding a variadic node can spread. */
  lemma {:induction false} SpreadsNeedsEllipsis(t: Type)
    ensures Spreads(t) ==> EllipsisCount(t) > 0
    decreases t
  {
    if t.Pointer? {
      SpreadsNeedsEllipsis(t.sub);
    }
  }

  /** The number of '.' characters in a text. */
  function Dots(s: string): nat
  {
    if |s| == 0 then 0 else (if s[0] == '.' then 1 else 0) + Dots(s[1..])
  }

  /** Counting dots distributes over concatenation. */
  lemma {:induction false} DotsConcat(a: string, b: string)
    ensures Dots(a + b) == Dots(a) + Dots(b)
    decreases |a|
  {
    if |a| == 0 {
      assert a + b == b;
    } else {
      assert (a + b)[1..] == a[1..] + b;
      DotsConcat(a[1..], b);
    }
  }

  /** Putting the same dot-free text in front of two renderings keeps the
      difference in their dot counts. */
  lemma DotsPrefix(pre: string, p: string, f: string, extra: nat)
    requires Dots(pre) == 0 && Dots(p) == Dots(f) + extra
    ensures Dots(pre + p) == Dots(pre + f) + extra
  {
    DotsConcat(pre, p);
    DotsConcat(pre, f);
  }

  /** The map case: key and value differences add up. */
  lemma DotsMap(pk: string, fk: string, pv: string, fv: string, ek: nat, ev: nat)
    requires Dots(pk) == Dots(fk) + ek && Dots(pv) == Dots(fv) + ev
    ensures Dots("map[" + pk + "]" + pv) == Dots("map[" + fk + "]" + fv) + ek + ev
  {
    assert Dots("map[") == 0 && Dots("]") == 0;
    DotsConcat("map[", pk);
    DotsConcat("map[" + pk, "]");
    DotsConcat("map[" + pk + "]", pv);
    DotsConcat("map[", fk);
    DotsConcat("map[" + fk, "]");
    DotsConcat("map[" + fk + "]", fv);
  }

  /** The variadic case: `...` against `[]`. */
  lemma DotsEllipsis(p: string, f: string, e: nat)
    requires Dots(p) == Dots(f) + e
    ensures Dots("..." + p) == Dots("[]" + f) + 3 + e
  {
    MarkerDots();
    NoDots("[]");
    DotsConcat("...", p);
    DotsConcat("[]", f);
  }

  /** A text without a '.' has no dots. */
  lemma {:induction false} NoDots(s: string)
    requires '.' !in s
    ensures Dots(s) == 0
    decreases |s|
  {
    if |s| > 0 {
      assert s[0] in s;
      assert forall c :: c in s[1..] ==> c in s;
      NoDots(s[1..]);
    }
  }

  /** The variadic marker holds three dots. */
  lemma MarkerDots()
    ensures Dots("...") == 3
  {
    assert "..."[1..] == ".." && ".."[1..] == "." && "."[1..] == "";
  }

  /** One step of `DotsDiffer`: if the children satisfy it, so does `t`. */
  lemma DotsDifferStep(t: Type)
    requires Resolved(t) && !t.BasicType?
    requires !t.Map? ==> Dots(ParameterFormat(t.sub)) == Dots(FieldFormat(t.sub)) + 3 * EllipsisCount(t.sub)
    requires t.Map? ==> Dots(ParameterFormat(t.key)) == Dots(FieldFormat(t.key)) + 3 * EllipsisCount(t.key)
    requires t.Map? ==> Dots(ParameterFormat(t.sub)) == Dots(FieldFormat(t.sub)) + 3 * EllipsisCount(t.sub)
    ensures Dots(ParameterFormat(t)) == Dots(FieldFormat(t)) + 3 * EllipsisCount(t)
  {
    match t
    case Pointer(s) =>
      NoDots("*");
      DotsPrefix("*", ParameterFormat(s), FieldFormat(s), 3 * EllipsisCount(s));
    case Array(s, scale) =>
      DotsConcat("[" + scale + "]", ParameterFormat(s));
      DotsConcat("[" + scale + "]", FieldFormat(s));
    case Map(k, v) =>
      DotsMap(ParameterFormat(k), FieldFormat(k), ParameterFormat(v), FieldFormat(v),
              3 * EllipsisCount(k), 3 * EllipsisCount(v));
    case Channel(s) =>
      NoDots("chan ");
      DotsPrefix("chan ", ParameterFormat(s), FieldFormat(s), 3 * EllipsisCount(s));
    case ReceiveChannel(s) =>
      NoDots("<-chan ");
      DotsPrefix("<-chan ", ParameterFormat(s), FieldFormat(s), 3 * EllipsisCount(s));
    case SendChannel(s) =>
      NoDots("chan<- ");
      DotsPrefix("chan<- ", ParameterFormat(s), FieldFormat(s), 3 * EllipsisCount(s));
    case Ellipsis(s) =>
      DotsEllipsis(ParameterFormat(s), FieldFormat(s), 3 * EllipsisCount(s));
  }

  /** Each variadic puts three more dots in the parameter rendering than in the
      field rendering; everything else is written alike. */
  lemma {:induction false} DotsDiffer(t: Type)
    requires Resolved(t)
    ensures Dots(ParameterFormat(t)) == Dots(FieldFormat(t)) + 3 * EllipsisCount(t)
  {
    if t.Map? {
      DotsDiffer(t.key);
      DotsDiffer(t.sub);
      DotsDifferStep(t);
    } else if !t.BasicType? {
      DotsDiffer(t.sub);
      DotsDifferStep(t);
    }
  }

  /** Without a variadic, the field rendering is the parameter rendering. */
  lemma {:induction false} NoEllipsisFieldIsParameter(t: Type)
    requires Resolved(t) && EllipsisCount(t) == 0
    ensures FieldFormat(t) == ParameterFormat(t)
  {
    match t
    case BasicType(_, _) =>
    case Pointer(s) => NoEllipsisFieldIsParameter(s);
    case Array(s, _) => NoEllipsisFieldIsParameter(s);
    case Map(k, v) => NoEllipsisFieldIsParameter(k); NoEllipsisFieldIsParameter(v);
    case Channel(s) => NoEllipsisFieldIsParameter(s);
    case ReceiveChannel(s) => NoEllipsisFieldIsParameter(s);
    case SendChannel(s) => NoEllipsisFieldIsParameter(s);
  }

  /** The field and parameter renderings agree exactly when the tree holds no variadic. */
  lemma FieldMatchesParameterIff(t: Type)
    requires Resolved(t)
    ensures FieldFormat(t) == ParameterFormat(t) <==> EllipsisCount(t) == 0
  {
    if EllipsisCount(t) == 0 {
      NoEllipsisFieldIsParameter(t);
    } else {
      DotsDiffer(t);
    }
  }

  // ---------------------------------------------------------------------------
  // Pointers
  // ---------------------------------------------------------------------------

  /** `n` pointers around `t`. */
  function Pointers(n: nat, t: Type): Type
  {
    if n == 0 then t else Pointer(Pointers(n - 1, t))
  }

  /** `n` stars. */
  function Stars(n: nat): (r: string)
    ensures |r| == n && forall i :: 0 <= i < n ==> r[i] == '*'
  {
    if n == 0 then "" else "*" + Stars(n - 1)
  }

  /** `n` pointers around a resolved tree leave it resolved. */
  lemma {:induction false} PointersResolved(n: nat, t: Type)
    requires Resolved(t)
    ensures Resolved(Pointers(n, t))
  {
    if n > 0 {
      PointersResolved(n - 1, t);
    }
  }

  /** `n` nested pointers are written with `n` leading stars in parameter position. */
  lemma {:induction false} PointerChainParameter(n: nat, t: Type)
    requires Resolved(t)
    ensures Resolved(Pointers(n, t)) && ParameterFormat(Pointers(n, t)) == Stars(n) + ParameterFormat(t)
  {
    PointersResolved(n, t);
    if n > 0 {
      PointerChainParameter(n - 1, t);
      var p := ParameterFormat(t);
      var stars := Stars(n - 1);
      assert ParameterFormat(Pointers(n, t)) == "*" + (stars + p);
      assert ("*" + stars) + p == "*" + (stars + p);
    }
  }

  /** `n` nested pointers are written with `n` leading stars in field position. */
  lemma {:induction false} PointerChainField(n: nat, t: Type)
    requires Resolved(t)
    ensures Resolved(Pointers(n, t)) && FieldFormat(Pointers(n, t)) == Stars(n) + FieldFormat(t)
  {
    PointersResolved(n, t);
    if n > 0 {
      PointerChainField(n - 1, t);
      var f := FieldFormat(t);
      var stars := Stars(n - 1);
      var inner := Pointers(n - 1, t);
      assert Pointers(n, t) == Pointer(inner);
      calc {
        FieldFormat(Pointers(n, t));
        { FieldOfPointer(inner); }
        "*" + FieldFormat(inner);
        "*" + (stars + f);
        { assert Stars(n) == "*" + stars; }
        Stars(n) + f;
      }
    }
  }

  /** A pointer's field rendering is a star before its target's. */
  lemma FieldOfPointer(s: Type)
    requires Resolved(s)
    ensures FieldFormat(Pointer(s)) == "*" + FieldFormat(s)
  {
  }

  /** `n` nested pointers spread at a call site exactly when what they point at does. */
  lemma {:induction false} PointerChainReference(n: nat, t: Type)
    requires Resolved(t)
    ensures Resolved(Pointers(n, t)) && ReferenceFormat(Pointers(n, t)) == ReferenceFormat(t)
  {
    PointersResolved(n, t);
    if n > 0 {
      PointerChainReference(n - 1, t);
    }
  }

  // ---------------------------------------------------------------------------
  // Channels
  // ---------------------------------------------------------------------------

  /** For the same element, the three channel kinds render three different texts
      in both positions, so the direction is never lost; none spreads at a call site. */
  lemma ChannelDirectionsDistinct(s: Type)
    requires Resolved(s)
    ensures ParameterFormat(Channel(s)) != ParameterFormat(ReceiveChannel(s))
    ensures ParameterFormat(Channel(s)) != ParameterFormat(SendChannel(s))
    ensures ParameterFormat(ReceiveChannel(s)) != ParameterFormat(SendChannel(s))
    ensures FieldFormat(Channel(s)) != FieldFormat(ReceiveChannel(s))
    ensures FieldFormat(Channel(s)) != FieldFormat(SendChannel(s))
    ensures FieldFormat(ReceiveChannel(s)) != FieldFormat(SendChannel(s))
    ensures ReferenceFormat(Channel(s)) == ReferenceFormat(ReceiveChannel(s)) == ReferenceFormat(SendChannel(s)) == ""
  {
    var p := ParameterFormat(s);
    var f := FieldFormat(s);
    assert ParameterFormat(Channel(s))[0] == 'c' && ParameterFormat(ReceiveChannel(s))[0] == '<';
    assert ParameterFormat(Channel(s))[4] == ' ' && ParameterFormat(SendChannel(s))[4] == '<';
    assert ParameterFormat(SendChannel(s))[0] == 'c';
    assert FieldFormat(Channel(s))[0] == 'c' && FieldFormat(ReceiveChannel(s))[0] == '<';
    assert FieldFormat(Channel(s))[4] == ' ' && FieldFormat(SendChannel(s))[4] == '<';
    assert FieldFormat(SendChannel(s))[0] == 'c';
  }

  /** A map is written from its key and value in the same position. */
  lemma MapRenderings(k: Type, v: Type)
    requires Resolved(k) && Resolved(v)
    ensures ParameterFormat(Map(k, v)) == "map[" + ParameterFormat(k) + "]" + ParameterFormat(v)
    ensures FieldFormat(Map(k, v)) == "map[" + FieldFormat(k) + "]" + FieldFormat(v)
    ensures ReferenceFormat(Map(k, v)) == ""
  {
  }
}

=== FILE: wrappers.dfy ===
/** Failure-carrying datatypes shared by every module of the model. */
module Wrappers {

  /** A value that may be absent (Go's nil pointer or nil slice of a syntax node). */
  datatype Option<+T> = None | Some(value: T)

  /** Why a resolution or construction step failed. The source reports each of these
      with an `error` value, except `Panic`, which stands for a Go run-time panic
      (a failed type assertion, a nil dereference, an index out of range): the
      process dies, and no output is produced. */
  datatype Error =
    | UnsupportedExpr      // a syntax node kind the resolver does not know
    | UnsupportedArrayLen  // an array length that is not a basic literal
    | UnsupportedType      // a semantic type kind the resolver does not know
    | ExpectedFuncType     // an interface field that is not a method
    | PrinterFailed        // the Go printer could not re-print an anonymous type
    | NotPresent           // the import to remove is not in the set
    | Panic                // a Go run-time panic

  /** The outcome of a step that returns `(T, error)` in the source. */
  datatype Result<+T> = Ok(value: T) | Err(error: Error)
}
